=== FILE: README.md ===
# Krist e-commerce backend: a Dafny model of its service logic

This project models the core of a NestJS/TypeORM e-commerce backend, with the
framework and the database stripped away:

- the catalog registries (categories, subcategories, products, sizes, banners);
- newsletter subscriptions;
- the cart and the wishlist join tables;
- order creation and coupon pricing;
- users, with sign-up, sign-in, sign-out and refresh-token rotation;
- the storage parameters and file-count rules of image upload;
- the request-body (DTO) validators.

## How the model is built

- **Tables.** Every repository is a `Table<R>`: a map from generated ids to
  rows, plus a counter. The counter is above every stored key, so each
  insert takes a fresh id.
- **Ids.** UUIDs are natural numbers. `ORDER BY id ASC` lists rows by
  ascending key. `findOne` on a non-key column returns the matching row with
  the smallest id, as a fixed stand-in for the database's arbitrary pick.
  In the same way, a `find` that names no order (the unpaginated category,
  subcategory, banner and size listings, and the cart) lists its rows by
  ascending id. That order is the model's choice; the source promises
  none.
- **Services.** Each service method is a pure function from the tables (the
  `Db`) and the request to a `Reply`. A `Reply` holds the state after the
  call and either the returned value or the raised error.
- **Errors.** An error carries its kind: one of the framework's HTTP
  exceptions (`BadRequest`, `NotFound`, `Conflict`, `Unauthorized`,
  `InternalServerError`), or `Uncaught`. `Uncaught` covers any other error
  (a TypeORM `EntityNotFoundError`, a constraint violation, a JWT verify
  error, a plain `Error`); the framework answers all of these with status
  500.
- **Catch blocks.** A block that re-raises is `Rethrow`. The `||` fallback on
  an empty message is `OrElse`.
- **Money.** Amounts are exact Dafny `real`s, where the program computes in
  binary doubles. `+x.toFixed(2)` is `Money.Round2`: rounding the exact
  value to cents, halves away from zero. The program instead rounds the
  double nearest the value, so at a half-cent the two can differ. A
  subtotal of 100.5 with a 1% coupon shows it: the double nearest 1.005 lies
  just below it, so the program's discount is 1.00 where the model's is
  1.01. The totals can differ by a cent in the same way.
- **Pagination.** One shared `Pagination.Paginate` performs the bounds check,
  the skip/take window and the metadata. Every paginated listing (products,
  categories, subcategories, banners, newsletters) is defined through it,
  differing only in its filter and its catch block.
- **Foreign primitives.** bcrypt and JWT are the fields of a `Users.Crypto`
  value: `hash`, `sign` and `verify`, uninterpreted. `bcrypt.compare(p, h)`
  is `hash(p) == h`.
- **Legacy services.** `src/users` is the same code as `src/modules/user`,
  less `clearRefreshToken`. `src/auth` differs from `src/modules/auth` only
  in the message for a wrong password and in how `logout` clears the token.
  A `Variant` parameter picks the message; the rest is shared.
- **Database rules.** Column widths, NOT NULL columns, unique constraints and
  foreign keys are stated where a service depends on them. A write that
  breaks one fails with the database's message, uncaught. The module
  `Cascades` states the `ON DELETE` actions of the schema as functions on the
  whole `Db`, and shows that they keep every reference pointing at an
  existing row.
- **Upload size.** The storage callback checks `file.size`, but multer
  calls it before the file is stored, so the size is still undefined there.
  `undefined > 5242880` is false, so that check refuses no file.
  `Upload.File` carries the size as an `Option`, and
  `Upload.SizeCheckNeverRefusesUnstoredFile` states the consequence.

Where the entity and the service disagree, the model follows the service:

- The product entity shown has no `slug`, `short_description` or
  `imageUrls` column (its only image column is `image_url`), but the service
  reads and writes all three, so the model keeps them, with no width.
- The banner entity has no `slug` or `description` column, so the body's
  values are not stored.
- The paginated category listing joins `category.products`
  (src/modules/category/category.service.ts:49), and the paginated
  subcategory listing joins `subcategory.products`
  (src/modules/subcategory/subcategory.service.ts:48). Neither
  src/entities/category.entity.ts nor src/entities/subcategory.entity.ts
  declares a `products` relation. With the entities as shown, TypeORM
  refuses the join, and every such listing ends in its internal-error catch.
  The model assumes the relations exist, and leaves the joined rows out.

## Model

| member | source | states |
|---|---|---|
| Money.Round2 | src/modules/coupon/coupon.service.ts:51-52 | `+x.toFixed(2)`, on exact reals: the result is a whole number of cents within half a cent of `x`, a tie going away from zero, and non-negative amounts stay non-negative |
| Money.Round2IsTheNearestCent | src/modules/coupon/coupon.service.ts:51-52 | those properties determine the result: any whole number of cents within half a cent of `x`, a tie resolved away from zero, is `Round2(x)` |
| Money.Round2Exact | src/modules/coupon/coupon.service.ts:51-52 | an amount already in whole cents is left unchanged by rounding |
| Money.Round2Monotone | src/modules/coupon/coupon.service.ts:51-52 | rounding never reverses the order of two non-negative amounts |
| Money.Max0 | src/modules/coupon/coupon.service.ts:44 | `Math.max(0, x)` is non-negative, at least `x`, and either `x` or 0 |
| Pagination.CeilDiv | src/modules/product/product.service.ts:95 | `Math.ceil(total / limit)` is the fewest pages of `limit` rows that hold `total` rows, and is 0 exactly for no rows |
| Pagination.Window | src/modules/product/product.service.ts:90-93 | `skip`/`take` returns at most `take` rows, row `j` being row `skip + j` of the ordered result, and exactly as many as remain |
| Pagination.CheckBounds | src/modules/product/product.service.ts:140-144 | `validatePagination` passes exactly when page ≥ 1 and limit ≥ 1 |
| Pagination.MakePage | src/modules/product/product.service.ts:95-108 | the metadata: total, current page and page size echoed; `totalPages` the ceiling of total/limit; hasNext iff page < totalPages; hasPrev iff page > 1; data is the window from `(page-1)*limit` |
| Pagination.Paginate | src/modules/product/product.service.ts:42-52 | absent page/limit default to 1 and 24; page < 1 is a bad request checked before limit < 1; otherwise the page described by MakePage |
| Pagination.PageRowsSatisfy | src/modules/product/product.service.ts:89-93 | a page holds only rows of the filtered result, so any property all those rows have holds for the page |
| Pagination.HasNextIffRowsBeyondPage | src/modules/product/product.service.ts:106 | hasNext holds exactly when rows remain beyond `page * limit` |
| Pagination.HasPrevIffRowsSkipped | src/modules/product/product.service.ts:107 | hasPrev holds exactly when the query skips some rows |
| Pagination.NonEmptyIffWithinPages | src/modules/product/product.service.ts:91-95 | a page has rows exactly when its number is at most totalPages |
| Pagination.EveryRowOnItsPage | src/modules/product/product.service.ts:91-95 | row `i` is entry `i % limit` of page `i / limit + 1`, and that page lies within totalPages |
| Pagination.PageFullWhenHasNext | src/modules/product/product.service.ts:91-106 | every page before the last holds exactly `limit` rows |
| Products.PriceFilter | src/modules/product/product.service.ts:146-163 | both bounds with min > max is a bad request; otherwise the filter is [min, max], with 0 and MAX_SAFE_INTEGER for the missing side, and none when neither bound is given |
| Products.FindAllProducts | src/modules/product/product.service.ts:42-115 | bounds checked, then the price filter; every failure is re-raised as an internal error carrying the original message; success is one page of the price-matching products by id |
| Products.ListedProductsInRange | src/modules/product/product.service.ts:149-160 | every listed product is a stored row whose price lies within the given bounds, inclusively |
| Products.BoundsInclusive | src/modules/product/product.service.ts:155 | a price equal to either bound passes `Between` |
| Products.ProductRow | src/modules/product/product.service.ts:200-213 | a falsy description or original price is stored as null; the flags default to false; the rest is copied from the body |
| Products.RowError | src/entities/product.entity.ts:23-47 | the save of a product row fails exactly when a column cannot hold its value: a name over 100 or a description over 10000 or an image URL over 255 characters (too long), or a current or original price outside `decimal(10,2)` (numeric overflow) |
| Products.CreateProduct | src/modules/product/product.service.ts:117-137 | an existing slug, then a missing category, subcategory or creator, then a row its columns cannot hold, each re-raised as an internal error carrying its message, with state unchanged; otherwise exactly one new row, and no other row changes |
| Products.DecimalFitsIffRoundedFits | src/entities/product.entity.ts:29-38 | a price fits `decimal(10,2)` exactly when its value rounded to cents is below 10^8 in magnitude |
| Products.HugePriceFails | src/entities/product.entity.ts:29-30 | a current price of 10^8 passes the service's checks and fails the save with an internal error carrying the overflow message |
| Products.CreateProductKeepsSlugsUnique | src/modules/product/product.service.ts:182-191 | creation keeps product slugs unique |
| Products.FalsyDefaults | src/modules/product/product.service.ts:204-206 | an original price of 0 and an empty description are both stored as null |
| Categories.FindAllCategories | src/modules/category/category.service.ts:36-86 | bounds errors become internal errors with the same message; success is one page of the name-matching categories, and without a search its total counts every category |
| Categories.ListCategories | src/modules/category/category.service.ts:24-34 | every category is listed, each as stored, once, in the model's ascending-id order |
| Categories.FindCategory | src/modules/category/category.service.ts:185-193 | the stored category, or not-found "Category not found." |
| Categories.SubcategoriesByCategoryId | src/modules/category/category.service.ts:117-134 | not-found for an unknown category; otherwise exactly the subcategories linked to it, each once, in the model's ascending-id order |
| Categories.SubcategoriesByCategorySlug | src/modules/category/category.service.ts:98-115 | not-found when no category has the slug; otherwise the subcategories of the first category with it, each once, in the model's ascending-id order |
| Categories.CreateCategory | src/modules/category/category.service.ts:136-149 | a slug in use is a bad request that changes nothing; otherwise exactly one new row with the body's fields |
| Categories.CreateCategoryKeepsSlugsUnique | src/modules/category/category.service.ts:139-142 | creation keeps slugs unique, and afterwards a category with the slug exists |
| Categories.Merge | src/modules/category/category.service.ts:157 | `Object.assign`: each field present in the body overwrites, the others stay |
| Categories.UpdateCategory | src/modules/category/category.service.ts:151-165 | not-found for an unknown id; otherwise only that row changes, to the merge |
| Categories.EmptyUpdateIsIdentity | src/modules/category/category.service.ts:157 | an update with no fields leaves the table as it was |
| Categories.UpdateCanDuplicateSlug | src/modules/category/category.service.ts:151-165 | update skips the slug check, so giving one category another's slug succeeds and breaks uniqueness |
| Categories.DeleteCategory | src/modules/category/category.service.ts:167-175 | not-found for an unknown id; a category still referenced by a subcategory or product fails on the foreign key; otherwise exactly that row is removed |
| Subcategories.FindAllSubcategories | src/modules/subcategory/subcategory.service.ts:34-92 | bounds errors become internal errors with the same message; success is one page of the rows passing the optional name search and optional category-slug filter |
| Subcategories.ListedSubcategoriesMatchCategory | src/modules/subcategory/subcategory.service.ts:61-65 | with a category slug given, every listed subcategory belongs to a category with that slug |
| Subcategories.ListSubcategories | src/modules/subcategory/subcategory.service.ts:22-32 | every subcategory is listed, each as stored, once, in the model's ascending-id order |
| Subcategories.FindSubcategory | src/modules/subcategory/subcategory.service.ts:158-169 | the stored subcategory, or not-found with a message quoting the id |
| Subcategories.NotFoundMessageQuotesId | src/modules/subcategory/subcategory.service.ts:165 | the not-found message determines the id: equal messages mean equal ids |
| Subcategories.CreateSubcategory | src/modules/subcategory/subcategory.service.ts:104-121 | a slug in use is a bad request; a named category that does not exist fails on the foreign key; otherwise one new row linked to the body's category |
| Subcategories.CreateSubcategoryKeepsSlugsUnique | src/modules/subcategory/subcategory.service.ts:172-182 | creation keeps slugs unique, and after success only the new row has the slug |
| Subcategories.Merge | src/modules/subcategory/subcategory.service.ts:129 | present fields overwrite, the others and the category link stay |
| Subcategories.EditSubcategory | src/modules/subcategory/subcategory.service.ts:123-138 | not-found quoting the id for an unknown id; otherwise only that row changes, to the merge |
| Subcategories.DeleteSubcategory | src/modules/subcategory/subcategory.service.ts:140-148 | not-found for an unknown id; a subcategory still referenced by a product fails on the foreign key; otherwise exactly that row is removed |
| Banners.FindAllBanners | src/modules/banners/banners.service.ts:17-61 | a bounds error is re-raised as a plain error prefixed "Error fetching banners: "; success is one page of the name-matching banners |
| Banners.ListBanners | src/modules/banners/banners.service.ts:63-73 | every banner is listed, each as stored, once, in the model's ascending-id order |
| Banners.FindBanner | src/modules/banners/banners.service.ts:75-90 | the stored banner, or the bad request "Banner not found." |
| Banners.CreateBanner | src/modules/banners/banners.service.ts:92-113 | a banner with the same name and product is a bad request; a missing image fails the NOT NULL column; an unknown product fails the foreign key; otherwise one new row, active by default |
| Banners.CreateBannerKeepsKeysUnique | src/modules/banners/banners.service.ts:93-99 | creation keeps (name, product) unique |
| Banners.Apply | src/modules/banners/banners.service.ts:146-151 | name and image overwrite only when truthy; isActive whenever present, false included; a given product re-links |
| Banners.EditBanner | src/modules/banners/banners.service.ts:115-160 | bad request for an unknown id; the duplicate check only with both name and product, ignoring the banner itself; otherwise only that row changes |
| Banners.FullEditKeepsKeysUnique | src/modules/banners/banners.service.ts:129-142 | an edit giving both name and product keeps (name, product) unique |
| Banners.RenameCanDuplicate | src/modules/banners/banners.service.ts:129 | a rename without the product skips the check and can duplicate a (name, product) pair |
| Banners.EmptyStringsDoNotOverwrite | src/modules/banners/banners.service.ts:146-149 | empty strings in the body leave the stored name and image in place |
| Banners.DeleteBanner | src/modules/banners/banners.service.ts:162-175 | bad request for an unknown id; otherwise exactly that row is removed |
| Sizes.ListSizes | src/modules/size/size.service.ts:18-26 | every size is listed, each as stored, once, in the model's ascending-id order |
| Sizes.FindSize | src/modules/size/size.service.ts:28-40 | the stored size, or not-found "Size not found" |
| Sizes.CreateSize | src/modules/size/size.service.ts:42-59 | an existing name is a bad request; a name wider than the 10-character column fails at the database; otherwise one new row with that name |
| Sizes.CreateSizeKeepsNamesUnique | src/modules/size/size.service.ts:43-49 | creation keeps size names unique |
| Sizes.EditSize | src/modules/size/size.service.ts:61-84 | not-found for an unknown id; any size with the new name, itself included, is a bad request; a name wider than the 10-character column fails at the database; otherwise only the name of that row changes |
| Sizes.EditToOwnNameFails | src/modules/size/size.service.ts:68-74 | renaming a size to its current name is rejected as a duplicate |
| Sizes.EditSizeKeepsNamesUnique | src/modules/size/size.service.ts:68-77 | an edit keeps size names unique |
| Sizes.DeleteSize | src/modules/size/size.service.ts:86-99 | not-found for an unknown id; otherwise exactly that row is removed |
| Subscriptions.Subscribe | src/modules/subscribe/subscribe.service.ts:26-66 | a subscribed email is a conflict; a failing save is an internal error; otherwise one new row with the email, linked iff a user has that email, with the message telling which |
| Subscriptions.SubscribeKeepsConsistent | src/entities/newsletter.entity.ts:18-24 | subscribing keeps emails unique and each user linked to at most one subscription |
| Subscriptions.SubscribeTwiceConflicts | src/modules/subscribe/subscribe.service.ts:32-38 | the same email subscribing again is a conflict |
| Subscriptions.FindAllNewsletters | src/modules/subscribe/subscribe.service.ts:68-114 | every failure, the bounds errors included, becomes one generic internal error; success is one page of the email-matching rows |
| Subscriptions.DeleteNewsletter | src/modules/subscribe/subscribe.service.ts:116-134 | bad request for an unknown id; otherwise exactly that row is removed |
| Coupons.FindActive | src/modules/coupon/coupon.service.ts:28-31 | a coupon is found only if active with the code, and none is found exactly when no such coupon exists |
| Coupons.Discount | src/modules/coupon/coupon.service.ts:37-42 | a percentage coupon takes amount% of the subtotal, a fixed one its amount |
| Coupons.ApplyCoupon | src/modules/coupon/coupon.service.ts:19-55 | not-found without an active coupon; expired strictly after `expiresAt`; otherwise the stored code with the rounded discount and the rounded clamped total |
| Coupons.FoundIsTheCodesCoupon | src/entities/coupon.entity.ts:11-12 | with unique codes, the coupon found is the one with the code exactly when it is active |
| Coupons.ExpiryBoundary | src/modules/coupon/coupon.service.ts:33-35 | the expiry instant itself is accepted; no expiry never expires; an inactive coupon is never applied |
| Coupons.PercentageExample | src/modules/coupon/coupon.service.ts:38-39 | 10% of 200 is 20, leaving 180 |
| Coupons.FixedDiscountNotClamped | src/modules/coupon/coupon.service.ts:41-44 | a fixed amount above the subtotal is reported in full while the total is 0 |
| Coupons.TotalAtMostSubtotal | src/modules/coupon/coupon.service.ts:44-52 | with non-negative subtotal and discount, the rounded total never exceeds the rounded subtotal |
| Carts.FindPair | src/modules/cart/cart.service.ts:24-26 | a row is found only for the pair, and none is found exactly when the pair has no row |
| Carts.CheckUserAndProduct | src/modules/cart/cart.service.ts:21-22 | the user is loaded before the product, each failing with the ORM's not-found error |
| Schema.Int4Error | src/entities/cart.entity.ts:19-20 | the database's refusal of a number an `integer` column cannot hold: not an integer for a fraction, out of range for a whole number outside -2147483648..2147483647 |
| Carts.AddedQuantity | src/modules/cart/cart.service.ts:28-33 | the quantity saved: the pair's stored quantity plus the requested one, or the requested one for a new pair |
| Carts.AddToCart | src/modules/cart/cart.service.ts:18-35 | unknown user or product fails first, changing nothing; a quantity to save that the `integer` column cannot hold fails the save, uncaught, changing nothing; otherwise an existing pair's quantity grows by the request, without a new row, or one new row holds the quantity |
| Carts.AddPastInt4MaxFails | src/modules/cart/cart.service.ts:28-30 | adding 1 to a pair holding 2147483647 fails with the range error and leaves the database unchanged |
| Carts.AddToCartKeepsOneRowPerPair | src/modules/cart/cart.service.ts:24-34 | adding keeps one row per (user, product), and afterwards the pair has a row |
| Carts.UpdateQuantity | src/modules/cart/cart.service.ts:37-47 | unknown user, product or missing row fails; then a quantity the `integer` column cannot hold fails the save, uncaught; otherwise only that row's quantity is overwritten |
| Carts.RemoveFromCart | src/modules/cart/cart.service.ts:49-54 | unknown user or product fails; otherwise exactly the pair's rows are deleted, the others unchanged |
| Carts.GetCart | src/modules/cart/cart.service.ts:56-63 | unknown user fails; otherwise exactly the rows of that user, each as stored and each once, in the model's ascending-id order |
| Wishlists.FindPair | src/modules/wishlist/wishlist.service.ts:36-38 | a row is found only for the pair, and none is found exactly when the pair has no row |
| Wishlists.AddToWishlist | src/modules/wishlist/wishlist.service.ts:25-50 | unknown user, then unknown product, are not-found; an existing pair is a conflict; otherwise one new row stamped with the insert time |
| Wishlists.AddToWishlistKeepsOneRowPerPair | src/entities/wishlist.entity.ts:12-13 | adding keeps one row per (user, product) |
| Wishlists.RemoveFromWishlist | src/modules/wishlist/wishlist.service.ts:69-85 | a missing pair is not-found; otherwise exactly the found row is removed and the data is null |
| Wishlists.RemoveLeavesNoRowForPair | src/modules/wishlist/wishlist.service.ts:69-78 | under the unique-pair constraint, no row for the pair remains after removal |
| Wishlists.InsertNewest | src/modules/wishlist/wishlist.service.ts:59 | inserting into a newest-first list keeps it newest-first and adds exactly the entry |
| Wishlists.SortNewest | src/modules/wishlist/wishlist.service.ts:59 | the result is a newest-first permutation of the input |
| Wishlists.InsertNewestKeepsDistinct | src/modules/wishlist/wishlist.service.ts:59 | inserting an entry with a new key into a list without repeated keys repeats none |
| Wishlists.SortNewestKeepsDistinct | src/modules/wishlist/wishlist.service.ts:59 | sorting newest first repeats no key that the input did not repeat |
| Wishlists.GetWishlist | src/modules/wishlist/wishlist.service.ts:52-67 | unknown user is not-found; otherwise exactly that user's rows, each once, newest `createdAt` first |
| Orders.SavedPrefix | src/modules/order/order.service.ts:41-53 | the line loop saves lines up to the first one whose product does not exist or whose quantity does not fit the integer column: not whole, or outside -2147483648..2147483647 |
| Orders.SavedPrefixAll | src/modules/order/order.service.ts:41-53 | the loop completes exactly when every line can be saved: every product exists and every quantity is a whole number in the integer column's range |
| Orders.LoopError | src/modules/order/order.service.ts:42-53 | the loop's error: the product lookup's not-found first; else the integer column's rejection, as not an integer for a fractional quantity and as out of range for a whole one outside the column's range |
| Orders.ClampedTotal | src/modules/order/order.service.ts:59-60 | total plus shipping minus coupon, replaced by 0 when negative |
| Orders.InitialOrder | src/modules/order/order.service.ts:23-34 | the first save: status pending, price 0, shipping and coupon from the body or 0, user, methods and address copied from the body |
| Orders.SaveLines | src/modules/order/order.service.ts:41-56 | each line is stored as its product's line, one per requested item in request order, the table gains only those rows, and older lines stay (the ids come from the model's counter) |
| Orders.SavedLinesFresh | src/modules/order/order.service.ts:46-53 | the saved lines' ids are new and pairwise different, and the table gains exactly the rows under them |
| Orders.CreateOrder | src/modules/order/order.service.ts:19-72 | an unknown user, then an address wider than 255 characters, fails before any write; an unsavable line ends the loop with the pending order added and exactly the earlier lines saved; otherwise exactly one new order with the body's fields and the clamped total as price, and exactly one new line per requested product |
| Orders.WorkedTotal | src/modules/order/order.service.ts:43-60 | lines 10 × 2 and 5 × 1 with shipping 3 and coupon 5 give 23 |
| Orders.NegativeQuantityLowersTotal | src/modules/order/dto/order.dto.ts:8-9 | a negative quantity is valid and lowers the total, which the clamp then raises to 0 |
| Orders.FractionalQuantityFails | src/entities/order-product.entity.ts:24-25 | a valid body with quantity 1.5 leaves the pending order saved, saves no line, and fails on the integer column |
| Orders.HugeQuantityFails | src/entities/order-product.entity.ts:24-25 | a valid body with quantity 2147483648 leaves the pending order saved, saves no line, and fails with the integer column's range error |
| Cascades.DeleteOrder | src/entities/order-product.entity.ts:16 | deleting an order deletes exactly its line items |
| Cascades.DeleteOrderKeepsIntegrity | src/entities/order-product.entity.ts:16-17 | deleting an order leaves every reference pointing at an existing row |
| Cascades.DeleteProduct | src/entities/banner.entity.ts:28-32 | a product with a banner is not deleted; otherwise its line items, cart rows, wishlist rows and sizes go with it |
| Cascades.DeleteProductKeepsIntegrity | src/entities/order-product.entity.ts:20-21 | deleting a product leaves every reference pointing at an existing row |
| Cascades.DeleteUser | src/entities/order.entity.ts:19-22 | a user with a subscription is not deleted; otherwise their orders, those orders' lines, cart rows and wishlist rows go, and their products lose their creator |
| Cascades.DeleteUserKeepsIntegrity | src/entities/product.entity.ts:76-80 | deleting a user leaves every reference pointing at an existing row |
| Cascades.LinePriceIsSnapshot | src/entities/order-product.entity.ts:27-28 | a later change of a product's price leaves the placed order's line prices as they were |
| Users.FindById | src/modules/user/user.service.ts:19-21 | the stored user, or none |
| Users.FindByIdentifier | src/modules/user/user.service.ts:23-27 | a user whose email or phone is the identifier, and none exactly when no user has it as either |
| Users.CreateUser | src/modules/user/user.service.ts:29-51 | a taken identifier is a conflict; a row too wide for its columns is an internal error; otherwise the identifier is the email iff it has '@', else the phone, the other null, with the hashed password; role and refresh token are the body's when it carries them, the role otherwise customer |
| Users.SignUpBodyChoosesRole | src/modules/user/user.service.ts:39-44 | a sign-up body carrying `role: admin` creates an admin |
| Users.Whitelist | src/main.ts:26 | a whitelisting pipe drops the undeclared role and refresh token and keeps the declared fields |
| Users.CreateUserWhitelisted | src/modules/user/user.service.ts:29-51 | creation from the whitelisted body succeeds and fails exactly as creation does, and a new user is then always a customer without a refresh token |
| Users.WhitelistKeepsDeclaredBody | src/modules/user/user.service.ts:29-51 | for a body with only the declared fields, whitelisting changes nothing |
| Users.CreateUserKeepsContactsUnique | src/entities/user.entity.ts:22-28 | creation keeps emails and phones unique, and the identifier then finds the new user |
| Users.UpdateRefreshToken | src/modules/user/user.service.ts:53-61 | only that user's stored token changes, to the hash of the token |
| Users.ClearRefreshToken | src/modules/user/user.service.ts:63-65 | only that user's stored token changes, to null |
| Users.TokenUpdatesKeepContactsUnique | src/modules/user/user.service.ts:53-65 | neither token update can break the email or phone uniqueness |
| Auth.GenerateToken | src/modules/auth/auth.service.ts:141-158 | both tokens are signed over exactly {id, role}, for 7d/30d when remembered and 15m/7d otherwise |
| Auth.SignUp | src/modules/auth/auth.service.ts:32-54 | an empty identifier is a bad request; creation errors pass through; otherwise a non-remembered pair whose refresh token's hash is stored on the new user |
| Auth.SignUpCanClaimAdmin | src/modules/auth/auth.service.ts:32-54 | a sign-up body carrying `role: admin` stores an admin and receives an access token whose claims say admin |
| Auth.SignIn | src/modules/auth/auth.service.ts:56-95 | empty identifier is a bad request; unknown identifier is "Invalid credentials!"; succeeds iff the password matches, else the variant's message; success stores the new refresh token's hash |
| Auth.SignInFailuresDistinguishable | src/auth/auth.service.ts:111-120 | the current service tells a wrong password from an unknown identifier; the legacy one answers both "Invalid credentials!" |
| Auth.SignOut | src/modules/auth/auth.service.ts:97-110 | unknown user is not-found; otherwise the user's stored token becomes null |
| Auth.Rotate | src/modules/auth/auth.service.ts:112-139 | a rejected token fails uncaught; success needs a known user and an accepted comparison, then issues a non-remembered pair, stores its hash and reports 900 seconds |
| Auth.RefreshToken | src/modules/auth/auth.service.ts:119-121 | refresh as written: succeeds exactly when the stored value is the presented token itself |
| Auth.RefreshTokenFixed | src/modules/auth/auth.service.ts:119-121 | refresh comparing the hash: succeeds exactly when the stored value is the token's hash |
| Auth.IssuedRefreshTokenIsRejected | src/modules/auth/auth.service.ts:119-121 | the refresh token a sign-in just issued refreshes iff hashing leaves it unchanged |
| Auth.BcryptHashNeverMatchesJwt | src/modules/user/user.service.ts:57-60 | with a 60-character hash and a longer JWT, the issued refresh token is always refused |
| Auth.SignUpTokenIsRejected | src/modules/auth/auth.service.ts:39-43 | the same for the pair issued at sign-up |
| Auth.IssuedRefreshTokenIsAccepted | src/modules/auth/auth.service.ts:116-128 | with the hash comparison, the token a sign-in issued refreshes |
| Auth.FixedRefreshRotates | src/modules/auth/auth.service.ts:124-128 | with the hash comparison, the new token refreshes next and the old one is refused unless it hashes alike |
| Auth.SignOutRevokes | src/modules/auth/auth.service.ts:100-104 | after sign-out no token refreshes that user's session, under either comparison |
| Upload.Classify | src/config/cloudinary.storage.config.ts:25-30 | image for "image/", video for "video/", raw otherwise |
| Upload.SecondSegment | src/config/cloudinary.storage.config.ts:23 | `split('/')[1]` is absent exactly without a '/', and never holds one |
| Upload.SecondSegmentOfMimetype | src/config/cloudinary.storage.config.ts:23 | the second segment of `type/subtype` is the subtype |
| Upload.ToLower | src/config/cloudinary.storage.config.ts:23 | lowering keeps the length and lowers each character |
| Upload.Format | src/config/cloudinary.storage.config.ts:40 | the format is the lowered subtype when whitelisted, else undefined |
| Upload.Underscored | src/config/cloudinary.storage.config.ts:41 | every whitespace character becomes '_', nothing else changes |
| Upload.UnderscoredIdempotent | src/config/cloudinary.storage.config.ts:41 | renaming twice is renaming once |
| Upload.StorageParams | src/config/cloudinary.storage.config.ts:18-43 | a known size over 5 MiB is an error, an undefined size never; otherwise folder 'kirst', the format, the resource type, and the time-prefixed underscored name |
| Upload.SizeLimitIsInclusive | src/config/cloudinary.storage.config.ts:33-36 | with a known size, exactly 5 MiB is accepted and one byte more refused |
| Upload.SizeCheckNeverRefusesUnstoredFile | src/config/cloudinary.storage.config.ts:34 | with the size still undefined, every file passes and gets the parameters of an empty file |
| Upload.LongSubtypesAreNotAllowed | src/config/cloudinary.storage.config.ts:22 | no whitelisted format is longer than four letters |
| Upload.SvgHasNoFormat | src/config/cloudinary.storage.config.ts:40 | "image/svg+xml" gets no format |
| Upload.UpperCaseSubtypeIsLowered | src/config/cloudinary.storage.config.ts:23 | "image/JPEG" gets format "jpeg" |
| Upload.QuicktimeHasNoFormat | src/config/cloudinary.storage.config.ts:22-23 | "video/quicktime" gets no format, though "mov" is whitelisted |
| Upload.NoSubtypeNoFormat | src/config/cloudinary.storage.config.ts:23 | a mimetype without '/' gets no format |
| Upload.UploadMultiple | src/modules/upload/upload.controller.ts:28-37 | no files or none is a bad request; more than 4 is a bad request; 1 to 4 are forwarded unchanged |
| Upload.FiveFilesPassInterceptorButFail | src/modules/upload/upload.controller.ts:26-34 | among the counts the interceptor admits, exactly 5 reaches the handler and is refused |
| Validators.SlugTailIff | src/modules/product/dto/editProduct.dto.ts:23 | the pattern's tail accepts exactly the [a-z0-9-] strings without a doubled or final hyphen |
| Validators.SlugCharacterization | src/modules/product/dto/editProduct.dto.ts:23 | the slug pattern accepts exactly the non-empty [a-z0-9-] strings without a leading, trailing or doubled hyphen |
| Validators.SlugAccepted | src/modules/product/dto/editProduct.dto.ts:23-26 | "mens-fashion" is a slug |
| Validators.SlugHyphenRejected | src/modules/product/dto/editProduct.dto.ts:23 | leading, trailing and doubled hyphens are rejected |
| Validators.SlugCharRejected | src/modules/product/dto/editProduct.dto.ts:23 | an upper-case letter, a space and the empty string are rejected |
| Validators.AcceptedSlugsAreWellFormed | src/modules/banners/dto/create-banner.dto.ts:17-24 | every slug the four DTOs accept is well formed |
| Validators.EmptyCategoryUpdateIsValid | src/modules/category/dto/update-category.dto.ts:9-28 | the update body with no fields is valid |
| Validators.PriceExamples | src/modules/product/dto/editProduct.dto.ts:40-42 | 19.99 is a valid price; 19.999 and -1 are not |

The DTO rules themselves are the predicates `Validators.ValidEditProductDto`
(src/modules/product/dto/editProduct.dto.ts),
`Validators.ValidCreateSubCategoryDto`, `Validators.ValidUpdateCategoryDto`,
`Validators.ValidCreateBannerDto`, `Orders.ValidDto`, `Sizes.ValidSizeDto`
and `Users.ValidSignUpDto`. The column widths and defaults the services rely
on are constants in `Schema`: `NameWidth`, `EmailWidth`, `PhoneWidth`,
`SizeNameWidth`, `NewsletterEmailWidth`, `AddressWidth`, `Int4Min`, `Int4Max`
and `DefaultRole`. The legacy `src/users/users.service.ts` and
`src/auth/auth.service.ts` are covered by the same `Users` and `Auth` members.
For the legacy auth, the `Legacy` variant selects the sign-in message, and
`logout` is `Auth.SignOut`.

## Left out

- Controllers and module wiring are not modelled. The `parseInt`/`Number`
  coercion of query strings is one consequence: it turns a missing parameter
  into NaN, but the model takes an `Option<int>` whose absence means the
  default.
- Controller routes to service methods that do not exist (cart
  increment/decrement/clear, category `findBySlug`, the user listing and
  edits) are not modelled, because there is no code behind them.
- Query construction is not modelled: `ILIKE` matching is a parameter
  `ilike`; joins, column selection and eager relations are left out, and a
  listing returns the stored rows.
- bcrypt salting, and the JWT format and expiry, are not modelled: `hash`,
  `sign` and `verify` are uninterpreted, so nothing depends on the lifetimes
  beyond the strings passed to `sign`.
- The OTP forgot/verify flow is not modelled: no service shown implements it.
- The Cloudinary folder creation and upload, the contact service, the upload
  service and the Stripe wrapper are not modelled: they are calls into
  foreign SDKs or pass-throughs.
- `Date.now()` and `new Date()` are parameters (`now`).
- Money.Round2: floating point is not modelled. Money is an exact real, so
  the binary double arithmetic of the coupon and order totals
  (src/modules/coupon/coupon.service.ts:38-52,
  src/modules/order/order.service.ts:43-44 and 59) is not modelled, and
  neither is `toFixed` rounding the binary value rather than the decimal
  one.
- Coupons.ApplyCoupon: the discount and total are those of exact-real
  rounding, so they can differ by a cent from the program's at half-cent
  values, as described under "How the model is built".
- Orders.CreateOrder: decimal columns are taken as exact, and only the
  address width and the integer quantity column are modelled as failing
  saves. A `shipping` or `coupon` sent as a string is not modelled: the
  validation pipe does not transform, so `@Type(() => Number)` converts only
  the copy it validates, and the service gets the string. A line total of 10
  with `shipping: "5"` then totals `10 + "5" - 0`, that is 105
  (src/modules/order/order.service.ts:59). The model's shipping and coupon
  are numbers.
- Products.CreateProduct: when several columns cannot hold their values,
  the model reports the first in the entity's column order; which one the
  database names is not modelled. The product's colors, sizes and stock are
  left out, as below.
- Carts.AddToCart: the cart body's validation rules are not part of this
  model (its DTO file is not among the sources), so the quantity is any
  number; a missing quantity is not modelled. The same holds for
  Carts.UpdateQuantity.
- The UUID text form is not modelled: ids are naturals.
- Concurrency is not modelled, including the read-then-write race in the
  cart increment: every call is atomic.
- Stock, colors, flash sales and best-selling collections are not modelled,
  and neither are the product's sizes, colors and stock lists in
  `createProduct`: these are entities with no rules in the services shown.
- Order status transitions are not modelled: no service changes a status.
- `toLowerCase` is modelled on ASCII letters only. No other character lowers
  to a letter of a whitelisted format, so the format decision is unaffected.
- Multer's refusal of a sixth file is not modelled; `Upload.UploadMultiple`
  requires at most five files instead.
- Subcategories.EditSubcategory: does not model a `category` field in the
  edit body, because `Object.assign` would put the raw string where the
  relation belongs.
- Subscriptions.Subscribe: models a failed save only by the two causes
  visible in the schema (an email over 50 characters, a user already linked
  to another subscription); other database failures are not modelled.
- Users.CreateUser: models a failed save only by a value wider than its
  column, because the unique constraints are already guarded by the
  conflict check. Of the body's undeclared fields only `role` and
  `refreshToken` are modelled. The user's other columns (`profilePhoto`,
  `region`, `district`, `extraAddress`, the timestamps) are not in the
  model, and neither is an `id` in the body, with which `save` updates the
  user of that id instead of inserting.
- Categories.UpdateCategory: a field present in the body as `null` is not
  modelled. `@IsOptional` lets `null` through and `Object.assign` writes it,
  so `{"name": null}` fails the NOT NULL column and `{"image_url": null}`
  clears the image; the model's absent field leaves the stored value.
  Categories.Merge states the merge only for absent and present non-null
  fields.
- Categories.CreateCategory, Subcategories.CreateSubcategory,
  Sizes.CreateSize, Sizes.EditSize, Subcategories.EditSubcategory and
  Banners.CreateBanner: an `id` in the body is not modelled. The pipe does
  not strip it, and `create`/`Object.assign` copy it, so `save` writes to
  the row of that id instead of a new or the edited one.
- Categories.DeleteCategory: considers only references from subcategories
  and products, the only tables in the model that point at categories.
- Schema.EntityNotFound: the ORM's message is modelled without the search
  criteria it appends.
- `deleteNewsletter`'s catch block is not modelled, because nothing in the
  model references a subscription and so the delete cannot fail.

## Findings

| source | as written | input that shows it | evidently intended | confidence | as-written member | corrected member |
|---|---|---|---|---|---|---|
| src/modules/auth/auth.service.ts:119-121 | refresh compares the stored refresh token with the presented one for equality, while `updateRefreshToken` (src/modules/user/user.service.ts:57-60) stores its bcrypt hash; the legacy copy (src/auth/auth.service.ts:55-57 with src/users/users.service.ts:57-60) does the same | sign in, then refresh with the refresh token just issued: the stored value is the 60-character hash of that longer JWT, so they differ and the refresh is refused with "Invalid refresh token!" | compare with `bcrypt.compare(token, stored)`, so that the token last issued refreshes and rotation works | not executed | Auth.RefreshToken (shown by Auth.IssuedRefreshTokenIsRejected and Auth.BcryptHashNeverMatchesJwt) | Auth.RefreshTokenFixed (proved by Auth.IssuedRefreshTokenIsAccepted and Auth.FixedRefreshRotates) |
| src/modules/user/user.service.ts:39-44 | `createUser` spreads the whole body into the new row, and the global `ValidationPipe` (src/main.ts:26) does not strip undeclared properties, so a body's `role` and `refreshToken` reach the row | sign up with `{"firstName": "Eve", "lastName": "Doe", "identifier": "eve@x.io", "password": "secret", "role": "admin"}`: the user is created as an admin, and the access token returned carries the admin role | copy only the declared fields (or whitelist the pipe), so that every new user is a customer without a refresh token | not executed | Users.CreateUser (shown by Users.SignUpBodyChoosesRole and Auth.SignUpCanClaimAdmin) | Users.CreateUserWhitelisted (proved by its contract and Users.WhitelistKeepsDeclaredBody) |

=== FILE: auth.dfy ===
/** `AuthService`, current and legacy: sign-up, sign-in, sign-out and token
    refresh over the users table. The two copies differ only in the message
    for a wrong password. */
module Auth {
  import opened Wrappers
  import opened Table
  import opened Schema
  import opened Users

  datatype Variant = Current | Legacy

  const InvalidIdentifier := "Invalid Identifier provided!"
  const InvalidCredentials := "Invalid credentials!"
  const InvalidPassword := "Invalid password!"
  const UserNotFound := "User not found!"
  const LoggedOut := "You have logged out successfully!"
  const InvalidRefreshToken := "Invalid refresh token!"
  /** What `jwtService.verify` raises for a token it rejects. */
  const TokenRejected := "invalid token"
  /** The `expiresIn` a refresh reports, in seconds. */
  const RefreshExpiresIn := 900

  /** Token lifetimes, as given to `sign`. */
  function AccessLifetime(rememberMe: bool): string {
    if rememberMe then "7d" else "15m"
  }

  function RefreshLifetime(rememberMe: bool): string {
    if rememberMe then "30d" else "7d"
  }

  datatype Tokens = Tokens(accessToken: string, refreshToken: string)

  /** `generateToken`: both tokens carry exactly the user's id and role. */
  function GenerateToken(c: Crypto, id: Id, user: User, rememberMe: bool): (t: Tokens)
    ensures t.accessToken == c.sign(Claims(id, user.role), AccessLifetime(rememberMe))
    ensures t.refreshToken == c.sign(Claims(id, user.role), RefreshLifetime(rememberMe))
  {
    var payload := Claims(id, user.role);
    Tokens(c.sign(payload, AccessLifetime(rememberMe)), c.sign(payload, RefreshLifetime(rememberMe)))
  }

  datatype Session = Session(tokens: Tokens, userId: Id, user: User)

  /** `signUp`: creates the user, issues a non-remembered pair and stores the
      refresh token's hash. */
  function SignUp(users: Table<User>, c: Crypto, dto: SignUpDto): (r: Reply<Table<User>, Session>)
    ensures r.Failed() ==> r.state == users
    ensures dto.identifier == "" ==> r.result == Err(BadRequest, InvalidIdentifier)
    ensures dto.identifier != "" ==> r.Succeeded() == CreateUser(users, c.hash, dto).Succeeded()
    ensures dto.identifier != "" && r.Failed() ==>
      r.result == Err(CreateUser(users, c.hash, dto).result.kind, CreateUser(users, c.hash, dto).result.message)
    ensures r.Succeeded() ==>
      var s := r.result.value;
      && s.userId == users.next
      && s.tokens == GenerateToken(c, s.userId, s.user, false)
      && s.userId in r.state.rows
      && r.state.rows[s.userId] == s.user.(refreshToken := Some(c.hash(s.tokens.refreshToken)))
      && r.state.rows.Keys == users.rows.Keys + {s.userId}
      && (forall k :: k in users.rows ==> r.state.rows[k] == users.rows[k])
  {
    if dto.identifier == "" then Fail(users, BadRequest, InvalidIdentifier)
    else
      var created := CreateUser(users, c.hash, dto);
      match created.result
      case Err(k, m) => Fail(users, k, m)
      case Ok(nu) =>
        var tokens := GenerateToken(c, nu.0, nu.1, false);
        Done(UpdateRefreshToken(created.state, c.hash, nu.0, tokens.refreshToken), Session(tokens, nu.0, nu.1))
  }

  /** Sign-up with `role: "admin"` in the body stores an admin and hands out
      an access token whose claims say admin. */
  lemma SignUpCanClaimAdmin(users: Table<User>, c: Crypto, dto: SignUpDto)
    requires dto.identifier != "" && dto.role == Some(Admin)
    requires CreateUser(users, c.hash, dto).Succeeded()
    ensures var r := SignUp(users, c, dto);
      && r.Succeeded()
      && r.state.rows[users.next].role == Admin
      && r.result.value.tokens.accessToken == c.sign(Claims(users.next, Admin), AccessLifetime(false))
  {
  }

  datatype SignInDto = SignInDto(identifier: string, password: string, rememberMe: Option<bool>)

  function WrongPasswordMessage(v: Variant): string {
    match v
    case Current => InvalidPassword
    case Legacy => InvalidCredentials
  }

  /** `signIn` */
  function SignIn(v: Variant, users: Table<User>, c: Crypto, dto: SignInDto): (r: Reply<Table<User>, Session>)
    ensures r.Failed() ==> r.state == users
    ensures dto.identifier == "" ==> r.result == Err(BadRequest, InvalidIdentifier)
    ensures dto.identifier != "" && FindByIdentifier(users, dto.identifier).None? ==> r.result == Err(Unauthorized, InvalidCredentials)
    ensures dto.identifier != "" && FindByIdentifier(users, dto.identifier).Some? ==>
      var id := FindByIdentifier(users, dto.identifier).value;
      && (r.Succeeded() <==> Matches(c, dto.password, users.rows[id].password))
      && (r.Failed() ==> r.result == Err(Unauthorized, WrongPasswordMessage(v)))
    ensures r.Succeeded() ==>
      var s := r.result.value;
      && s.userId in users.rows && s.user == users.rows[s.userId]
      && HasIdentifier(s.user, dto.identifier)
      && s.tokens == GenerateToken(c, s.userId, s.user, dto.rememberMe.GetOr(false))
      && r.state == UpdateRefreshToken(users, c.hash, s.userId, s.tokens.refreshToken)
  {
    if dto.identifier == "" then Fail(users, BadRequest, InvalidIdentifier)
    else match FindByIdentifier(users, dto.identifier)
      case None => Fail(users, Unauthorized, InvalidCredentials)
      case Some(id) =>
        var u := users.rows[id];
        if !Matches(c, dto.password, u.password) then Fail(users, Unauthorized, WrongPasswordMessage(v))
        else
          var tokens := GenerateToken(c, id, u, dto.rememberMe.GetOr(false));
          Done(UpdateRefreshToken(users, c.hash, id, tokens.refreshToken), Session(tokens, id, u))
  }

  /** The current service tells an unknown identifier from a wrong password;
      the legacy one answers both alike. */
  lemma SignInFailuresDistinguishable()
    ensures WrongPasswordMessage(Current) != InvalidCredentials
    ensures WrongPasswordMessage(Legacy) == InvalidCredentials
  {
  }

  /** `signOut` (the legacy `logout`): the stored token is cleared. */
  function SignOut(users: Table<User>, id: Id): (r: Reply<Table<User>, string>)
    ensures r.Failed() ==> r.state == users && r.result == Err(NotFound, UserNotFound)
    ensures r.Succeeded() <==> id in users.rows
    ensures r.Succeeded() ==> r.result.value == LoggedOut && r.state == ClearRefreshToken(users, id)
    ensures r.Succeeded() ==> r.state.rows[id].refreshToken.None?
  {
    if id !in users.rows then Fail(users, NotFound, UserNotFound)
    else Done(ClearRefreshToken(users, id), LoggedOut)
  }

  datatype Refreshed = Refreshed(tokens: Tokens, expiresIn: int)

  /** The user a token names, when `verify` accepts it. */
  function TokenUser(users: Table<User>, c: Crypto, token: string): Option<Id> {
    match c.verify(token)
    case None => None
    case Some(claims) => if claims.id in users.rows then Some(claims.id) else None
  }

  /** The refresh flow after the stored-token comparison `accepts`: a fresh
      non-remembered pair is issued and its refresh token's hash stored. */
  function Rotate(users: Table<User>, c: Crypto, token: string, accepts: (Option<string>, string) -> bool): (r: Reply<Table<User>, Refreshed>)
    ensures r.Failed() ==> r.state == users
    ensures c.verify(token).None? ==> r.result == Err(Uncaught, TokenRejected)
    ensures c.verify(token).Some? ==>
      (r.Succeeded() <==> TokenUser(users, c, token).Some? && accepts(users.rows[c.verify(token).value.id].refreshToken, token))
    ensures c.verify(token).Some? && r.Failed() ==> r.result == Err(Unauthorized, InvalidRefreshToken)
    ensures r.Succeeded() ==> c.verify(token).Some?
    ensures r.Succeeded() ==>
      var id := c.verify(token).value.id;
      && id in users.rows
      && r.result.value.expiresIn == RefreshExpiresIn
      && r.result.value.tokens == GenerateToken(c, id, users.rows[id], false)
      && r.state == UpdateRefreshToken(users, c.hash, id, r.result.value.tokens.refreshToken)
  {
    match c.verify(token)
    case None => Fail(users, Uncaught, TokenRejected)
    case Some(claims) =>
      if claims.id !in users.rows || !accepts(users.rows[claims.id].refreshToken, token) then
        Fail(users, Unauthorized, InvalidRefreshToken)
      else
        var tokens := GenerateToken(c, claims.id, users.rows[claims.id], false);
        Done(UpdateRefreshToken(users, c.hash, claims.id, tokens.refreshToken), Refreshed(tokens, RefreshExpiresIn))
  }

  /** The comparison as written: the stored value must be the presented
      token itself. */
  function RawEquals(): (Option<string>, string) -> bool {
    (stored: Option<string>, token: string) => stored == Some(token)
  }

  /** The comparison evidently intended: `bcrypt.compare(token, stored)`. */
  function HashMatches(c: Crypto): (Option<string>, string) -> bool {
    (stored: Option<string>, token: string) => stored.Some? && Matches(c, token, stored.value)
  }

  /** `refreshToken` as written, in both copies. */
  function RefreshToken(users: Table<User>, c: Crypto, token: string): (r: Reply<Table<User>, Refreshed>)
    ensures r.Succeeded() ==> c.verify(token).Some?
    ensures r.Succeeded() ==>
      var id := c.verify(token).value.id;
      && id in users.rows && users.rows[id].refreshToken == Some(token)
      && r.result.value.expiresIn == RefreshExpiresIn
      && r.state == UpdateRefreshToken(users, c.hash, id, r.result.value.tokens.refreshToken)
    ensures r.Failed() ==> r.state == users
    ensures c.verify(token).Some? && c.verify(token).value.id in users.rows && users.rows[c.verify(token).value.id].refreshToken == Some(token) ==>
      r.Succeeded()
    ensures c.verify(token).None? ==> r.result == Err(Uncaught, TokenRejected)
  {
    Rotate(users, c, token, RawEquals())
  }

  /** `refreshToken` comparing against the stored hash. */
  function RefreshTokenFixed(users: Table<User>, c: Crypto, token: string): (r: Reply<Table<User>, Refreshed>)
    ensures r.Succeeded() ==> c.verify(token).Some?
    ensures r.Succeeded() ==>
      var id := c.verify(token).value.id;
      && id in users.rows && users.rows[id].refreshToken == Some(c.hash(token))
      && r.result.value.expiresIn == RefreshExpiresIn
      && r.state == UpdateRefreshToken(users, c.hash, id, r.result.value.tokens.refreshToken)
    ensures c.verify(token).Some? && c.verify(token).value.id in users.rows && users.rows[c.verify(token).value.id].refreshToken == Some(c.hash(token)) ==>
      r.Succeeded()
    ensures r.Failed() ==> r.state == users
  {
    Rotate(users, c, token, HashMatches(c))
  }

  /** Whether `verify` accepts the refresh token of a session and returns
      the payload it was signed with. */
  predicate VerifiesIssued(c: Crypto, s: Session) {
    c.verify(s.tokens.refreshToken) == Some(Claims(s.userId, s.user.role))
  }

  /** As written, the refresh token a sign-in just issued is refused unless
      hashing leaves it unchanged: the store holds its hash. */
  lemma IssuedRefreshTokenIsRejected(v: Variant, users: Table<User>, c: Crypto, dto: SignInDto)
    requires SignIn(v, users, c, dto).Succeeded()
    requires VerifiesIssued(c, SignIn(v, users, c, dto).result.value)
    ensures var r := SignIn(v, users, c, dto);
      var t := r.result.value.tokens.refreshToken;
      RefreshToken(r.state, c, t).Succeeded() <==> c.hash(t) == t
  {
    var r := SignIn(v, users, c, dto);
    var s := r.result.value;
    var t := s.tokens.refreshToken;
    assert r.state.rows[s.userId].refreshToken == Some(c.hash(t));
    assert TokenUser(r.state, c, t) == Some(s.userId);
  }

  /** A bcrypt hash is 60 characters long, and a signed JWT is longer, so
      in practice every issued refresh token is refused. */
  lemma BcryptHashNeverMatchesJwt(v: Variant, users: Table<User>, c: Crypto, dto: SignInDto)
    requires SignIn(v, users, c, dto).Succeeded()
    requires VerifiesIssued(c, SignIn(v, users, c, dto).result.value)
    requires var t := SignIn(v, users, c, dto).result.value.tokens.refreshToken;
      |c.hash(t)| == 60 && |t| > 60
    ensures var r := SignIn(v, users, c, dto);
      RefreshToken(r.state, c, r.result.value.tokens.refreshToken).result == Err(Unauthorized, InvalidRefreshToken)
  {
    IssuedRefreshTokenIsRejected(v, users, c, dto);
  }

  /** The same for sign-up. */
  lemma SignUpTokenIsRejected(users: Table<User>, c: Crypto, dto: SignUpDto)
    requires SignUp(users, c, dto).Succeeded()
    requires VerifiesIssued(c, SignUp(users, c, dto).result.value)
    ensures var r := SignUp(users, c, dto);
      var t := r.result.value.tokens.refreshToken;
      RefreshToken(r.state, c, t).Succeeded() <==> c.hash(t) == t
  {
    var r := SignUp(users, c, dto);
    var s := r.result.value;
    var t := s.tokens.refreshToken;
    assert r.state.rows[s.userId].refreshToken == Some(c.hash(t));
    assert TokenUser(r.state, c, t) == Some(s.userId);
  }

  /** With the hash comparison, the token a sign-in issued is accepted. */
  lemma IssuedRefreshTokenIsAccepted(v: Variant, users: Table<User>, c: Crypto, dto: SignInDto)
    requires SignIn(v, users, c, dto).Succeeded()
    requires VerifiesIssued(c, SignIn(v, users, c, dto).result.value)
    ensures var r := SignIn(v, users, c, dto);
      RefreshTokenFixed(r.state, c, r.result.value.tokens.refreshToken).Succeeded()
  {
    var r := SignIn(v, users, c, dto);
    var s := r.result.value;
    assert r.state.rows[s.userId].refreshToken == Some(c.hash(s.tokens.refreshToken));
  }

  /** With the hash comparison, a refresh rotates: the new token is accepted
      next, and the presented one is refused unless it hashes alike. */
  lemma FixedRefreshRotates(users: Table<User>, c: Crypto, token: string)
    requires RefreshTokenFixed(users, c, token).Succeeded()
    requires var r := RefreshTokenFixed(users, c, token);
      c.verify(r.result.value.tokens.refreshToken) == c.verify(token)
    ensures var r := RefreshTokenFixed(users, c, token);
      var t := r.result.value.tokens.refreshToken;
      && RefreshTokenFixed(r.state, c, t).Succeeded()
      && (RefreshTokenFixed(r.state, c, token).Succeeded() <==> c.hash(token) == c.hash(t))
  {
    var r := RefreshTokenFixed(users, c, token);
    var id := c.verify(token).value.id;
    var t := r.result.value.tokens.refreshToken;
    assert r.state.rows[id].refreshToken == Some(c.hash(t));
  }

  /** After sign-out, no token refreshes that user's session, in either
      comparison. */
  lemma SignOutRevokes(users: Table<User>, id: Id, c: Crypto, token: string)
    requires SignOut(users, id).Succeeded()
    requires c.verify(token).Some? && c.verify(token).value.id == id
    ensures RefreshToken(SignOut(users, id).state, c, token).result == Err(Unauthorized, InvalidRefreshToken)
    ensures RefreshTokenFixed(SignOut(users, id).state, c, token).result == Err(Unauthorized, InvalidRefreshToken)
  {
    var after := SignOut(users, id).state;
    assert after.rows[id].refreshToken.None?;
  }
}

=== FILE: banners.dfy ===
/** `BannersService`: banners tied to a product, unique per (name, product)
    on creation, partially edited and deleted by id. The body's `slug` and
    `description` have no column and are not stored. */
module Banners {
  import opened Wrappers
  import opened Table
  import opened Schema
  import opened Pagination
  import opened Validators

  const BannerNotFound := "Banner not found."
  const AlreadyExists := "Banner already exists for this product."
  const AnotherExists := "Another banner with this name and product already exists."
  const FetchPrefix := "Error fetching banners: "

  datatype BannerQuery = BannerQuery(page: Option<int>, limit: Option<int>, search: Option<string>)

  function NameSearch(search: Option<string>, ilike: (string, string) -> bool): Banner -> bool {
    (b: Banner) => SearchMatch(search, ilike, b.name)
  }

  /** `findAll`: a failure, including the bounds check's, is re-raised as a
      plain error whose message extends the caught one. */
  function FindAllBanners(banners: Table<Banner>, q: BannerQuery, ilike: (string, string) -> bool): (r: Result<Page<(Id, Banner)>>)
    ensures var p := q.page.GetOr(DefaultPage); var l := q.limit.GetOr(DefaultLimit);
      && (r.Ok? <==> p >= 1 && l >= 1)
      && (p < 1 ==> r == Err(Uncaught, FetchPrefix + PageTooSmall))
      && (p >= 1 && l < 1 ==> r == Err(Uncaught, FetchPrefix + LimitTooSmall))
    ensures r.Ok? ==> Ok(r.value) == Paginate(Select(banners, NameSearch(q.search, ilike)), q.page, q.limit)
  {
    Rethrow(Paginate(Select(banners, NameSearch(q.search, ilike)), q.page, q.limit), Uncaught, (m: string) => FetchPrefix + m)
  }

  /** `findAllWithoutPagination`: every banner. The query names no order;
      the model lists them by ascending id. */
  function ListBanners(banners: Table<Banner>): (r: seq<(Id, Banner)>)
    ensures forall k :: k in banners.rows ==> (k, banners.rows[k]) in r
    ensures forall e :: e in r ==> e.0 in banners.rows && banners.rows[e.0] == e.1
    ensures Increasing(r)
  {
    Select(banners, (b: Banner) => true)
  }

  /** `findById`: a missing banner is a bad request, not a not-found. */
  function FindBanner(banners: Table<Banner>, id: Id): (r: Result<Banner>)
    ensures r.Ok? <==> id in banners.rows
    ensures r.Ok? ==> r.value == banners.rows[id]
    ensures r.Err? ==> r == Err(BadRequest, BannerNotFound)
  {
    if id in banners.rows then Ok(banners.rows[id]) else Err(BadRequest, BannerNotFound)
  }

  function SameKey(name: string, product: Id): Banner -> bool {
    (b: Banner) => b.name == name && b.product == product
  }

  /** No two banners share both name and product. */
  predicate UniqueKeys(banners: Table<Banner>) {
    forall a, b :: a in banners.rows && b in banners.rows && banners.rows[a].name == banners.rows[b].name && banners.rows[a].product == banners.rows[b].product ==> a == b
  }

  /** `createBanner`. The image column is NOT NULL and the product is a
      foreign key, so a body without an image, or naming an unknown product,
      fails at the database. `isActive` defaults to true. */
  function CreateBanner(db: Db, dto: CreateBannerDto<Id>): (r: Reply<Db, (Id, Banner)>)
    ensures r.Failed() ==> r.state == db
    ensures Exists(db.banners, SameKey(dto.name, dto.product)) ==> r.result == Err(BadRequest, AlreadyExists)
    ensures !Exists(db.banners, SameKey(dto.name, dto.product)) && dto.imageUrl.None? ==> r.result == Err(Uncaught, NotNullViolation)
    ensures !Exists(db.banners, SameKey(dto.name, dto.product)) && dto.imageUrl.Some? && dto.product !in db.products.rows ==>
      r.result == Err(Uncaught, ForeignKeyViolation)
    ensures r.Succeeded() <==>
      && (forall k :: k in db.banners.rows ==> !(db.banners.rows[k].name == dto.name && db.banners.rows[k].product == dto.product))
      && dto.imageUrl.Some? && dto.product in db.products.rows
    ensures r.Succeeded() ==>
      var b := r.result.value.1;
      && r.result.value.0 == db.banners.next
      && b == Banner(dto.name, dto.imageUrl.value, dto.isActive.GetOr(true), dto.product)
      && r.state == db.(banners := r.state.banners)
      && r.state.banners.rows.Keys == db.banners.rows.Keys + {db.banners.next}
      && r.state.banners.rows[db.banners.next] == b
      && (forall k :: k in db.banners.rows ==> r.state.banners.rows[k] == db.banners.rows[k])
  {
    if Exists(db.banners, SameKey(dto.name, dto.product)) then Fail(db, BadRequest, AlreadyExists)
    else if dto.imageUrl.None? then Fail(db, Uncaught, NotNullViolation)
    else if dto.product !in db.products.rows then Fail(db, Uncaught, ForeignKeyViolation)
    else
      var b := Banner(dto.name, dto.imageUrl.value, dto.isActive.GetOr(true), dto.product);
      Done(db.(banners := Insert(db.banners, b)), (db.banners.next, b))
  }

  lemma CreateBannerKeepsKeysUnique(db: Db, dto: CreateBannerDto<Id>)
    requires UniqueKeys(db.banners)
    ensures UniqueKeys(CreateBanner(db, dto).state.banners)
  {
    var r := CreateBanner(db, dto);
    if r.Succeeded() {
      var n := db.banners.next;
      assert r.state.banners.rows[n].name == dto.name && r.state.banners.rows[n].product == dto.product;
    }
  }

  /** The edit body, `Partial<CreateBannerDto>`. */
  datatype EditBannerDto = EditBannerDto(
    name: Option<string>,
    slug: Option<string>,
    description: Option<string>,
    imageUrl: Option<string>,
    isActive: Option<bool>,
    product: Option<Id>)

  /** A present, non-empty string: the source's truthiness test. */
  predicate Truthy(s: Option<string>) {
    s.Some? && s.value != ""
  }

  /** The field updates: truthy strings overwrite, `isActive` overwrites when
      present, a given product is re-linked. */
  function Apply(b: Banner, dto: EditBannerDto): (u: Banner)
    ensures u.name == (if Truthy(dto.name) then dto.name.value else b.name)
    ensures u.imageUrl == (if Truthy(dto.imageUrl) then dto.imageUrl.value else b.imageUrl)
    ensures u.isActive == dto.isActive.GetOr(b.isActive)
    ensures u.product == dto.product.GetOr(b.product)
  {
    Banner(
      if Truthy(dto.name) then dto.name.value else b.name,
      if Truthy(dto.imageUrl) then dto.imageUrl.value else b.imageUrl,
      dto.isActive.GetOr(b.isActive),
      dto.product.GetOr(b.product))
  }

  /** The optional duplicate check: only when both a truthy name and a
      product are given, and a match on the banner itself is no conflict. */
  predicate Duplicated(banners: Table<Banner>, id: Id, dto: EditBannerDto) {
    && Truthy(dto.name) && dto.product.Some?
    && var d := FirstWhere(banners, SameKey(dto.name.value, dto.product.value));
       d.Some? && d.value != id
  }

  /** `editBanner` */
  function EditBanner(db: Db, id: Id, dto: EditBannerDto): (r: Reply<Db, Banner>)
    ensures r.Failed() ==> r.state == db
    ensures id !in db.banners.rows ==> r.result == Err(BadRequest, BannerNotFound)
    ensures id in db.banners.rows && Duplicated(db.banners, id, dto) ==> r.result == Err(BadRequest, AnotherExists)
    ensures id in db.banners.rows && !Duplicated(db.banners, id, dto) && dto.product.Some? && dto.product.value !in db.products.rows ==>
      r.result == Err(Uncaught, ForeignKeyViolation)
    ensures r.Succeeded() <==>
      id in db.banners.rows && !Duplicated(db.banners, id, dto) && (dto.product.Some? ==> dto.product.value in db.products.rows)
    ensures r.Succeeded() ==>
      && r.result.value == Apply(db.banners.rows[id], dto)
      && r.state == db.(banners := r.state.banners)
      && r.state.banners.rows.Keys == db.banners.rows.Keys
      && r.state.banners.rows[id] == r.result.value
      && (forall k :: k in db.banners.rows && k != id ==> r.state.banners.rows[k] == db.banners.rows[k])
  {
    match FindBanner(db.banners, id)
    case Err(k, m) => Fail(db, k, m)
    case Ok(b) =>
      if Duplicated(db.banners, id, dto) then Fail(db, BadRequest, AnotherExists)
      else if dto.product.Some? && dto.product.value !in db.products.rows then Fail(db, Uncaught, ForeignKeyViolation)
      else
        var u := Apply(b, dto);
        Done(db.(banners := Put(db.banners, id, u)), u)
  }

  /** When both name and product are given, the edit keeps (name, product) unique. */
  lemma FullEditKeepsKeysUnique(db: Db, id: Id, dto: EditBannerDto)
    requires UniqueKeys(db.banners)
    requires Truthy(dto.name) && dto.product.Some?
    ensures UniqueKeys(EditBanner(db, id, dto).state.banners)
  {
    var r := EditBanner(db, id, dto);
    if r.Succeeded() {
      var t := r.state.banners;
      var key := SameKey(dto.name.value, dto.product.value);
      forall a, b | a in t.rows && b in t.rows && a != b && (a == id || b == id)
        ensures !(t.rows[a].name == t.rows[b].name && t.rows[a].product == t.rows[b].product)
      {
        var other := if a == id then b else a;
        var d := FirstWhere(db.banners, key);
        if d.Some? {
          assert d.value == id;
          assert key(db.banners.rows[id]);
        }
        assert !key(db.banners.rows[other]);
      }
    }
  }

  /** Renaming without naming the product skips the duplicate check, so it
      can give two banners of one product the same name. */
  lemma RenameCanDuplicate(db: Db, a: Id, b: Id)
    requires a in db.banners.rows && b in db.banners.rows && a != b
    requires db.banners.rows[a].product == db.banners.rows[b].product
    requires db.banners.rows[b].name != ""
    ensures var r := EditBanner(db, a, EditBannerDto(Some(db.banners.rows[b].name), None, None, None, None, None));
      r.Succeeded() && !UniqueKeys(r.state.banners)
  {
    var r := EditBanner(db, a, EditBannerDto(Some(db.banners.rows[b].name), None, None, None, None, None));
    assert r.state.banners.rows[a].name == r.state.banners.rows[b].name;
  }

  /** An empty name or image in the body leaves the stored value in place. */
  lemma EmptyStringsDoNotOverwrite(b: Banner)
    ensures Apply(b, EditBannerDto(Some(""), Some(""), Some(""), Some(""), None, None)) == b
  {
  }

  /** `deleteBanner`: no row references a banner. */
  function DeleteBanner(banners: Table<Banner>, id: Id): (r: Reply<Table<Banner>, ()>)
    ensures r.Failed() ==> r.state == banners && r.result == Err(BadRequest, BannerNotFound)
    ensures r.Succeeded() <==> id in banners.rows
    ensures r.Succeeded() ==>
      && r.state.rows.Keys == banners.rows.Keys - {id}
      && (forall k :: k in r.state.rows ==> r.state.rows[k] == banners.rows[k])
  {
    if id !in banners.rows then Fail(banners, BadRequest, BannerNotFound)
    else Done(Delete(banners, id), ())
  }
}

=== FILE: carts.dfy ===
/** `CartService`: a join table of (user, product, quantity) rows. Every
    operation first loads the user and the product with `findOneByOrFail`,
    whose failure is an uncaught `EntityNotFoundError`. */
module Carts {
  import opened Wrappers
  import opened Table
  import opened Schema

  /** The request body. `quantity` is a JavaScript number: the body's
      validation rules are not part of this model, so it may be any number. */
  datatype AddToCartDto = AddToCartDto(userId: Id, productId: Id, quantity: real)

  predicate IsPair(row: CartRow, user: Id, product: Id) {
    row.user == user && row.product == product
  }

  /** The unique (user, product) constraint of the cart table. */
  predicate OneRowPerPair(carts: Table<CartRow>) {
    forall a, b :: a in carts.rows && b in carts.rows && SamePair(carts.rows[a], carts.rows[b]) ==> a == b
  }

  predicate SamePair(x: CartRow, y: CartRow) {
    x.user == y.user && x.product == y.product
  }

  /** `findOne({ where: { user, product } })` */
  function FindPair(carts: Table<CartRow>, user: Id, product: Id): (r: Option<Id>)
    ensures r.Some? ==> r.value in carts.rows && IsPair(carts.rows[r.value], user, product)
    ensures r.None? <==> forall k :: k in carts.rows ==> !IsPair(carts.rows[k], user, product)
  {
    FirstWhere(carts, (row: CartRow) => IsPair(row, user, product))
  }

  /** The two `findOneByOrFail` lookups that open every operation. */
  function CheckUserAndProduct(db: Db, user: Id, product: Id): (r: Option<string>)
    ensures r.None? <==> user in db.users.rows && product in db.products.rows
    ensures user !in db.users.rows ==> r == Some(EntityNotFound("User"))
    ensures user in db.users.rows && product !in db.products.rows ==> r == Some(EntityNotFound("Product"))
  {
    if user !in db.users.rows then Some(EntityNotFound("User"))
    else if product !in db.products.rows then Some(EntityNotFound("Product"))
    else None
  }

  /** The quantity `addToCart` saves: the pair's stored quantity plus the
      requested one, or the requested one for a new row. */
  function AddedQuantity(carts: Table<CartRow>, dto: AddToCartDto): (q: real)
    ensures FindPair(carts, dto.userId, dto.productId).None? ==> q == dto.quantity
    ensures FindPair(carts, dto.userId, dto.productId).Some? ==>
      q == carts.rows[FindPair(carts, dto.userId, dto.productId).value].quantity as real + dto.quantity
  {
    match FindPair(carts, dto.userId, dto.productId)
    case Some(k) => carts.rows[k].quantity as real + dto.quantity
    case None => dto.quantity
  }

  /** A whole sum of a stored count and a number adds the number's floor. */
  lemma WholeSum(a: int, d: real)
    requires IsWhole(a as real + d)
    ensures (a + d.Floor) as real == a as real + d
  {
    var f := (a as real + d).Floor;
    assert (f - a) as real <= d < (f - a + 1) as real;
    assert d.Floor == f - a;
  }

  /** `addToCart`: increment the pair's row, or insert one. Returns the row
      saved. The save fails, uncaught, when the quantity it writes does not
      fit the `integer` column. */
  function AddToCart(db: Db, dto: AddToCartDto): (r: Reply<Db, CartRow>)
    ensures r.Failed() ==> r.state == db
    ensures dto.userId !in db.users.rows ==> r.result == Err(Uncaught, EntityNotFound("User"))
    ensures dto.userId in db.users.rows && dto.productId !in db.products.rows ==>
      r.result == Err(Uncaught, EntityNotFound("Product"))
    ensures dto.userId in db.users.rows && dto.productId in db.products.rows && !FitsInt4(AddedQuantity(db.carts, dto)) ==>
      r.result == Err(Uncaught, Int4Error(AddedQuantity(db.carts, dto)))
    ensures r.Succeeded() <==>
      dto.userId in db.users.rows && dto.productId in db.products.rows && FitsInt4(AddedQuantity(db.carts, dto))
    ensures r.Succeeded() ==> r.state == db.(carts := r.state.carts)
    ensures r.Succeeded() ==> r.result.value.quantity as real == AddedQuantity(db.carts, dto)
    ensures r.Succeeded() && FindPair(db.carts, dto.userId, dto.productId).Some? ==>
      var k := FindPair(db.carts, dto.userId, dto.productId).value;
      && r.state.carts.rows.Keys == db.carts.rows.Keys
      && r.state.carts.rows[k] == db.carts.rows[k].(quantity := db.carts.rows[k].quantity + dto.quantity.Floor)
      && r.result.value == r.state.carts.rows[k]
      && (forall j :: j in db.carts.rows && j != k ==> r.state.carts.rows[j] == db.carts.rows[j])
    ensures r.Succeeded() && FindPair(db.carts, dto.userId, dto.productId).None? ==>
      && r.state.carts.rows.Keys == db.carts.rows.Keys + {db.carts.next}
      && r.state.carts.rows[db.carts.next] == CartRow(dto.userId, dto.productId, dto.quantity.Floor)
      && r.result.value == CartRow(dto.userId, dto.productId, dto.quantity.Floor)
      && (forall j :: j in db.carts.rows ==> r.state.carts.rows[j] == db.carts.rows[j])
  {
    match CheckUserAndProduct(db, dto.userId, dto.productId)
    case Some(msg) => Fail(db, Uncaught, msg)
    case None =>
      var q := AddedQuantity(db.carts, dto);
      if !FitsInt4(q) then Fail(db, Uncaught, Int4Error(q))
      else
        match FindPair(db.carts, dto.userId, dto.productId)
        case Some(k) =>
          WholeSum(db.carts.rows[k].quantity, dto.quantity);
          var row := db.carts.rows[k].(quantity := db.carts.rows[k].quantity + dto.quantity.Floor);
          Done(db.(carts := Put(db.carts, k, row)), row)
        case None =>
          var row := CartRow(dto.userId, dto.productId, dto.quantity.Floor);
          Done(db.(carts := Insert(db.carts, row)), row)
  }

  /** Adding one to a pair that already holds the largest `integer` fails the
      save, and the cart is left as it was. */
  lemma AddPastInt4MaxFails(db: Db, dto: AddToCartDto, k: Id)
    requires dto.userId in db.users.rows && dto.productId in db.products.rows
    requires FindPair(db.carts, dto.userId, dto.productId) == Some(k)
    requires db.carts.rows[k].quantity == Int4Max && dto.quantity == 1.0
    ensures AddToCart(db, dto) == Fail(db, Uncaught, NotInRange)
  {
    assert AddedQuantity(db.carts, dto) == 2147483648.0;
    assert !InInt4(2147483648.0);
  }

  /** `addToCart` keeps the unique-pair constraint, and afterwards the pair has
      exactly one row. */
  lemma AddToCartKeepsOneRowPerPair(db: Db, dto: AddToCartDto)
    requires OneRowPerPair(db.carts)
    ensures var r := AddToCart(db, dto);
      && OneRowPerPair(r.state.carts)
      && (r.Succeeded() ==>
            exists k :: k in r.state.carts.rows && IsPair(r.state.carts.rows[k], dto.userId, dto.productId))
  {
    var r := AddToCart(db, dto);
    if r.Succeeded() {
      var t := r.state.carts;
      match FindPair(db.carts, dto.userId, dto.productId)
      case Some(k) =>
        assert IsPair(t.rows[k], dto.userId, dto.productId);
        forall a, b | a in t.rows && b in t.rows && SamePair(t.rows[a], t.rows[b])
          ensures a == b
        {
          assert t.rows[a].user == db.carts.rows[a].user && t.rows[a].product == db.carts.rows[a].product;
          assert t.rows[b].user == db.carts.rows[b].user && t.rows[b].product == db.carts.rows[b].product;
        }
      case None =>
        var n := db.carts.next;
        assert IsPair(t.rows[n], dto.userId, dto.productId);
        forall a, b | a in t.rows && b in t.rows && SamePair(t.rows[a], t.rows[b])
          ensures a == b
        {
          if a == n && b != n {
            assert IsPair(db.carts.rows[b], dto.userId, dto.productId);
          } else if b == n && a != n {
            assert IsPair(db.carts.rows[a], dto.userId, dto.productId);
          }
        }
    }
  }

  /** `updateQuantity`: overwrite the pair's quantity; a missing row is
      `findOneOrFail`'s not-found error, and a quantity the `integer` column
      cannot hold fails the save, uncaught. */
  function UpdateQuantity(db: Db, dto: AddToCartDto): (r: Reply<Db, CartRow>)
    ensures r.Failed() ==> r.state == db
    ensures dto.userId !in db.users.rows ==> r.result == Err(Uncaught, EntityNotFound("User"))
    ensures dto.userId in db.users.rows && dto.productId !in db.products.rows ==>
      r.result == Err(Uncaught, EntityNotFound("Product"))
    ensures dto.userId in db.users.rows && dto.productId in db.products.rows &&
      (forall k :: k in db.carts.rows ==> !IsPair(db.carts.rows[k], dto.userId, dto.productId))
      ==> r.result == Err(Uncaught, EntityNotFound("Cart"))
    ensures dto.userId in db.users.rows && dto.productId in db.products.rows &&
      (exists k :: k in db.carts.rows && IsPair(db.carts.rows[k], dto.userId, dto.productId)) &&
      !FitsInt4(dto.quantity)
      ==> r.result == Err(Uncaught, Int4Error(dto.quantity))
    ensures r.Succeeded() <==>
      && dto.userId in db.users.rows && dto.productId in db.products.rows
      && (exists k :: k in db.carts.rows && IsPair(db.carts.rows[k], dto.userId, dto.productId))
      && FitsInt4(dto.quantity)
    ensures r.Succeeded() ==>
      var k := FindPair(db.carts, dto.userId, dto.productId).value;
      && r.state == db.(carts := r.state.carts)
      && r.state.carts.rows.Keys == db.carts.rows.Keys
      && r.state.carts.rows[k].quantity as real == dto.quantity
      && IsPair(r.state.carts.rows[k], dto.userId, dto.productId)
      && r.result.value == r.state.carts.rows[k]
      && (forall j :: j in db.carts.rows && j != k ==> r.state.carts.rows[j] == db.carts.rows[j])
  {
    match CheckUserAndProduct(db, dto.userId, dto.productId)
    case Some(msg) => Fail(db, Uncaught, msg)
    case None =>
      match FindPair(db.carts, dto.userId, dto.productId)
      case None => Fail(db, Uncaught, EntityNotFound("Cart"))
      case Some(k) =>
        if !FitsInt4(dto.quantity) then Fail(db, Uncaught, Int4Error(dto.quantity))
        else
          var row := db.carts.rows[k].(quantity := dto.quantity.Floor);
          Done(db.(carts := Put(db.carts, k, row)), row)
  }

  /** `removeFromCart`: delete the pair's rows; an absent pair is not an error. */
  function RemoveFromCart(db: Db, user: Id, product: Id): (r: Reply<Db, ()>)
    ensures r.Failed() ==> r.state == db
    ensures user !in db.users.rows ==> r.result == Err(Uncaught, EntityNotFound("User"))
    ensures user in db.users.rows && product !in db.products.rows ==>
      r.result == Err(Uncaught, EntityNotFound("Product"))
    ensures r.Succeeded() <==> user in db.users.rows && product in db.products.rows
    ensures r.Succeeded() ==>
      && r.state == db.(carts := r.state.carts)
      && (forall k :: k in r.state.carts.rows <==> k in db.carts.rows && !IsPair(db.carts.rows[k], user, product))
      && (forall k :: k in r.state.carts.rows ==> r.state.carts.rows[k] == db.carts.rows[k])
  {
    match CheckUserAndProduct(db, user, product)
    case Some(msg) => Fail(db, Uncaught, msg)
    case None => Done(db.(carts := DeleteWhere(db.carts, (row: CartRow) => IsPair(row, user, product))), ())
  }

  /** `getCart`: the user's rows. The query names no order; the model lists
      them by ascending id. */
  function GetCart(db: Db, user: Id): (r: Result<seq<(Id, CartRow)>>)
    ensures user !in db.users.rows ==> r == Err(Uncaught, EntityNotFound("User"))
    ensures r.Ok? <==> user in db.users.rows
    ensures r.Ok? ==> forall j :: 0 <= j < |r.value| ==>
      r.value[j].0 in db.carts.rows && db.carts.rows[r.value[j].0] == r.value[j].1 && r.value[j].1.user == user
    ensures r.Ok? ==> forall k :: k in db.carts.rows && db.carts.rows[k].user == user ==> (k, db.carts.rows[k]) in r.value
    ensures r.Ok? ==> Increasing(r.value)
  {
    if user !in db.users.rows then Err(Uncaught, EntityNotFound("User"))
    else Ok(Select(db.carts, (row: CartRow) => row.user == user))
  }
}

=== FILE: cascades.dfy ===
/** The referential actions of the schema: what deleting a user, a product
    or an order does to the rows that reference it. No service deletes users
    or products; these are the database's rules for when a row is deleted. */
module Cascades {
  import opened Wrappers
  import opened Table
  import opened Schema
  import opened Orders

  /** Every reference among the modelled tables points at an existing row. */
  predicate Integrity(db: Db) {
    && (forall k :: k in db.orders.rows ==> db.orders.rows[k].user in db.users.rows)
    && (forall k :: k in db.orderLines.rows ==> db.orderLines.rows[k].order in db.orders.rows && db.orderLines.rows[k].product in db.products.rows)
    && (forall k :: k in db.carts.rows ==> db.carts.rows[k].user in db.users.rows && db.carts.rows[k].product in db.products.rows)
    && (forall k :: k in db.wishlist.rows ==> db.wishlist.rows[k].user in db.users.rows && db.wishlist.rows[k].product in db.products.rows)
    && (forall k :: k in db.sizes.rows && db.sizes.rows[k].product.Some? ==> db.sizes.rows[k].product.value in db.products.rows)
    && (forall k :: k in db.banners.rows ==> db.banners.rows[k].product in db.products.rows)
    && (forall k :: k in db.newsletters.rows && db.newsletters.rows[k].user.Some? ==> db.newsletters.rows[k].user.value in db.users.rows)
    && (forall k :: k in db.products.rows && db.products.rows[k].createdBy.Some? ==> db.products.rows[k].createdBy.value in db.users.rows)
  }

  function LineOf(order: Id): OrderLine -> bool {
    (l: OrderLine) => l.order == order
  }

  /** Deleting an order deletes its line items. */
  function DeleteOrder(db: Db, id: Id): (r: Db)
    ensures r == db.(orders := r.orders, orderLines := r.orderLines)
    ensures r.orders.rows.Keys == db.orders.rows.Keys - {id}
    ensures forall k :: k in r.orders.rows ==> r.orders.rows[k] == db.orders.rows[k]
    ensures forall k :: k in r.orderLines.rows <==> k in db.orderLines.rows && db.orderLines.rows[k].order != id
    ensures forall k :: k in r.orderLines.rows ==> r.orderLines.rows[k] == db.orderLines.rows[k]
  {
    db.(orders := Delete(db.orders, id), orderLines := DeleteWhere(db.orderLines, LineOf(id)))
  }

  lemma DeleteOrderKeepsIntegrity(db: Db, id: Id)
    requires Integrity(db)
    ensures Integrity(DeleteOrder(db, id))
  {
    var r := DeleteOrder(db, id);
    forall k | k in r.orderLines.rows
      ensures r.orderLines.rows[k].order in r.orders.rows
    {
      assert db.orderLines.rows[k].order != id;
    }
  }

  /** Deleting a product deletes its line items, cart rows, wishlist rows and
      sizes. A banner references it with no delete action, so a product with
      a banner is not deleted. */
  function DeleteProduct(db: Db, id: Id): (r: Result<Db>)
    ensures r.Err? <==> exists k :: k in db.banners.rows && db.banners.rows[k].product == id
    ensures r.Err? ==> r == Err(Uncaught, ForeignKeyViolation)
    ensures r.Ok? ==>
      var d := r.value;
      && d == db.(products := d.products, orderLines := d.orderLines, carts := d.carts, wishlist := d.wishlist, sizes := d.sizes)
      && d.products.rows.Keys == db.products.rows.Keys - {id}
      && (forall k :: k in d.products.rows ==> d.products.rows[k] == db.products.rows[k])
      && (forall k :: k in d.orderLines.rows <==> k in db.orderLines.rows && db.orderLines.rows[k].product != id)
      && (forall k :: k in d.carts.rows <==> k in db.carts.rows && db.carts.rows[k].product != id)
      && (forall k :: k in d.wishlist.rows <==> k in db.wishlist.rows && db.wishlist.rows[k].product != id)
      && (forall k :: k in d.sizes.rows <==> k in db.sizes.rows && db.sizes.rows[k].product != Some(id))
      && (forall k :: k in d.orderLines.rows ==> d.orderLines.rows[k] == db.orderLines.rows[k])
      && (forall k :: k in d.carts.rows ==> d.carts.rows[k] == db.carts.rows[k])
      && (forall k :: k in d.wishlist.rows ==> d.wishlist.rows[k] == db.wishlist.rows[k])
      && (forall k :: k in d.sizes.rows ==> d.sizes.rows[k] == db.sizes.rows[k])
  {
    if Exists(db.banners, (b: Banner) => b.product == id) then Err(Uncaught, ForeignKeyViolation)
    else Ok(db.(
      products := Delete(db.products, id),
      orderLines := DeleteWhere(db.orderLines, (l: OrderLine) => l.product == id),
      carts := DeleteWhere(db.carts, (c: CartRow) => c.product == id),
      wishlist := DeleteWhere(db.wishlist, (w: WishlistRow) => w.product == id),
      sizes := DeleteWhere(db.sizes, (s: Size) => s.product == Some(id))))
  }

  lemma DeleteProductKeepsIntegrity(db: Db, id: Id)
    requires Integrity(db)
    requires DeleteProduct(db, id).Ok?
    ensures Integrity(DeleteProduct(db, id).value)
  {
    var d := DeleteProduct(db, id).value;
    forall k | k in d.banners.rows
      ensures d.banners.rows[k].product in d.products.rows
    {
      assert db.banners.rows[k].product != id;
    }
  }

  function OrderOfUser(db: Db, user: Id): OrderLine -> bool {
    (l: OrderLine) => l.order in db.orders.rows && db.orders.rows[l.order].user == user
  }

  function ClearCreator(user: Id): Product -> Product {
    (p: Product) => if p.createdBy == Some(user) then p.(createdBy := None) else p
  }

  /** Deleting a user deletes their orders (and so those orders' lines),
      cart rows and wishlist rows, and unsets the creator of their products.
      A subscription references the user with no delete action, so a linked
      user is not deleted. */
  function DeleteUser(db: Db, id: Id): (r: Result<Db>)
    ensures r.Err? <==> exists k :: k in db.newsletters.rows && db.newsletters.rows[k].user == Some(id)
    ensures r.Err? ==> r == Err(Uncaught, ForeignKeyViolation)
    ensures r.Ok? ==>
      var d := r.value;
      && d == db.(users := d.users, orders := d.orders, orderLines := d.orderLines, carts := d.carts, wishlist := d.wishlist, products := d.products)
      && d.users.rows.Keys == db.users.rows.Keys - {id}
      && (forall k :: k in d.users.rows ==> d.users.rows[k] == db.users.rows[k])
      && (forall k :: k in d.orders.rows <==> k in db.orders.rows && db.orders.rows[k].user != id)
      && (forall k :: k in d.orderLines.rows <==> k in db.orderLines.rows && !OrderOfUser(db, id)(db.orderLines.rows[k]))
      && (forall k :: k in d.carts.rows <==> k in db.carts.rows && db.carts.rows[k].user != id)
      && (forall k :: k in d.wishlist.rows <==> k in db.wishlist.rows && db.wishlist.rows[k].user != id)
      && d.products.rows.Keys == db.products.rows.Keys
      && (forall k :: k in d.products.rows ==> d.products.rows[k].createdBy != Some(id))
      && (forall k :: k in d.products.rows ==> d.products.rows[k] == ClearCreator(id)(db.products.rows[k]))
  {
    if Exists(db.newsletters, (n: Newsletter) => n.user == Some(id)) then Err(Uncaught, ForeignKeyViolation)
    else Ok(db.(
      users := Delete(db.users, id),
      orders := DeleteWhere(db.orders, (o: Order) => o.user == id),
      orderLines := DeleteWhere(db.orderLines, OrderOfUser(db, id)),
      carts := DeleteWhere(db.carts, (c: CartRow) => c.user == id),
      wishlist := DeleteWhere(db.wishlist, (w: WishlistRow) => w.user == id),
      products := MapRows(db.products, ClearCreator(id))))
  }

  lemma DeleteUserKeepsIntegrity(db: Db, id: Id)
    requires Integrity(db)
    requires DeleteUser(db, id).Ok?
    ensures Integrity(DeleteUser(db, id).value)
  {
    var d := DeleteUser(db, id).value;
    forall k | k in d.orderLines.rows
      ensures d.orderLines.rows[k].order in d.orders.rows
    {
      var o := db.orderLines.rows[k].order;
      assert db.orders.rows[o].user != id;
    }
    forall k | k in d.newsletters.rows && d.newsletters.rows[k].user.Some?
      ensures d.newsletters.rows[k].user.value in d.users.rows
    {
      assert db.newsletters.rows[k].user != Some(id);
    }
    forall k | k in d.products.rows && d.products.rows[k].createdBy.Some?
      ensures d.products.rows[k].createdBy.value in d.users.rows
    {
      assert db.products.rows[k].createdBy == d.products.rows[k].createdBy;
    }
  }

  /** A line's price is its own column: changing a product's price later
      leaves the lines of a placed order as they were priced. */
  lemma LinePriceIsSnapshot(db: Db, dto: CreateOrderDto, product: Id, price: real)
    requires CreateOrder(db, dto).Succeeded()
    requires product in db.products.rows
    ensures var r := CreateOrder(db, dto);
      var later := r.state.(products := Put(r.state.products, product, r.state.products.rows[product].(currentPrice := price)));
      forall i :: 0 <= i < |r.result.value.lines| ==>
        later.orderLines.rows[r.result.value.lines[i]].price == LinePrice(db.products, dto.products[i])
  {
    var r := CreateOrder(db, dto);
    assert r.state.products == db.products;
  }
}

=== FILE: categories.dfy ===
/** `CategoryService`: categories keyed by slug on creation, looked up by id,
    merged on update and deleted by id. */
module Categories {
  import opened Wrappers
  import opened Table
  import opened Schema
  import opened Pagination
  import opened Validators

  const CategoryNotFound := "Category not found."
  const FetchFallback := "Error while fetching categories"

  function SlugTaken(slug: string): string {
    "Category with slug \"" + slug + "\" already exists."
  }

  /** The creation body; it is saved as given. */
  datatype CreateCategoryDto = CreateCategoryDto(name: string, slug: string, imageUrl: Option<string>)

  datatype CategoryQuery = CategoryQuery(page: Option<int>, limit: Option<int>, search: Option<string>)

  function NameSearch(search: Option<string>, ilike: (string, string) -> bool): Category -> bool {
    (c: Category) => SearchMatch(search, ilike, c.name)
  }

  /** `findAllWithPagination`: one page of the categories whose name matches
      the search, by ascending id; errors are re-raised as internal errors. */
  function FindAllCategories(categories: Table<Category>, q: CategoryQuery, ilike: (string, string) -> bool): (r: Result<Page<(Id, Category)>>)
    ensures var p := q.page.GetOr(DefaultPage); var l := q.limit.GetOr(DefaultLimit);
      && (r.Ok? <==> p >= 1 && l >= 1)
      && (p < 1 ==> r == Err(InternalServerError, PageTooSmall))
      && (p >= 1 && l < 1 ==> r == Err(InternalServerError, LimitTooSmall))
    ensures r.Ok? ==> Ok(r.value) == Paginate(Select(categories, NameSearch(q.search, ilike)), q.page, q.limit)
    ensures r.Ok? && (q.search.None? || q.search == Some("")) ==> r.value.meta.total == |categories.rows|
  {
    var rows := Select(categories, NameSearch(q.search, ilike));
    var r := Rethrow(Paginate(rows, q.page, q.limit), InternalServerError, (m: string) => OrElse(m, FetchFallback));
    if q.search.None? || q.search == Some("") then
      SelectAllCountsEveryRow(categories, NameSearch(q.search, ilike));
      r
    else r
  }

  /** `findAll`: every category. The query names no order; the model lists
      them by ascending id. */
  function ListCategories(categories: Table<Category>): (r: seq<(Id, Category)>)
    ensures forall k :: k in categories.rows ==> (k, categories.rows[k]) in r
    ensures forall e :: e in r ==> e.0 in categories.rows && categories.rows[e.0] == e.1
    ensures Increasing(r)
  {
    Select(categories, (c: Category) => true)
  }

  /** `findCategoryOrFail`, which is also `findById`. */
  function FindCategory(categories: Table<Category>, id: Id): (r: Result<Category>)
    ensures r.Ok? <==> id in categories.rows
    ensures r.Ok? ==> r.value == categories.rows[id]
    ensures r.Err? ==> r == Err(NotFound, CategoryNotFound)
  {
    if id in categories.rows then Ok(categories.rows[id]) else Err(NotFound, CategoryNotFound)
  }

  function InCategory(category: Id): Subcategory -> bool {
    (s: Subcategory) => s.category == Some(category)
  }

  function CategorySlugIs(slug: string): Category -> bool {
    (c: Category) => c.slug == slug
  }

  /** `findSubCategoriesByCategoryId`: the subcategories linked to the category. */
  function SubcategoriesByCategoryId(db: Db, id: Id): (r: Result<seq<(Id, Subcategory)>>)
    ensures r.Ok? <==> id in db.categories.rows
    ensures r.Err? ==> r == Err(NotFound, CategoryNotFound)
    ensures r.Ok? ==> forall k :: k in db.subcategories.rows ==>
      ((k, db.subcategories.rows[k]) in r.value <==> db.subcategories.rows[k].category == Some(id))
    ensures r.Ok? ==> forall e :: e in r.value ==> e.0 in db.subcategories.rows && db.subcategories.rows[e.0] == e.1
    ensures r.Ok? ==> Increasing(r.value)
  {
    if id !in db.categories.rows then Err(NotFound, CategoryNotFound)
    else Ok(Select(db.subcategories, InCategory(id)))
  }

  /** `findSubCategoriesByCategorySlug`: the same, for the first category with that slug. */
  function SubcategoriesByCategorySlug(db: Db, slug: string): (r: Result<seq<(Id, Subcategory)>>)
    ensures r.Ok? <==> exists k :: k in db.categories.rows && db.categories.rows[k].slug == slug
    ensures r.Err? ==> r == Err(NotFound, CategoryNotFound)
    ensures r.Ok? ==>
      var c := FirstWhere(db.categories, CategorySlugIs(slug)).value;
      && db.categories.rows[c].slug == slug
      && r == SubcategoriesByCategoryId(db, c)
    ensures r.Ok? ==> Increasing(r.value)
  {
    match FirstWhere(db.categories, CategorySlugIs(slug))
    case None => Err(NotFound, CategoryNotFound)
    case Some(c) => SubcategoriesByCategoryId(db, c)
  }

  predicate UniqueSlugs(categories: Table<Category>) {
    forall a, b :: a in categories.rows && b in categories.rows && categories.rows[a].slug == categories.rows[b].slug ==> a == b
  }

  /** `createCategory`: rejects a slug in use, and otherwise adds one row. */
  function CreateCategory(categories: Table<Category>, dto: CreateCategoryDto): (r: Reply<Table<Category>, (Id, Category)>)
    ensures r.Failed() ==> r.state == categories
    ensures r.Succeeded() <==> forall k :: k in categories.rows ==> categories.rows[k].slug != dto.slug
    ensures r.Failed() ==> r.result == Err(BadRequest, SlugTaken(dto.slug))
    ensures r.Succeeded() ==>
      && r.result.value == (categories.next, Category(dto.name, dto.slug, dto.imageUrl))
      && r.state.rows.Keys == categories.rows.Keys + {categories.next}
      && r.state.rows[categories.next] == Category(dto.name, dto.slug, dto.imageUrl)
      && (forall k :: k in categories.rows ==> r.state.rows[k] == categories.rows[k])
  {
    if Exists(categories, CategorySlugIs(dto.slug)) then Fail(categories, BadRequest, SlugTaken(dto.slug))
    else
      var row := Category(dto.name, dto.slug, dto.imageUrl);
      Done(Insert(categories, row), (categories.next, row))
  }

  /** Creation keeps slugs unique, and afterwards exactly one category has the slug. */
  lemma CreateCategoryKeepsSlugsUnique(categories: Table<Category>, dto: CreateCategoryDto)
    requires UniqueSlugs(categories)
    ensures var r := CreateCategory(categories, dto);
      && UniqueSlugs(r.state)
      && exists k :: k in r.state.rows && r.state.rows[k].slug == dto.slug
  {
    var r := CreateCategory(categories, dto);
    if r.Succeeded() {
      assert r.state.rows[categories.next].slug == dto.slug;
    } else {
      var k := FirstWhere(categories, CategorySlugIs(dto.slug)).value;
      assert categories.rows[k].slug == dto.slug;
    }
  }

  /** `Object.assign(category, dto)`: each present field overwrites, the rest stay. */
  function Merge(c: Category, dto: UpdateCategoryDto): (m: Category)
    ensures m.name == dto.name.GetOr(c.name)
    ensures m.slug == dto.slug.GetOr(c.slug)
    ensures m.imageUrl == if dto.imageUrl.Some? then dto.imageUrl else c.imageUrl
  {
    Category(dto.name.GetOr(c.name), dto.slug.GetOr(c.slug), if dto.imageUrl.Some? then dto.imageUrl else c.imageUrl)
  }

  /** `updateCategory`: no slug check is made. */
  function UpdateCategory(categories: Table<Category>, id: Id, dto: UpdateCategoryDto): (r: Reply<Table<Category>, Category>)
    ensures r.Failed() ==> r.state == categories && r.result == Err(NotFound, CategoryNotFound)
    ensures r.Succeeded() <==> id in categories.rows
    ensures r.Succeeded() ==>
      && r.result.value == Merge(categories.rows[id], dto)
      && r.state.rows.Keys == categories.rows.Keys
      && r.state.rows[id] == Merge(categories.rows[id], dto)
      && (forall k :: k in categories.rows && k != id ==> r.state.rows[k] == categories.rows[k])
  {
    match FindCategory(categories, id)
    case Err(k, m) => Fail(categories, k, m)
    case Ok(c) => Done(Put(categories, id, Merge(c, dto)), Merge(c, dto))
  }

  /** An empty update changes nothing. */
  lemma EmptyUpdateIsIdentity(categories: Table<Category>, id: Id)
    requires id in categories.rows
    ensures UpdateCategory(categories, id, UpdateCategoryDto(None, None, None)).state == categories
  {
    assert Merge(categories.rows[id], UpdateCategoryDto(None, None, None)) == categories.rows[id];
    assert categories.rows[id := categories.rows[id]] == categories.rows;
  }

  /** Update skips the slug check: renaming a category's slug to another's
      succeeds and leaves two categories with that slug. */
  lemma UpdateCanDuplicateSlug(categories: Table<Category>, a: Id, b: Id)
    requires a in categories.rows && b in categories.rows && a != b
    ensures var dto := UpdateCategoryDto(None, Some(categories.rows[b].slug), None);
      var r := UpdateCategory(categories, a, dto);
      r.Succeeded() && !UniqueSlugs(r.state)
  {
    var dto := UpdateCategoryDto(None, Some(categories.rows[b].slug), None);
    var r := UpdateCategory(categories, a, dto);
    assert r.state.rows[a].slug == r.state.rows[b].slug;
  }

  predicate References(db: Db, id: Id) {
    || (exists k :: k in db.subcategories.rows && db.subcategories.rows[k].category == Some(id))
    || (exists k :: k in db.products.rows && db.products.rows[k].category == Some(id))
  }

  /** `deleteCategory`. The subcategory and product foreign keys take no
      `ON DELETE` action, so a referenced category is not deleted: the
      database's error surfaces uncaught. */
  function DeleteCategory(db: Db, id: Id): (r: Reply<Db, ()>)
    ensures r.Failed() ==> r.state == db
    ensures id !in db.categories.rows ==> r.result == Err(NotFound, CategoryNotFound)
    ensures id in db.categories.rows && References(db, id) ==> r.result == Err(Uncaught, ForeignKeyViolation)
    ensures r.Succeeded() <==> id in db.categories.rows && !References(db, id)
    ensures r.Succeeded() ==>
      && r.state == db.(categories := r.state.categories)
      && r.state.categories.rows.Keys == db.categories.rows.Keys - {id}
      && (forall k :: k in r.state.categories.rows ==> r.state.categories.rows[k] == db.categories.rows[k])
  {
    if id !in db.categories.rows then Fail(db, NotFound, CategoryNotFound)
    else if Exists(db.subcategories, InCategory(id)) ||
            Exists(db.products, (p: Product) => p.category == Some(id))
    then Fail(db, Uncaught, ForeignKeyViolation)
    else Done(db.(categories := Delete(db.categories, id)), ())
  }
}

=== FILE: coupons.dfy ===
/** `CouponService.applyCoupon`: look up an active coupon by code, reject it
    once expired, and price the cart subtotal with its discount. */
module Coupons {
  import opened Wrappers
  import opened Table
  import opened Schema
  import opened Money

  datatype ApplyCouponDto = ApplyCouponDto(code: string, subtotal: real)

  /** What a successful application reports: the stored code and the
      rounded discount and total. */
  datatype Applied = Applied(coupon: string, discount: real, total: real)

  const CouponNotFound := "Coupon not found or expired!"
  const CouponExpired := "Coupon has expired!"

  /** The unique-code constraint of the coupon table. */
  predicate UniqueCodes(coupons: Table<Coupon>) {
    forall a, b :: a in coupons.rows && b in coupons.rows && coupons.rows[a].code == coupons.rows[b].code ==> a == b
  }

  predicate IsActiveWithCode(c: Coupon, code: string) {
    c.code == code && c.isActive
  }

  /** `findOne({ where: { code, isActive: true } })` */
  function FindActive(coupons: Table<Coupon>, code: string): (r: Option<Id>)
    ensures r.Some? ==> r.value in coupons.rows && IsActiveWithCode(coupons.rows[r.value], code)
    ensures r.None? <==> forall k :: k in coupons.rows ==> !IsActiveWithCode(coupons.rows[k], code)
  {
    FirstWhere(coupons, c => IsActiveWithCode(c, code))
  }

  /** Strictly after the expiry instant; a coupon without one never expires. */
  predicate Expired(c: Coupon, now: int) {
    c.expiresAt.Some? && now > c.expiresAt.value
  }

  /** The unrounded discount: a percentage of the subtotal, or the fixed amount. */
  function Discount(c: Coupon, subtotal: real): (d: real)
    ensures c.discountType == Percentage ==> d * 100.0 == subtotal * c.amount
    ensures c.discountType == Fixed ==> d == c.amount
  {
    match c.discountType
    case Percentage => subtotal * c.amount / 100.0
    case Fixed => c.amount
  }

  /** The coupon at `now` (milliseconds) applied to `dto.subtotal`. */
  function ApplyCoupon(coupons: Table<Coupon>, dto: ApplyCouponDto, now: int): (r: Result<Applied>)
    ensures FindActive(coupons, dto.code).None? ==> r == Err(NotFound, CouponNotFound)
    ensures r.Ok? <==>
      FindActive(coupons, dto.code).Some? && !Expired(coupons.rows[FindActive(coupons, dto.code).value], now)
    ensures FindActive(coupons, dto.code).Some? && Expired(coupons.rows[FindActive(coupons, dto.code).value], now) ==>
      r == Err(BadRequest, CouponExpired)
    ensures r.Ok? ==>
      var c := coupons.rows[FindActive(coupons, dto.code).value];
      && c.isActive && c.code == dto.code && r.value.coupon == dto.code
      && r.value.total >= 0.0
      && -1.0 / 200.0 <= r.value.discount - Discount(c, dto.subtotal) <= 1.0 / 200.0
      && -1.0 / 200.0 <= r.value.total - Max0(dto.subtotal - Discount(c, dto.subtotal)) <= 1.0 / 200.0
      && r.value == Applied(c.code, Round2(Discount(c, dto.subtotal)), Round2(Max0(dto.subtotal - Discount(c, dto.subtotal))))
  {
    match FindActive(coupons, dto.code)
    case None => Err(NotFound, CouponNotFound)
    case Some(id) =>
      var c := coupons.rows[id];
      if Expired(c, now) then Err(BadRequest, CouponExpired)
      else
        var d := Discount(c, dto.subtotal);
        Ok(Applied(c.code, Round2(d), Round2(Max0(dto.subtotal - d))))
  }

  /** With unique codes, the coupon found is the one stored under the code
      whenever that one is active. */
  lemma FoundIsTheCodesCoupon(coupons: Table<Coupon>, code: string, k: Id)
    requires UniqueCodes(coupons)
    requires k in coupons.rows && coupons.rows[k].code == code
    ensures coupons.rows[k].isActive <==> FindActive(coupons, code) == Some(k)
  {
    if coupons.rows[k].isActive {
      assert IsActiveWithCode(coupons.rows[k], code);
    }
  }

  /** The expiry instant itself is still accepted, and an inactive coupon is
      never applied, expired or not. */
  lemma ExpiryBoundary(coupons: Table<Coupon>, dto: ApplyCouponDto, k: Id)
    requires UniqueCodes(coupons)
    requires k in coupons.rows && coupons.rows[k].code == dto.code
    ensures coupons.rows[k].isActive && coupons.rows[k].expiresAt.Some? ==>
      ApplyCoupon(coupons, dto, coupons.rows[k].expiresAt.value).Ok?
    ensures coupons.rows[k].isActive && coupons.rows[k].expiresAt.None? ==>
      forall now :: ApplyCoupon(coupons, dto, now).Ok?
    ensures !coupons.rows[k].isActive ==>
      forall now :: ApplyCoupon(coupons, dto, now) == Err(NotFound, CouponNotFound)
  {
    FoundIsTheCodesCoupon(coupons, dto.code, k);
    if !coupons.rows[k].isActive {
      forall k' | k' in coupons.rows
        ensures !IsActiveWithCode(coupons.rows[k'], dto.code)
      {
      }
    }
  }

  /** A 10% coupon on a subtotal of 200 takes off 20 and leaves 180. */
  lemma PercentageExample(c: Coupon)
    requires c.discountType == Percentage && c.amount == 10.0
    ensures Discount(c, 200.0) == 20.0
    ensures Round2(Discount(c, 200.0)) == 20.0
    ensures Round2(Max0(200.0 - Discount(c, 200.0))) == 180.0
  {
    Round2Exact(2000);
    Round2Exact(18000);
  }

  /** A fixed discount above the subtotal is reported in full while the total
      is clamped to 0: the discount itself is never clamped. */
  lemma FixedDiscountNotClamped(c: Coupon, subtotal: real)
    requires c.discountType == Fixed && c.amount > subtotal
    ensures Max0(subtotal - Discount(c, subtotal)) == 0.0
    ensures Round2(Max0(subtotal - Discount(c, subtotal))) == 0.0
    ensures Discount(c, subtotal) == c.amount
  {
    Round2Exact(0);
  }

  /** With a non-negative subtotal and discount, the total never exceeds the
      rounded subtotal. */
  lemma TotalAtMostSubtotal(c: Coupon, subtotal: real)
    requires subtotal >= 0.0 && Discount(c, subtotal) >= 0.0
    ensures Round2(Max0(subtotal - Discount(c, subtotal))) <= Round2(subtotal)
  {
    Round2Monotone(Max0(subtotal - Discount(c, subtotal)), subtotal);
  }
}

=== FILE: money.dfy ===
/** Money amounts are reals. `Number(x.toFixed(2))` rounds to two decimals,
    halves away from zero (toFixed rounds the magnitude and keeps the sign). */
module Money {

  /** `+x.toFixed(2)`: a whole number of cents within half a cent of `x`;
      at a tie, the one farther from zero. */
  function Round2(x: real): (y: real)
    ensures x >= 0.0 ==> y >= 0.0
    ensures (y * 100.0).Floor as real == y * 100.0
    ensures -1.0 / 200.0 <= y - x <= 1.0 / 200.0
    ensures x >= 0.0 ==> -1.0 / 200.0 < y - x
    ensures x < 0.0 ==> y - x < 1.0 / 200.0
  {
    if x >= 0.0 then RoundUpHalf(x)
    else
      var z := RoundUpHalf(-x);
      var c := (z * 100.0).Floor;
      assert z * 100.0 == c as real;
      assert (-z) * 100.0 == -(z * 100.0) == (-c) as real;
      assert ((-z) * 100.0).Floor == -c;
      -z
  }

  /** Rounding of a non-negative amount to cents, a tie going up. */
  function RoundUpHalf(x: real): (y: real)
    requires x >= 0.0
    ensures y >= 0.0
    ensures (y * 100.0).Floor as real == y * 100.0
    ensures -1.0 / 200.0 < y - x <= 1.0 / 200.0
  {
    var n := (x * 100.0 + 0.5).Floor;
    assert n as real <= x * 100.0 + 0.5 < n as real + 1.0;
    assert (n as real / 100.0) * 100.0 == n as real;
    n as real / 100.0
  }

  /** Those properties leave no choice: any whole number of cents within half
      a cent of `x`, a tie resolved away from zero, is `Round2(x)`. */
  lemma Round2IsTheNearestCent(x: real, cents: int)
    requires -1.0 / 200.0 <= cents as real / 100.0 - x <= 1.0 / 200.0
    requires x >= 0.0 ==> -1.0 / 200.0 < cents as real / 100.0 - x
    requires x < 0.0 ==> cents as real / 100.0 - x < 1.0 / 200.0
    ensures Round2(x) == cents as real / 100.0
  {
    var y := Round2(x);
    var m := (y * 100.0).Floor;
    assert y == m as real / 100.0;
    assert -1.0 < (m - cents) as real < 1.0;
  }

  /** An amount already written with two decimals is left as it is. */
  lemma Round2Exact(cents: int)
    ensures Round2(cents as real / 100.0) == cents as real / 100.0
  {
    var x := cents as real / 100.0;
    if cents >= 0 {
      assert (x * 100.0 + 0.5).Floor == cents;
    } else {
      assert (-x * 100.0 + 0.5).Floor == -cents;
    }
  }

  /** Rounding never reverses the order of two non-negative amounts. */
  lemma Round2Monotone(x: real, y: real)
    requires 0.0 <= x <= y
    ensures Round2(x) <= Round2(y)
  {
    assert (x * 100.0 + 0.5).Floor <= (y * 100.0 + 0.5).Floor;
  }

  function Max0(x: real): (y: real)
    ensures y >= 0.0 && y >= x
    ensures y == x || y == 0.0
  {
    if x > 0.0 then x else 0.0
  }
}

=== FILE: orders.dfy ===
/** Order creation: the order row is saved first with price 0 and status
    pending, then one line item per requested product is saved in request
    order, and finally the order's price is set to the line total plus
    shipping minus coupon, clamped at zero. */
module Orders {
  import opened Wrappers
  import opened Table
  import opened Schema

  /** A requested line. `quantity` is a JavaScript number: the DTO only
      checks that it is a number, so it may be fractional or negative. */
  datatype OrderItem = OrderItem(productId: Id, quantity: real)

  /** The request body. Absent `shipping` and `coupon` read as 0. The enums
      and the id-typed fields stand for the DTO's enum and UUID checks. */
  datatype CreateOrderDto = CreateOrderDto(
    userId: Id,
    products: seq<OrderItem>,
    deliveryMethod: DeliveryMethod,
    paymentMethod: PaymentMethod,
    shipping: Option<real>,
    coupon: Option<real>,
    region: string,
    district: string,
    extraAddress: string)

  /** The DTO's validation rules: shipping and coupon, when given, are at least
      0. A line's quantity only has to be a number: zero, negative and
      fractional quantities are valid. The address fields only have to be
      strings, of any length. */
  predicate ValidDto(d: CreateOrderDto) {
    && (d.shipping.Some? ==> d.shipping.value >= 0.0)
    && (d.coupon.Some? ==> d.coupon.value >= 0.0)
  }

  /** Whether the address fields fit their `varchar(255)` columns, so that
      the first save of the order succeeds. */
  predicate AddressFits(d: CreateOrderDto) {
    |d.region| <= AddressWidth && |d.district| <= AddressWidth && |d.extraAddress| <= AddressWidth
  }

  /** Whether the line loop saves a line for `item`: its product exists, and
      its quantity fits the `integer` `quantity` column, being whole and in
      range. */
  predicate Savable(products: Table<Product>, item: OrderItem) {
    item.productId in products.rows && IsWhole(item.quantity) && InInt4(item.quantity)
  }

  predicate AllSavable(products: Table<Product>, items: seq<OrderItem>) {
    forall i :: 0 <= i < |items| ==> Savable(products, items[i])
  }

  /** A line's stored price: the product's current price times the quantity. */
  function LinePrice(products: Table<Product>, item: OrderItem): real
    requires item.productId in products.rows
  {
    products.rows[item.productId].currentPrice * item.quantity
  }

  /** Reference sum of the line prices of a request. */
  function Subtotal(products: Table<Product>, items: seq<OrderItem>): real
    requires AllSavable(products, items)
  {
    if |items| == 0 then 0.0
    else LinePrice(products, items[0]) + Subtotal(products, items[1..])
  }

  /** The line row saved for `item` of order `order`. */
  function LineFor(products: Table<Product>, order: Id, item: OrderItem): OrderLine
    requires item.productId in products.rows
  {
    OrderLine(order, item.productId, item.quantity.Floor, LinePrice(products, item))
  }

  /** How many requested lines, from the front, the loop saves: it stops at
      the first line whose product is missing or whose quantity is not a
      whole number in the integer column's range. */
  function SavedPrefix(products: Table<Product>, items: seq<OrderItem>): (n: nat)
    decreases |items|
    ensures n <= |items|
    ensures AllSavable(products, items[..n])
    ensures n < |items| ==> !Savable(products, items[n])
  {
    if |items| == 0 || !Savable(products, items[0]) then 0
    else
      var n := 1 + SavedPrefix(products, items[1..]);
      assert forall i :: 1 <= i < n ==> items[..n][i] == items[1..][..n - 1][i - 1];
      n
  }

  lemma SavedPrefixAll(products: Table<Product>, items: seq<OrderItem>)
    ensures SavedPrefix(products, items) == |items| <==> AllSavable(products, items)
  {
    assert items[..|items|] == items;
  }

  /** The error that ends the loop at an unsavable line: the product lookup
      fails first; otherwise the line's save fails on the integer column,
      rejecting a fractional quantity as not an integer and a whole one as
      out of range. */
  function LoopError(products: Table<Product>, item: OrderItem): (msg: string)
    requires !Savable(products, item)
    ensures item.productId !in products.rows ==> msg == EntityNotFound("Product")
    ensures item.productId in products.rows && !IsWhole(item.quantity) ==> msg == NotAnInteger
    ensures item.productId in products.rows && IsWhole(item.quantity) ==>
      !InInt4(item.quantity) && msg == NotInRange
  {
    if item.productId !in products.rows then EntityNotFound("Product")
    else if !IsWhole(item.quantity) then NotAnInteger
    else NotInRange
  }

  /** `totalPrice + shipping - coupon`, replaced by 0 when negative. */
  function ClampedTotal(lineTotal: real, shipping: real, coupon: real): (p: real)
    ensures p >= 0.0
    ensures p == lineTotal + shipping - coupon || (p == 0.0 && lineTotal + shipping - coupon < 0.0)
  {
    var t := lineTotal + shipping - coupon;
    if t < 0.0 then 0.0 else t
  }

  /** The order row as first saved, before any line exists. */
  function InitialOrder(dto: CreateOrderDto): (o: Order)
    ensures o.status == Pending && o.price == 0.0
    ensures o.shipping == dto.shipping.GetOr(0.0) && o.coupon == dto.coupon.GetOr(0.0)
    ensures o.user == dto.userId
    ensures o.deliveryMethod == dto.deliveryMethod && o.paymentMethod == dto.paymentMethod
    ensures o.region == dto.region && o.district == dto.district && o.extraAddress == dto.extraAddress
  {
    Order(dto.userId, dto.deliveryMethod, dto.paymentMethod, dto.region, dto.district,
          dto.extraAddress, Pending, 0.0, dto.shipping.GetOr(0.0), dto.coupon.GetOr(0.0))
  }

  /** The line table after saving one line per item, and the ids they got. */
  datatype SavedLines = SavedLines(table: Table<OrderLine>, ids: seq<Id>)

  /** The line loop over lines that can all be saved: each line is stored
      under a new id, in request order, and older lines stay. That the ids
      are consecutive from the counter is how the model generates keys, not a
      promise of the database's uuid keys; `SavedLinesFresh` states the
      key facts without the counter. */
  function SaveLines(lines: Table<OrderLine>, products: Table<Product>, order: Id, items: seq<OrderItem>): (s: SavedLines)
    requires AllSavable(products, items)
    decreases |items|
    ensures |s.ids| == |items|
    ensures forall i :: 0 <= i < |items| ==> s.ids[i] == lines.next + i
    ensures forall k :: k in s.table.rows <==> k in lines.rows || lines.next <= k < lines.next + |items|
    ensures forall i :: 0 <= i < |items| ==> s.ids[i] in s.table.rows && s.table.rows[s.ids[i]] == LineFor(products, order, items[i])
    ensures forall k :: k in lines.rows ==> k in s.table.rows && s.table.rows[k] == lines.rows[k]
  {
    if |items| == 0 then SavedLines(lines, [])
    else
      var first := Insert(lines, LineFor(products, order, items[0]));
      var rest := SaveLines(first, products, order, items[1..]);
      var ids := [lines.next] + rest.ids;
      assert forall i :: 1 <= i < |items| ==> ids[i] == rest.ids[i - 1] && items[i] == items[1..][i - 1];
      SavedLines(rest.table, ids)
  }

  /** The ids the loop gives its lines are new to the table and all
      different, and the table gains exactly the rows under those ids. */
  lemma SavedLinesFresh(lines: Table<OrderLine>, products: Table<Product>, order: Id, items: seq<OrderItem>)
    requires AllSavable(products, items)
    ensures var s := SaveLines(lines, products, order, items);
      && (forall i :: 0 <= i < |items| ==> s.ids[i] !in lines.rows)
      && (forall a, b :: 0 <= a < b < |items| ==> s.ids[a] != s.ids[b])
      && (forall k :: k in s.table.rows <==> k in lines.rows || k in s.ids)
  {
    var s := SaveLines(lines, products, order, items);
    forall k | lines.next <= k < lines.next + |items|
      ensures k in s.ids
    {
      assert s.ids[k - lines.next] == k;
    }
  }

  datatype Placed = Placed(id: Id, order: Order, lines: seq<Id>)

  /** `OrderService.create`. */
  function CreateOrder(db: Db, dto: CreateOrderDto): (r: Reply<Db, Placed>)
    ensures r.state == db.(orders := r.state.orders, orderLines := r.state.orderLines)
    ensures dto.userId !in db.users.rows ==> r == Fail(db, Uncaught, EntityNotFound("User"))
    ensures dto.userId in db.users.rows && !AddressFits(dto) ==> r == Fail(db, Uncaught, TooLong)
    ensures r.Succeeded() <==>
      dto.userId in db.users.rows && AddressFits(dto) && AllSavable(db.products, dto.products)
    ensures r.Succeeded() ==>
      var p := r.result.value;
      var o := p.order;
      && p.id !in db.orders.rows
      && r.state.orders.rows.Keys == db.orders.rows.Keys + {p.id}
      && r.state.orders.rows[p.id] == o
      && (forall k :: k in db.orders.rows ==> r.state.orders.rows[k] == db.orders.rows[k])
      && o.user == dto.userId && o.status == Pending
      && o.deliveryMethod == dto.deliveryMethod && o.paymentMethod == dto.paymentMethod
      && o.region == dto.region && o.district == dto.district && o.extraAddress == dto.extraAddress
      && o.shipping == dto.shipping.GetOr(0.0) && o.coupon == dto.coupon.GetOr(0.0)
      && o.price == ClampedTotal(Subtotal(db.products, dto.products), o.shipping, o.coupon)
      && |p.lines| == |dto.products|
      && (forall i :: 0 <= i < |p.lines| ==>
            && p.lines[i] !in db.orderLines.rows
            && p.lines[i] in r.state.orderLines.rows
            && r.state.orderLines.rows[p.lines[i]] == LineFor(db.products, p.id, dto.products[i]))
      && (forall a, b :: 0 <= a < b < |p.lines| ==> p.lines[a] != p.lines[b])
      && (forall k :: k in r.state.orderLines.rows <==> k in db.orderLines.rows || k in p.lines)
    ensures dto.userId in db.users.rows && AddressFits(dto) && !AllSavable(db.products, dto.products) ==>
      var n := SavedPrefix(db.products, dto.products);
      var id := db.orders.next;
      && n < |dto.products|
      && r.result == Err(Uncaught, LoopError(db.products, dto.products[n]))
      && id !in db.orders.rows
      && r.state.orders.rows.Keys == db.orders.rows.Keys + {id}
      && r.state.orders.rows[id] == InitialOrder(dto)
      && (forall k :: k in db.orders.rows ==> r.state.orders.rows[k] == db.orders.rows[k])
      && r.state.orderLines == SaveLines(db.orderLines, db.products, id, dto.products[..n]).table
    ensures forall k :: k in db.orderLines.rows ==>
      k in r.state.orderLines.rows && r.state.orderLines.rows[k] == db.orderLines.rows[k]
  {
    if dto.userId !in db.users.rows then Fail(db, Uncaught, EntityNotFound("User"))
    else if !AddressFits(dto) then Fail(db, Uncaught, TooLong)
    else
      var initial := InitialOrder(dto);
      var id := db.orders.next;
      var orders := Insert(db.orders, initial);
      var n := SavedPrefix(db.products, dto.products);
      var known := dto.products[..n];
      var saved := SaveLines(db.orderLines, db.products, id, known);
      SavedLinesFresh(db.orderLines, db.products, id, known);
      SavedPrefixAll(db.products, dto.products);
      if n < |dto.products| then
        Reply(db.(orders := orders, orderLines := saved.table), Err(Uncaught, LoopError(db.products, dto.products[n])))
      else
        assert known == dto.products;
        var order := initial.(price := ClampedTotal(Subtotal(db.products, known), initial.shipping, initial.coupon));
        Done(db.(orders := Put(orders, id, order), orderLines := saved.table), Placed(id, order, saved.ids))
  }

  /** A worked total: lines 10 x 2 and 5 x 1 with shipping 3 and coupon 5
      give 23. */
  lemma WorkedTotal(products: Table<Product>, a: Id, b: Id)
    requires a in products.rows && b in products.rows
    requires products.rows[a].currentPrice == 10.0 && products.rows[b].currentPrice == 5.0
    ensures var items := [OrderItem(a, 2.0), OrderItem(b, 1.0)];
      AllSavable(products, items) && ClampedTotal(Subtotal(products, items), 3.0, 5.0) == 23.0
  {
    var items := [OrderItem(a, 2.0), OrderItem(b, 1.0)];
    assert items[1..] == [OrderItem(b, 1.0)];
    assert items[1..][1..] == [];
    assert Subtotal(products, items[1..][1..]) == 0.0;
    assert Subtotal(products, items[1..]) == 5.0;
    assert Subtotal(products, items) == 25.0;
  }

  /** A valid request may carry a negative quantity, and its line then lowers
      the total: the DTO puts no lower bound on quantities. */
  lemma NegativeQuantityLowersTotal(products: Table<Product>, a: Id, dto: CreateOrderDto)
    requires a in products.rows && products.rows[a].currentPrice > 0.0
    requires dto.products == [OrderItem(a, -1.0)] && dto.shipping.None? && dto.coupon.None?
    ensures ValidDto(dto)
    ensures Subtotal(products, dto.products) < 0.0
    ensures ClampedTotal(Subtotal(products, dto.products), 0.0, 0.0) == 0.0
  {
    assert dto.products[1..] == [];
  }

  /** A valid request with a fractional quantity of an existing product ends
      with the pending order saved and the error of the integer column. */
  lemma FractionalQuantityFails(db: Db, dto: CreateOrderDto, a: Id)
    requires dto.userId in db.users.rows && AddressFits(dto) && ValidDto(dto)
    requires a in db.products.rows && dto.products == [OrderItem(a, 1.5)]
    ensures var r := CreateOrder(db, dto);
      && r.result == Err(Uncaught, NotAnInteger)
      && r.state.orders.rows.Keys == db.orders.rows.Keys + {db.orders.next}
      && r.state.orderLines == db.orderLines
  {
    assert !IsWhole(1.5);
    assert !Savable(db.products, dto.products[0]);
    assert SavedPrefix(db.products, dto.products) == 0;
  }

  /** A whole quantity just past the integer column's range, 2147483648, is
      as valid for the DTO as any number, and ends the loop with the column's
      range error, the pending order saved. */
  lemma HugeQuantityFails(db: Db, dto: CreateOrderDto, a: Id)
    requires dto.userId in db.users.rows && AddressFits(dto) && ValidDto(dto)
    requires a in db.products.rows && dto.products == [OrderItem(a, 2147483648.0)]
    ensures var r := CreateOrder(db, dto);
      && r.result == Err(Uncaught, NotInRange)
      && r.state.orders.rows.Keys == db.orders.rows.Keys + {db.orders.next}
      && r.state.orderLines == db.orderLines
  {
    assert !InInt4(2147483648.0);
    assert !Savable(db.products, dto.products[0]);
    assert SavedPrefix(db.products, dto.products) == 0;
  }
}

=== FILE: pagination.dfy ===
/** The page/limit arithmetic repeated by every paginated listing: bounds
    validation, `skip = (page - 1) * limit`, `take = limit`,
    `totalPages = ceil(total / limit)`, `hasNext` and `hasPrev`. */
module Pagination {
  import opened Wrappers

  /** Destructuring defaults of the listing methods (`page = 1, limit = 24`). */
  const DefaultPage: int := 1
  const DefaultLimit: int := 24

  const PageTooSmall := "Page must be greater than 0."
  const LimitTooSmall := "Limit must be greater than 0."

  datatype Meta = Meta(
    total: nat,
    totalPages: nat,
    currentPage: int,
    perPage: int,
    hasNext: bool,
    hasPrev: bool)

  datatype Page<T> = Page(data: seq<T>, meta: Meta)

  /** `Math.ceil(n / d)` for a positive divisor: the fewest pages of `d` rows
      that hold `n` rows. */
  function CeilDiv(n: nat, d: nat): (q: nat)
    requires d >= 1
    ensures q * d >= n
    ensures q == 0 <==> n == 0
    ensures q > 0 ==> (q - 1) * d < n
  {
    var q := (n + d - 1) / d;
    assert (n + d - 1) == q * d + (n + d - 1) % d;
    q
  }

  /** The optional `name ILIKE %search%` filter of the listings, applied only
      when `search` is a non-empty string. The pattern match itself is the
      database's and is a parameter here. */
  predicate SearchMatch(search: Option<string>, ilike: (string, string) -> bool, text: string) {
    search.None? || search.value == "" || ilike(text, search.value)
  }

  /** `(page - 1) * limit` */
  function Skip(page: int, limit: int): int {
    (page - 1) * limit
  }

  /** The rows a query with `skip` and `take` returns. */
  function Window<T>(items: seq<T>, skip: int, take: int): (w: seq<T>)
    requires skip >= 0 && take >= 0
    ensures |w| <= take
    ensures forall j :: 0 <= j < |w| ==> skip + j < |items| && w[j] == items[skip + j]
    ensures forall j :: 0 <= j < |w| ==> w[j] in items
    ensures |w| == if skip >= |items| then 0 else if skip + take <= |items| then take else |items| - skip
  {
    var lo := if skip < |items| then skip else |items|;
    var hi := if skip + take < |items| then skip + take else |items|;
    items[lo..hi]
  }

  /** The private `validatePagination` helper: the page bound is checked first. */
  function CheckBounds(page: int, limit: int): (r: Option<string>)
    ensures r.None? <==> page >= 1 && limit >= 1
  {
    if page < 1 then Some(PageTooSmall)
    else if limit < 1 then Some(LimitTooSmall)
    else None
  }

  /** Page `p` of `items` at `l` rows a page, with its metadata: the rows
      from `Skip(p, l)` on, at most `l` of them, and `totalPages` the fewest
      pages holding every row. */
  function MakePage<T>(items: seq<T>, p: int, l: int): (pg: Page<T>)
    requires p >= 1 && l >= 1
    ensures pg.meta.total == |items| && pg.meta.currentPage == p && pg.meta.perPage == l
    ensures pg.meta.totalPages * l >= |items|
    ensures pg.meta.totalPages > 0 ==> (pg.meta.totalPages - 1) * l < |items|
    ensures pg.meta.hasNext <==> p < pg.meta.totalPages
    ensures pg.meta.hasPrev <==> p > 1
    ensures pg.data == Window(items, Skip(p, l), l)
  {
    MulMonotone(0, p - 1, l);
    var totalPages := CeilDiv(|items|, l);
    Page(Window(items, Skip(p, l), l), Meta(|items|, totalPages, p, l, p < totalPages, p > 1))
  }

  /** One page of `items` (already filtered and ordered by id) with its
      metadata, or the bad request `validatePagination` raises. Absent
      bounds take the defaults. */
  function Paginate<T>(items: seq<T>, page: Option<int>, limit: Option<int>): (r: Result<Page<T>>)
    ensures var p := page.GetOr(DefaultPage); var l := limit.GetOr(DefaultLimit);
      && (r.Ok? <==> p >= 1 && l >= 1)
      && (p < 1 ==> r == Err(BadRequest, PageTooSmall))
      && (p >= 1 && l < 1 ==> r == Err(BadRequest, LimitTooSmall))
      && (r.Ok? ==> r.value == MakePage(items, p, l))
  {
    var p := page.GetOr(DefaultPage);
    var l := limit.GetOr(DefaultLimit);
    match CheckBounds(p, l)
    case Some(msg) => Err(BadRequest, msg)
    case None => Ok(MakePage(items, p, l))
  }

  /** A page only holds rows of `items`, so it keeps any property they all have. */
  lemma PageRowsSatisfy<T>(items: seq<T>, page: Option<int>, limit: Option<int>, P: T -> bool)
    requires forall e :: e in items ==> P(e)
    requires Paginate(items, page, limit).Ok?
    ensures forall j :: 0 <= j < |Paginate(items, page, limit).value.data| ==> P(Paginate(items, page, limit).value.data[j])
  {
    var data := Paginate(items, page, limit).value.data;
    assert forall j :: 0 <= j < |data| ==> data[j] in items;
  }

  lemma MulMonotone(a: int, b: int, c: int)
    requires a <= b && c >= 0
    ensures a * c <= b * c
  {
    assert b * c - a * c == (b - a) * c;
  }

  /** `hasNext` holds exactly when rows remain after the requested page. */
  lemma HasNextIffRowsBeyondPage<T>(items: seq<T>, page: int, limit: int)
    requires page >= 1 && limit >= 1
    ensures Paginate(items, Some(page), Some(limit)).Ok?
    ensures Paginate(items, Some(page), Some(limit)).value.meta.hasNext <==> page * limit < |items|
  {
    var r := Paginate(items, Some(page), Some(limit));
    var t := r.value.meta.totalPages;
    if page < t {
      MulMonotone(page, t - 1, limit);
    } else {
      MulMonotone(t, page, limit);
    }
  }

  /** `hasPrev` holds exactly when the query skipped some rows. */
  lemma HasPrevIffRowsSkipped<T>(items: seq<T>, page: int, limit: int)
    requires page >= 1 && limit >= 1
    ensures Paginate(items, Some(page), Some(limit)).Ok?
    ensures Paginate(items, Some(page), Some(limit)).value.meta.hasPrev <==> Skip(page, limit) > 0
  {
    if page > 1 {
      MulMonotone(1, page - 1, limit);
    }
  }

  /** A page has rows exactly when its number is at most `totalPages`. */
  lemma NonEmptyIffWithinPages<T>(items: seq<T>, page: int, limit: int)
    requires page >= 1 && limit >= 1
    ensures Paginate(items, Some(page), Some(limit)).Ok?
    ensures var m := Paginate(items, Some(page), Some(limit)).value;
      |m.data| > 0 <==> page <= m.meta.totalPages
  {
    var m := Paginate(items, Some(page), Some(limit)).value;
    var t := m.meta.totalPages;
    if page <= t {
      MulMonotone(page - 1, t - 1, limit);
    } else {
      MulMonotone(t, page - 1, limit);
    }
  }

  /** Every row is reachable: row `i` is entry `i % limit` of page
      `i / limit + 1`, and that page number is at most `totalPages`. */
  lemma EveryRowOnItsPage<T>(items: seq<T>, limit: int, i: int)
    requires limit >= 1 && 0 <= i < |items|
    ensures var page := i / limit + 1;
      var r := Paginate(items, Some(page), Some(limit));
      && r.Ok?
      && page <= r.value.meta.totalPages
      && i % limit < |r.value.data|
      && r.value.data[i % limit] == items[i]
  {
    var page := i / limit + 1;
    assert i == (i / limit) * limit + i % limit;
    assert Skip(page, limit) == (i / limit) * limit;
    NonEmptyIffWithinPages(items, page, limit);
    var r := Paginate(items, Some(page), Some(limit));
    assert Skip(page, limit) + i % limit == i;
  }

  /** A page other than the last one is full. */
  lemma PageFullWhenHasNext<T>(items: seq<T>, page: int, limit: int)
    requires page >= 1 && limit >= 1
    requires Paginate(items, Some(page), Some(limit)).value.meta.hasNext
    ensures |Paginate(items, Some(page), Some(limit)).value.data| == limit
  {
    HasNextIffRowsBeyondPage(items, page, limit);
    assert Skip(page, limit) + limit == page * limit;
  }
}

=== FILE: products.dfy ===
/** `ProductService`: the paginated listing with its price-range filter, and
    product creation with its slug guard, reference checks and defaults. */
module Products {
  import opened Wrappers
  import opened Table
  import opened Schema
  import opened Pagination
  import opened Money

  /** `Number.MAX_SAFE_INTEGER`, the upper bound used when only a minimum is given. */
  const MaxSafeInteger: real := 9007199254740991.0

  const MinAboveMax := "minPrice cannot be greater than maxPrice."
  const FetchFallback := "Error while fetching products"
  const RelatedNotFound := "Category, Subcategory, or User not found."
  const CreateFallback := "Failed to create product."

  /** An inclusive `Between(lo, hi)` on `currentPrice`. */
  datatype PriceRange = PriceRange(lo: real, hi: real)

  datatype ProductQuery = ProductQuery(
    page: Option<int>,
    limit: Option<int>,
    minPrice: Option<real>,
    maxPrice: Option<real>)

  /** `buildPriceFilder`: a missing lower bound reads as 0 and a missing upper
      bound as the largest safe integer; with neither there is no filter. */
  function PriceFilter(minPrice: Option<real>, maxPrice: Option<real>): (r: Result<Option<PriceRange>>)
    ensures r.Err? <==> minPrice.Some? && maxPrice.Some? && minPrice.value > maxPrice.value
    ensures r.Err? ==> r == Err(BadRequest, MinAboveMax)
    ensures r.Ok? ==> (r.value.Some? <==> minPrice.Some? || maxPrice.Some?)
    ensures r.Ok? && r.value.Some? ==>
      r.value.value == PriceRange(minPrice.GetOr(0.0), maxPrice.GetOr(MaxSafeInteger))
  {
    if minPrice.Some? && maxPrice.Some? then
      if minPrice.value > maxPrice.value then Err(BadRequest, MinAboveMax)
      else Ok(Some(PriceRange(minPrice.value, maxPrice.value)))
    else if minPrice.Some? then Ok(Some(PriceRange(minPrice.value, MaxSafeInteger)))
    else if maxPrice.Some? then Ok(Some(PriceRange(0.0, maxPrice.value)))
    else Ok(None)
  }

  predicate InRange(range: Option<PriceRange>, price: real) {
    range.Some? ==> range.value.lo <= price <= range.value.hi
  }

  function PriceMatch(range: Option<PriceRange>): Product -> bool {
    (p: Product) => InRange(range, p.currentPrice)
  }

  /** The listing before its `catch`: bounds first, then the price filter,
      then one page of the matching products by ascending id. */
  function ListProducts(products: Table<Product>, q: ProductQuery): Result<Page<(Id, Product)>> {
    var p := q.page.GetOr(DefaultPage);
    var l := q.limit.GetOr(DefaultLimit);
    match CheckBounds(p, l)
    case Some(msg) => Err(BadRequest, msg)
    case None =>
      match PriceFilter(q.minPrice, q.maxPrice)
      case Err(k, msg) => Err(k, msg)
      case Ok(range) => Paginate(Select(products, PriceMatch(range)), q.page, q.limit)
  }

  /** `findAll`: every failure, the bad requests included, is re-raised as an
      internal error carrying the original message. */
  function FindAllProducts(products: Table<Product>, q: ProductQuery): (r: Result<Page<(Id, Product)>>)
    ensures var p := q.page.GetOr(DefaultPage); var l := q.limit.GetOr(DefaultLimit);
      && (r.Ok? <==> p >= 1 && l >= 1 && PriceFilter(q.minPrice, q.maxPrice).Ok?)
      && (p < 1 ==> r == Err(InternalServerError, PageTooSmall))
      && (p >= 1 && l < 1 ==> r == Err(InternalServerError, LimitTooSmall))
      && (p >= 1 && l >= 1 && PriceFilter(q.minPrice, q.maxPrice).Err? ==> r == Err(InternalServerError, MinAboveMax))
    ensures r.Ok? ==>
      Ok(r.value) == Paginate(Select(products, PriceMatch(PriceFilter(q.minPrice, q.maxPrice).value)), q.page, q.limit)
  {
    Rethrow(ListProducts(products, q), InternalServerError, (m: string) => OrElse(m, FetchFallback))
  }

  /** Every listed product is a stored row whose price lies within the given
      bounds, and within the implicit bound of the side left open. */
  lemma ListedProductsInRange(products: Table<Product>, q: ProductQuery)
    ensures var r := FindAllProducts(products, q);
      r.Ok? ==> forall j :: 0 <= j < |r.value.data| ==>
        var (id, row) := r.value.data[j];
        && id in products.rows && products.rows[id] == row
        && (q.minPrice.Some? ==> q.minPrice.value <= row.currentPrice)
        && (q.maxPrice.Some? ==> row.currentPrice <= q.maxPrice.value)
        && (q.minPrice.Some? && q.maxPrice.None? ==> row.currentPrice <= MaxSafeInteger)
        && (q.minPrice.None? && q.maxPrice.Some? ==> 0.0 <= row.currentPrice)
  {
    var r := FindAllProducts(products, q);
    if r.Ok? {
      var range := PriceFilter(q.minPrice, q.maxPrice).value;
      var rows := Select(products, PriceMatch(range));
      var P := (e: (Id, Product)) =>
        && e.0 in products.rows && products.rows[e.0] == e.1
        && (q.minPrice.Some? ==> q.minPrice.value <= e.1.currentPrice)
        && (q.maxPrice.Some? ==> e.1.currentPrice <= q.maxPrice.value)
        && (q.minPrice.Some? && q.maxPrice.None? ==> e.1.currentPrice <= MaxSafeInteger)
        && (q.minPrice.None? && q.maxPrice.Some? ==> 0.0 <= e.1.currentPrice);
      forall e | e in rows
        ensures P(e)
      {
        assert InRange(range, e.1.currentPrice);
      }
      PageRowsSatisfy(rows, q.page, q.limit, P);
    }
  }

  /** A price exactly on a bound is inside the range: `Between` is inclusive. */
  lemma BoundsInclusive(minPrice: real, maxPrice: real)
    requires minPrice <= maxPrice
    ensures PriceFilter(Some(minPrice), Some(maxPrice)).Ok?
    ensures InRange(PriceFilter(Some(minPrice), Some(maxPrice)).value, minPrice)
    ensures InRange(PriceFilter(Some(minPrice), Some(maxPrice)).value, maxPrice)
  {
  }

  /** The creation request, as far as the product row uses it. */
  datatype CreateProductDto = CreateProductDto(
    name: string,
    slug: string,
    shortDescription: string,
    description: Option<string>,
    currentPrice: real,
    originalPrice: Option<real>,
    imageUrl: string,
    imageUrls: seq<string>,
    category: Id,
    subcategory: Id,
    createdBy: Id,
    isBestSeller: Option<bool>,
    isFeatured: Option<bool>)

  function SlugTaken(slug: string): string {
    "Product with slug \"" + slug + "\" already exists."
  }

  predicate HasSlug(p: Product, slug: string) {
    p.slug == slug
  }

  function SlugMatch(slug: string): Product -> bool {
    (p: Product) => HasSlug(p, slug)
  }

  /** Unique product slugs, the registry's key. */
  predicate UniqueSlugs(products: Table<Product>) {
    forall a, b :: a in products.rows && b in products.rows && products.rows[a].slug == products.rows[b].slug ==> a == b
  }

  /** `createProductEntity`: a falsy description or original price (the empty
      string, 0) is stored as null; the flags default to false. */
  function ProductRow(dto: CreateProductDto): (p: Product)
    ensures p.description.None? <==> dto.description.None? || dto.description == Some("")
    ensures p.description.Some? ==> p.description == dto.description
    ensures p.originalPrice.None? <==> dto.originalPrice.None? || dto.originalPrice == Some(0.0)
    ensures p.originalPrice.Some? ==> p.originalPrice == dto.originalPrice
    ensures p.isBestSeller == (dto.isBestSeller == Some(true))
    ensures p.isFeatured == (dto.isFeatured == Some(true))
    ensures p.category == Some(dto.category) && p.subcategory == Some(dto.subcategory)
    ensures p.createdBy == Some(dto.createdBy)
    ensures p.slug == dto.slug && p.name == dto.name && p.currentPrice == dto.currentPrice
  {
    Product(
      dto.name,
      dto.slug,
      dto.shortDescription,
      if dto.description == Some("") then None else dto.description,
      dto.currentPrice,
      if dto.originalPrice == Some(0.0) then None else dto.originalPrice,
      dto.imageUrl,
      dto.imageUrls,
      Some(dto.category),
      Some(dto.subcategory),
      dto.isBestSeller.GetOr(false),
      dto.isFeatured.GetOr(false),
      Some(dto.createdBy))
  }

  /** Why saving the row fails, if it does: the first column, in the entity's
      column order, whose value it cannot hold. The columns are `name`,
      `description`, `current_price`, `original_price` and `image_url`;
      `slug`, `short_description` and `imageUrls` have no column. */
  function RowError(p: Product): (e: Option<string>)
    ensures e.None? <==>
      && |p.name| <= ProductNameWidth
      && (p.description.Some? ==> |p.description.value| <= ProductDescriptionWidth)
      && DecimalFits(p.currentPrice)
      && (p.originalPrice.Some? ==> DecimalFits(p.originalPrice.value))
      && |p.imageUrl| <= ProductImageUrlWidth
    ensures e.Some? ==> e.value == TooLong || e.value == NumericOverflow
    ensures |p.name| > ProductNameWidth ==> e == Some(TooLong)
    ensures (|p.name| <= ProductNameWidth && (p.description.Some? ==> |p.description.value| <= ProductDescriptionWidth)
      && !DecimalFits(p.currentPrice)) ==> e == Some(NumericOverflow)
  {
    if |p.name| > ProductNameWidth then Some(TooLong)
    else if p.description.Some? && |p.description.value| > ProductDescriptionWidth then Some(TooLong)
    else if !DecimalFits(p.currentPrice) then Some(NumericOverflow)
    else if p.originalPrice.Some? && !DecimalFits(p.originalPrice.value) then Some(NumericOverflow)
    else if |p.imageUrl| > ProductImageUrlWidth then Some(TooLong)
    else None
  }

  /** `createProduct`; every failure, the save's included, is re-raised as
      an internal error carrying its message. */
  function CreateProduct(db: Db, dto: CreateProductDto): (r: Reply<Db, (Id, Product)>)
    ensures r.Failed() ==> r.state == db
    ensures Exists(db.products, SlugMatch(dto.slug)) ==> r.result == Err(InternalServerError, SlugTaken(dto.slug))
    ensures !Exists(db.products, SlugMatch(dto.slug)) &&
      (dto.category !in db.categories.rows || dto.subcategory !in db.subcategories.rows || dto.createdBy !in db.users.rows)
      ==> r.result == Err(InternalServerError, RelatedNotFound)
    ensures !Exists(db.products, SlugMatch(dto.slug)) &&
      dto.category in db.categories.rows && dto.subcategory in db.subcategories.rows && dto.createdBy in db.users.rows &&
      RowError(ProductRow(dto)).Some?
      ==> r.result == Err(InternalServerError, RowError(ProductRow(dto)).value)
    ensures r.Succeeded() <==>
      && (forall k :: k in db.products.rows ==> db.products.rows[k].slug != dto.slug)
      && dto.category in db.categories.rows && dto.subcategory in db.subcategories.rows && dto.createdBy in db.users.rows
      && RowError(ProductRow(dto)).None?
    ensures r.Succeeded() ==>
      && r.state == db.(products := r.state.products)
      && r.result.value == (db.products.next, ProductRow(dto))
      && r.state.products.rows.Keys == db.products.rows.Keys + {db.products.next}
      && r.state.products.rows[db.products.next] == ProductRow(dto)
      && (forall k :: k in db.products.rows ==> r.state.products.rows[k] == db.products.rows[k])
  {
    var caught: Result<Product> :=
      if Exists(db.products, SlugMatch(dto.slug)) then Err(BadRequest, SlugTaken(dto.slug))
      else if dto.category !in db.categories.rows || dto.subcategory !in db.subcategories.rows || dto.createdBy !in db.users.rows
      then Err(NotFound, RelatedNotFound)
      else if RowError(ProductRow(dto)).Some? then Err(Uncaught, RowError(ProductRow(dto)).value)
      else Ok(ProductRow(dto));
    match Rethrow(caught, InternalServerError, (m: string) => OrElse(m, CreateFallback))
    case Err(k, m) => Fail(db, k, m)
    case Ok(row) => Done(db.(products := Insert(db.products, row)), (db.products.next, row))
  }

  /** A successful creation keeps product slugs unique. */
  lemma CreateProductKeepsSlugsUnique(db: Db, dto: CreateProductDto)
    requires UniqueSlugs(db.products)
    ensures UniqueSlugs(CreateProduct(db, dto).state.products)
  {
  }

  /** An original price of 0 is stored as null, and a description of "" too. */
  lemma FalsyDefaults(dto: CreateProductDto)
    requires dto.originalPrice == Some(0.0) && dto.description == Some("")
    ensures ProductRow(dto).originalPrice.None? && ProductRow(dto).description.None?
  {
  }

  /** The column bound agrees with rounding: a price fits `decimal(10,2)`
      exactly when its value rounded to cents is below 10^8 in magnitude. */
  lemma DecimalFitsIffRoundedFits(x: real)
    ensures DecimalFits(x) <==> -100000000.0 < Round2(x) < 100000000.0
  {
    var y := Round2(x);
    var m := (y * 100.0).Floor;
    assert y == m as real / 100.0;
  }

  /** A current price of 10^8 passes every check before the save, and the
      save's overflow comes back as an internal error. */
  lemma HugePriceFails(db: Db, dto: CreateProductDto)
    requires forall k :: k in db.products.rows ==> db.products.rows[k].slug != dto.slug
    requires dto.category in db.categories.rows && dto.subcategory in db.subcategories.rows && dto.createdBy in db.users.rows
    requires |dto.name| <= ProductNameWidth
    requires dto.description.Some? ==> |dto.description.value| <= ProductDescriptionWidth
    requires dto.currentPrice == 100000000.0
    ensures CreateProduct(db, dto) == Fail(db, InternalServerError, NumericOverflow)
  {
    assert !DecimalFits(ProductRow(dto).currentPrice);
  }
}

=== FILE: schema.dfy ===
/** The entities the services read and write, and the database holding one
    table per entity. Only persisted columns appear; timestamps appear where an
    operation reads them. Relations are stored as the referenced row's id. */
module Schema {
  import opened Wrappers
  import opened Table

  datatype Role = Admin | Seller | Customer

  /** A user; exactly one of `email` and `phoneNumber` is set by sign-up. */
  datatype User = User(
    firstName: string,
    lastName: string,
    email: Option<string>,
    phoneNumber: Option<string>,
    password: string,
    role: Role,
    refreshToken: Option<string>)

  /** Column widths of `users` (varchar lengths). */
  const NameWidth := 50
  const EmailWidth := 50
  const PhoneWidth := 20
  /** Column default of `users.role`. */
  const DefaultRole := Customer

  datatype Category = Category(name: string, slug: string, imageUrl: Option<string>)

  datatype Subcategory = Subcategory(
    name: string,
    slug: string,
    imageUrl: Option<string>,
    category: Option<Id>)

  datatype Product = Product(
    name: string,
    slug: string,
    shortDescription: string,
    description: Option<string>,
    currentPrice: real,
    originalPrice: Option<real>,
    imageUrl: string,
    imageUrls: seq<string>,
    category: Option<Id>,
    subcategory: Option<Id>,
    isBestSeller: bool,
    isFeatured: bool,
    createdBy: Option<Id>)

  /** Column widths of `product` (varchar lengths). */
  const ProductNameWidth := 100
  const ProductDescriptionWidth := 10000
  const ProductImageUrlWidth := 255

  /** The largest magnitude a `decimal(10,2)` column holds is below 10^8; a
      value is first rounded to cents, halves away from zero, so the bound
      on the value itself is 10^8 less half a cent. */
  const DecimalLimit: real := 99999999.995

  /** Whether a number fits a `decimal(10,2)` column. */
  predicate DecimalFits(x: real) {
    -DecimalLimit < x < DecimalLimit
  }

  /** The database's message for a number too large for its numeric column. */
  const NumericOverflow := "numeric field overflow"

  datatype Size = Size(name: string, product: Option<Id>)

  /** Column width of `sizes.name`. */
  const SizeNameWidth := 10

  /** A banner as stored: the entity has no slug or description column. */
  datatype Banner = Banner(name: string, imageUrl: string, isActive: bool, product: Id)

  /** A newsletter subscription, optionally linked one-to-one to a user. */
  datatype Newsletter = Newsletter(email: string, user: Option<Id>)

  /** Column width of `newsletter.email`. */
  const NewsletterEmailWidth := 50

  datatype DiscountType = Percentage | Fixed

  /** A coupon; `expiresAt` is a timestamp in milliseconds, absent for none. */
  datatype Coupon = Coupon(
    code: string,
    discountType: DiscountType,
    amount: real,
    expiresAt: Option<int>,
    isActive: bool)

  datatype DeliveryMethod = Courier | Pickup | Postal
  datatype PaymentMethod = Payme | Click | Cash
  datatype OrderStatus = Pending | Processing | Delivered | Canceled

  datatype Order = Order(
    user: Id,
    deliveryMethod: DeliveryMethod,
    paymentMethod: PaymentMethod,
    region: string,
    district: string,
    extraAddress: string,
    status: OrderStatus,
    price: real,
    shipping: real,
    coupon: real)

  /** Column width of the address columns of `orders` (`region`,
      `district`, `extraAddress`). */
  const AddressWidth := 255

  /** A line item: a snapshot of quantity and price, independent of the
      product's later price. */
  datatype OrderLine = OrderLine(order: Id, product: Id, quantity: int, price: real)

  datatype CartRow = CartRow(user: Id, product: Id, quantity: int)

  /** A wishlist row; `createdAt` is the insert timestamp. */
  datatype WishlistRow = WishlistRow(user: Id, product: Id, createdAt: int)

  datatype Db = Db(
    users: Table<User>,
    categories: Table<Category>,
    subcategories: Table<Subcategory>,
    products: Table<Product>,
    sizes: Table<Size>,
    banners: Table<Banner>,
    newsletters: Table<Newsletter>,
    coupons: Table<Coupon>,
    orders: Table<Order>,
    orderLines: Table<OrderLine>,
    carts: Table<CartRow>,
    wishlist: Table<WishlistRow>)

  /** The text of TypeORM's `EntityNotFoundError` for `findOneByOrFail`. */
  function EntityNotFound(entity: string): string {
    "Could not find any entity of type \"" + entity + "\""
  }

  /** The database's message when a write breaks a foreign key. */
  const ForeignKeyViolation := "violates foreign key constraint"
  /** The database's message when a write leaves a NOT NULL column empty. */
  const NotNullViolation := "violates not-null constraint"
  /** The database's message when a write breaks a unique constraint. */
  const UniqueViolation := "duplicate key value violates unique constraint"
  /** The database's message when a text is wider than its varchar column. */
  const TooLong := "value too long for type character varying"
  /** The database's message when a fractional number is written to an
      integer column. */
  const NotAnInteger := "invalid input syntax for type integer"

  /** The range of a Postgres `integer` (int4) column. */
  const Int4Min := -2147483648
  const Int4Max := 2147483647

  /** The database's message for a whole number outside that range. */
  const NotInRange := "value is out of range for type integer"

  /** Whether a number is whole, as an integer column needs. */
  predicate IsWhole(q: real) {
    q == q.Floor as real
  }

  /** Whether a number lies in the range of an `integer` column. */
  predicate InInt4(q: real) {
    Int4Min as real <= q <= Int4Max as real
  }

  /** Whether a JavaScript number can be written to an `integer` column. */
  predicate FitsInt4(q: real) {
    IsWhole(q) && InInt4(q)
  }

  /** The database's refusal of a number an `integer` column cannot hold: a
      fraction is not an integer, a whole number out of range is out of range. */
  function Int4Error(q: real): (msg: string)
    requires !FitsInt4(q)
    ensures !IsWhole(q) ==> msg == NotAnInteger
    ensures IsWhole(q) ==> !InInt4(q) && msg == NotInRange
  {
    if !IsWhole(q) then NotAnInteger else NotInRange
  }
}

=== FILE: sizes.dfy ===
/** `SizeService`: sizes unique by name, looked up, renamed and deleted by id. */
module Sizes {
  import opened Wrappers
  import opened Table
  import opened Schema

  const SizeNotFound := "Size not found"
  const SizeExists := "Size already exists!"

  /** The body of create and of edit: a name of 1 to 100 characters. */
  datatype SizeDto = SizeDto(name: string)

  predicate ValidSizeDto(d: SizeDto) {
    1 <= |d.name| <= 100
  }

  function NameIs(name: string): Size -> bool {
    (s: Size) => s.name == name
  }

  predicate UniqueNames(sizes: Table<Size>) {
    forall a, b :: a in sizes.rows && b in sizes.rows && sizes.rows[a].name == sizes.rows[b].name ==> a == b
  }

  /** `findAll`: every size. The query names no order; the model lists them
      by ascending id. */
  function ListSizes(sizes: Table<Size>): (r: seq<(Id, Size)>)
    ensures forall k :: k in sizes.rows ==> (k, sizes.rows[k]) in r
    ensures forall e :: e in r ==> e.0 in sizes.rows && sizes.rows[e.0] == e.1
    ensures Increasing(r)
  {
    Select(sizes, (s: Size) => true)
  }

  function FindSize(sizes: Table<Size>, id: Id): (r: Result<Size>)
    ensures r.Ok? <==> id in sizes.rows
    ensures r.Ok? ==> r.value == sizes.rows[id]
    ensures r.Err? ==> r == Err(NotFound, SizeNotFound)
  {
    if id in sizes.rows then Ok(sizes.rows[id]) else Err(NotFound, SizeNotFound)
  }

  /** `createSize`. The body allows 100 characters but the column holds 10,
      so a longer name fails at the database. The new size has no product. */
  function CreateSize(sizes: Table<Size>, dto: SizeDto): (r: Reply<Table<Size>, (Id, Size)>)
    ensures r.Failed() ==> r.state == sizes
    ensures Exists(sizes, NameIs(dto.name)) ==> r.result == Err(BadRequest, SizeExists)
    ensures !Exists(sizes, NameIs(dto.name)) && |dto.name| > SizeNameWidth ==> r.result == Err(Uncaught, TooLong)
    ensures r.Succeeded() <==> (forall k :: k in sizes.rows ==> sizes.rows[k].name != dto.name) && |dto.name| <= SizeNameWidth
    ensures r.Succeeded() ==>
      && r.result.value == (sizes.next, Size(dto.name, None))
      && r.state.rows.Keys == sizes.rows.Keys + {sizes.next}
      && r.state.rows[sizes.next] == Size(dto.name, None)
      && (forall k :: k in sizes.rows ==> r.state.rows[k] == sizes.rows[k])
  {
    if Exists(sizes, NameIs(dto.name)) then Fail(sizes, BadRequest, SizeExists)
    else if |dto.name| > SizeNameWidth then Fail(sizes, Uncaught, TooLong)
    else Done(Insert(sizes, Size(dto.name, None)), (sizes.next, Size(dto.name, None)))
  }

  lemma CreateSizeKeepsNamesUnique(sizes: Table<Size>, dto: SizeDto)
    requires UniqueNames(sizes)
    ensures UniqueNames(CreateSize(sizes, dto).state)
  {
    var r := CreateSize(sizes, dto);
    if r.Succeeded() {
      assert r.state.rows[sizes.next].name == dto.name;
    }
  }

  /** `editSize`: the name check does not exclude the size being edited. */
  function EditSize(sizes: Table<Size>, id: Id, dto: SizeDto): (r: Reply<Table<Size>, Size>)
    ensures r.Failed() ==> r.state == sizes
    ensures id !in sizes.rows ==> r.result == Err(NotFound, SizeNotFound)
    ensures id in sizes.rows && Exists(sizes, NameIs(dto.name)) ==> r.result == Err(BadRequest, SizeExists)
    ensures id in sizes.rows && !Exists(sizes, NameIs(dto.name)) && |dto.name| > SizeNameWidth ==> r.result == Err(Uncaught, TooLong)
    ensures r.Succeeded() <==>
      id in sizes.rows && (forall k :: k in sizes.rows ==> sizes.rows[k].name != dto.name) && |dto.name| <= SizeNameWidth
    ensures r.Succeeded() ==>
      && r.result.value == sizes.rows[id].(name := dto.name)
      && r.state.rows.Keys == sizes.rows.Keys
      && r.state.rows[id] == r.result.value
      && (forall k :: k in sizes.rows && k != id ==> r.state.rows[k] == sizes.rows[k])
  {
    match FindSize(sizes, id)
    case Err(k, m) => Fail(sizes, k, m)
    case Ok(s) =>
      if Exists(sizes, NameIs(dto.name)) then Fail(sizes, BadRequest, SizeExists)
      else if |dto.name| > SizeNameWidth then Fail(sizes, Uncaught, TooLong)
      else Done(Put(sizes, id, s.(name := dto.name)), s.(name := dto.name))
  }

  /** Saving a size under its current name is rejected as a duplicate. */
  lemma EditToOwnNameFails(sizes: Table<Size>, id: Id)
    requires id in sizes.rows
    ensures EditSize(sizes, id, SizeDto(sizes.rows[id].name)).result == Err(BadRequest, SizeExists)
  {
    assert NameIs(sizes.rows[id].name)(sizes.rows[id]);
  }

  lemma EditSizeKeepsNamesUnique(sizes: Table<Size>, id: Id, dto: SizeDto)
    requires UniqueNames(sizes)
    ensures UniqueNames(EditSize(sizes, id, dto).state)
  {
    var r := EditSize(sizes, id, dto);
    if r.Succeeded() {
      assert r.state.rows[id].name == dto.name;
    }
  }

  /** `deleteSize` */
  function DeleteSize(sizes: Table<Size>, id: Id): (r: Reply<Table<Size>, ()>)
    ensures r.Failed() ==> r.state == sizes && r.result == Err(NotFound, SizeNotFound)
    ensures r.Succeeded() <==> id in sizes.rows
    ensures r.Succeeded() ==>
      && r.state.rows.Keys == sizes.rows.Keys - {id}
      && (forall k :: k in r.state.rows ==> r.state.rows[k] == sizes.rows[k])
  {
    if id !in sizes.rows then Fail(sizes, NotFound, SizeNotFound)
    else Done(Delete(sizes, id), ())
  }
}

=== FILE: subcategories.dfy ===
/** `SubcategoryService`: subcategories keyed by slug on creation, linked to
    a category, merged on edit and deleted by id. */
module Subcategories {
  import opened Wrappers
  import opened Table
  import opened Schema
  import opened Pagination
  import opened Validators

  const FetchFallback := "Error while fetching subcategories"

  function NotFoundMessage(id: Id): string {
    "Subcategory with id \"" + NatToString(id) + "\" not found."
  }

  function SlugTaken(slug: string): string {
    "Subcategory with slug \"" + slug + "\" already exists."
  }

  /** The listing's query: the optional name search and the optional slug of
      the parent category. */
  datatype SubcategoryQuery = SubcategoryQuery(
    page: Option<int>,
    limit: Option<int>,
    search: Option<string>,
    category: Option<string>)

  /** `category.slug = :categorySlug` over the left join: a subcategory
      without a category never matches. */
  predicate InCategoryWithSlug(categories: Table<Category>, s: Subcategory, slug: string) {
    s.category.Some? && s.category.value in categories.rows && categories.rows[s.category.value].slug == slug
  }

  /** The listing's two optional filters, each applied only when given and non-empty. */
  predicate Listed(categories: Table<Category>, q: SubcategoryQuery, ilike: (string, string) -> bool, s: Subcategory) {
    && SearchMatch(q.search, ilike, s.name)
    && (q.category.None? || q.category == Some("") || InCategoryWithSlug(categories, s, q.category.value))
  }

  function ListingFilter(categories: Table<Category>, q: SubcategoryQuery, ilike: (string, string) -> bool): Subcategory -> bool {
    (s: Subcategory) => Listed(categories, q, ilike, s)
  }

  /** `findAllWithPagination` */
  function FindAllSubcategories(db: Db, q: SubcategoryQuery, ilike: (string, string) -> bool): (r: Result<Page<(Id, Subcategory)>>)
    ensures var p := q.page.GetOr(DefaultPage); var l := q.limit.GetOr(DefaultLimit);
      && (r.Ok? <==> p >= 1 && l >= 1)
      && (p < 1 ==> r == Err(InternalServerError, PageTooSmall))
      && (p >= 1 && l < 1 ==> r == Err(InternalServerError, LimitTooSmall))
    ensures r.Ok? ==> Ok(r.value) == Paginate(Select(db.subcategories, ListingFilter(db.categories, q, ilike)), q.page, q.limit)
  {
    Rethrow(Paginate(Select(db.subcategories, ListingFilter(db.categories, q, ilike)), q.page, q.limit),
            InternalServerError, (m: string) => OrElse(m, FetchFallback))
  }

  /** With a category slug given, every listed subcategory belongs to a
      category with that slug. */
  lemma ListedSubcategoriesMatchCategory(db: Db, q: SubcategoryQuery, ilike: (string, string) -> bool)
    requires q.category.Some? && q.category != Some("")
    ensures var r := FindAllSubcategories(db, q, ilike);
      r.Ok? ==> forall j :: 0 <= j < |r.value.data| ==> InCategoryWithSlug(db.categories, r.value.data[j].1, q.category.value)
  {
    var r := FindAllSubcategories(db, q, ilike);
    var rows := Select(db.subcategories, ListingFilter(db.categories, q, ilike));
    if r.Ok? {
      var P := (e: (Id, Subcategory)) => InCategoryWithSlug(db.categories, e.1, q.category.value);
      forall e | e in rows
        ensures P(e)
      {
        assert Listed(db.categories, q, ilike, e.1);
      }
      PageRowsSatisfy(rows, q.page, q.limit, P);
    }
  }

  /** `findAll`: every subcategory. The query names no order; the model
      lists them by ascending id. */
  function ListSubcategories(subcategories: Table<Subcategory>): (r: seq<(Id, Subcategory)>)
    ensures forall k :: k in subcategories.rows ==> (k, subcategories.rows[k]) in r
    ensures forall e :: e in r ==> e.0 in subcategories.rows && subcategories.rows[e.0] == e.1
    ensures Increasing(r)
  {
    Select(subcategories, (s: Subcategory) => true)
  }

  /** `findSubcategoryOrFail`, which is also `findById`. */
  function FindSubcategory(subcategories: Table<Subcategory>, id: Id): (r: Result<Subcategory>)
    ensures r.Ok? <==> id in subcategories.rows
    ensures r.Ok? ==> r.value == subcategories.rows[id]
    ensures r.Err? ==> r == Err(NotFound, NotFoundMessage(id))
  {
    if id in subcategories.rows then Ok(subcategories.rows[id]) else Err(NotFound, NotFoundMessage(id))
  }

  /** The not-found message quotes the id: equal messages mean equal ids.
      The source interpolates the UUID text itself; this lemma and the
      `NatToString` lemmas below only show that the model's decimal text for
      its natural-number ids is as faithful a quotation, different ids
      giving different text. */
  lemma NotFoundMessageQuotesId(a: Id, b: Id)
    requires NotFoundMessage(a) == NotFoundMessage(b)
    ensures a == b
  {
    var pre := "Subcategory with id \"";
    var post := "\" not found.";
    var sa := NatToString(a);
    var sb := NatToString(b);
    assert |sa| == |sb| by {
      assert |pre + sa + post| == |pre + sb + post|;
    }
    assert sa == (pre + sa + post)[|pre|..|pre| + |sa|];
    assert sb == (pre + sb + post)[|pre|..|pre| + |sb|];
    NatToStringInjective(a, b);
  }

  /** One digit exactly for the numbers below ten (a fact about the model's
      id text, not about the source). */
  lemma {:induction false} NatToStringLength(n: nat)
    ensures |NatToString(n)| == 1 <==> n < 10
  {
    if n >= 10 {
      assert |NatToString(n)| == |NatToString(n / 10)| + 1;
    }
  }

  /** Different ids have different decimal text; this justifies the model's
      stand-in for the UUID text and says nothing further about the source. */
  lemma {:induction false} NatToStringInjective(a: nat, b: nat)
    requires NatToString(a) == NatToString(b)
    ensures a == b
    decreases a
  {
    var sa := NatToString(a);
    NatToStringLength(a);
    NatToStringLength(b);
    if a < 10 {
      DigitCharInjective(a, b);
    } else {
      assert NatToString(a / 10) == sa[..|sa| - 1];
      assert NatToString(b / 10) == sa[..|sa| - 1];
      NatToStringInjective(a / 10, b / 10);
      DigitCharInjective(a % 10, b % 10);
    }
  }

  /** Different digits have different characters (model id text only). */
  lemma DigitCharInjective(a: nat, b: nat)
    requires a < 10 && b < 10 && DigitChar(a) == DigitChar(b)
    ensures a == b
  {
  }

  predicate UniqueSlugs(subcategories: Table<Subcategory>) {
    forall a, b :: a in subcategories.rows && b in subcategories.rows && subcategories.rows[a].slug == subcategories.rows[b].slug ==> a == b
  }

  function SlugIs(slug: string): Subcategory -> bool {
    (s: Subcategory) => s.slug == slug
  }

  function NewRow(dto: CreateSubCategoryDto<Id>): Subcategory {
    Subcategory(dto.name, dto.slug, dto.imageUrl, dto.category)
  }

  /** `createSubCategory`: rejects a slug in use; the row is linked to the
      category the request names, and a category that does not exist breaks
      the foreign key. */
  function CreateSubcategory(db: Db, dto: CreateSubCategoryDto<Id>): (r: Reply<Db, (Id, Subcategory)>)
    ensures r.Failed() ==> r.state == db
    ensures Exists(db.subcategories, SlugIs(dto.slug)) ==> r.result == Err(BadRequest, SlugTaken(dto.slug))
    ensures !Exists(db.subcategories, SlugIs(dto.slug)) && dto.category.Some? && dto.category.value !in db.categories.rows ==>
      r.result == Err(Uncaught, ForeignKeyViolation)
    ensures r.Succeeded() <==>
      && (forall k :: k in db.subcategories.rows ==> db.subcategories.rows[k].slug != dto.slug)
      && (dto.category.Some? ==> dto.category.value in db.categories.rows)
    ensures r.Succeeded() ==>
      var row := r.result.value.1;
      && r.result.value.0 == db.subcategories.next
      && row.category == dto.category && row.slug == dto.slug && row.name == dto.name && row.imageUrl == dto.imageUrl
      && r.state == db.(subcategories := r.state.subcategories)
      && r.state.subcategories.rows.Keys == db.subcategories.rows.Keys + {db.subcategories.next}
      && r.state.subcategories.rows[db.subcategories.next] == row
      && (forall k :: k in db.subcategories.rows ==> r.state.subcategories.rows[k] == db.subcategories.rows[k])
  {
    if Exists(db.subcategories, SlugIs(dto.slug)) then Fail(db, BadRequest, SlugTaken(dto.slug))
    else if dto.category.Some? && dto.category.value !in db.categories.rows then Fail(db, Uncaught, ForeignKeyViolation)
    else Done(db.(subcategories := Insert(db.subcategories, NewRow(dto))), (db.subcategories.next, NewRow(dto)))
  }

  /** Creation keeps subcategory slugs unique, and after a successful one
      exactly the new row has the slug. */
  lemma CreateSubcategoryKeepsSlugsUnique(db: Db, dto: CreateSubCategoryDto<Id>)
    requires UniqueSlugs(db.subcategories)
    ensures var r := CreateSubcategory(db, dto);
      && UniqueSlugs(r.state.subcategories)
      && (r.Succeeded() ==> forall k :: k in r.state.subcategories.rows && r.state.subcategories.rows[k].slug == dto.slug ==> k == r.result.value.0)
  {
    var r := CreateSubcategory(db, dto);
    if r.Succeeded() {
      assert r.state.subcategories.rows[db.subcategories.next].slug == dto.slug;
    }
  }

  /** The edit body: the name, slug and image fields of the creation body,
      each optional. */
  datatype EditSubCategoryDto = EditSubCategoryDto(name: Option<string>, slug: Option<string>, imageUrl: Option<string>)

  /** `Object.assign(subcategory, dto)`: present fields overwrite. */
  function Merge(s: Subcategory, dto: EditSubCategoryDto): (m: Subcategory)
    ensures m.name == dto.name.GetOr(s.name) && m.slug == dto.slug.GetOr(s.slug)
    ensures m.imageUrl == (if dto.imageUrl.Some? then dto.imageUrl else s.imageUrl)
    ensures m.category == s.category
  {
    s.(name := dto.name.GetOr(s.name), slug := dto.slug.GetOr(s.slug),
       imageUrl := if dto.imageUrl.Some? then dto.imageUrl else s.imageUrl)
  }

  /** `editSubCategory` */
  function EditSubcategory(subcategories: Table<Subcategory>, id: Id, dto: EditSubCategoryDto): (r: Reply<Table<Subcategory>, Subcategory>)
    ensures r.Failed() ==> r.state == subcategories && r.result == Err(NotFound, NotFoundMessage(id))
    ensures r.Succeeded() <==> id in subcategories.rows
    ensures r.Succeeded() ==>
      && r.result.value == Merge(subcategories.rows[id], dto)
      && r.state.rows.Keys == subcategories.rows.Keys
      && r.state.rows[id] == Merge(subcategories.rows[id], dto)
      && (forall k :: k in subcategories.rows && k != id ==> r.state.rows[k] == subcategories.rows[k])
  {
    match FindSubcategory(subcategories, id)
    case Err(k, m) => Fail(subcategories, k, m)
    case Ok(s) => Done(Put(subcategories, id, Merge(s, dto)), Merge(s, dto))
  }

  /** `deleteSubCategory`. Products reference subcategories with no
      `ON DELETE` action, so a referenced subcategory is not deleted. */
  function DeleteSubcategory(db: Db, id: Id): (r: Reply<Db, ()>)
    ensures r.Failed() ==> r.state == db
    ensures id !in db.subcategories.rows ==> r.result == Err(NotFound, NotFoundMessage(id))
    ensures id in db.subcategories.rows && (exists k :: k in db.products.rows && db.products.rows[k].subcategory == Some(id)) ==>
      r.result == Err(Uncaught, ForeignKeyViolation)
    ensures r.Succeeded() <==>
      id in db.subcategories.rows && forall k :: k in db.products.rows ==> db.products.rows[k].subcategory != Some(id)
    ensures r.Succeeded() ==>
      && r.state == db.(subcategories := r.state.subcategories)
      && r.state.subcategories.rows.Keys == db.subcategories.rows.Keys - {id}
      && (forall k :: k in r.state.subcategories.rows ==> r.state.subcategories.rows[k] == db.subcategories.rows[k])
  {
    if id !in db.subcategories.rows then Fail(db, NotFound, NotFoundMessage(id))
    else if Exists(db.products, (p: Product) => p.subcategory == Some(id)) then Fail(db, Uncaught, ForeignKeyViolation)
    else Done(db.(subcategories := Delete(db.subcategories, id)), ())
  }
}

=== FILE: subscriptions.dfy ===
/** `SubscribeService`: newsletter subscriptions unique by email, linked to
    the user with that email when there is one. */
module Subscriptions {
  import opened Wrappers
  import opened Table
  import opened Schema
  import opened Pagination

  const AlreadySubscribed := "This email is already subscribed."
  const SubscribeFailed := "Failed to subscribe. Please try again later."
  const LinkedMessage := "Subscribed successfully and linked to your account!"
  const WelcomeMessage := "Subscribed successfully. Welcome to our newsletter!"
  const FetchFailed := "Failed to fetch newsletters. Please try again later."
  const NewsletterNotFound := "Newsletter not found."

  function EmailIs(email: string): Newsletter -> bool {
    (n: Newsletter) => n.email == email
  }

  function UserEmailIs(email: string): User -> bool {
    (u: User) => u.email == Some(email)
  }

  function LinkedTo(user: Id): Newsletter -> bool {
    (n: Newsletter) => n.user == Some(user)
  }

  /** The `newsletter` table's constraints: unique email, and a user linked to
      at most one subscription. */
  predicate Consistent(newsletters: Table<Newsletter>) {
    && (forall a, b :: a in newsletters.rows && b in newsletters.rows && newsletters.rows[a].email == newsletters.rows[b].email ==> a == b)
    && (forall a, b :: a in newsletters.rows && b in newsletters.rows && newsletters.rows[a].user.Some? && newsletters.rows[a].user == newsletters.rows[b].user ==> a == b)
  }

  /** The row `subscribeToNewsletter` saves, and whether it broke a constraint. */
  function NewSubscription(db: Db, email: string): Newsletter {
    Newsletter(email, FirstWhere(db.users, UserEmailIs(email)))
  }

  predicate SaveFails(db: Db, email: string) {
    || |email| > NewsletterEmailWidth
    || (NewSubscription(db, email).user.Some? && Exists(db.newsletters, LinkedTo(NewSubscription(db, email).user.value)))
  }

  /** `subscribeToNewsletter`: returns the success message. A failed save,
      such as an email wider than the column or a user already linked to
      another subscription, is reported with one generic message. */
  function Subscribe(db: Db, email: string): (r: Reply<Db, string>)
    ensures r.Failed() ==> r.state == db
    ensures Exists(db.newsletters, EmailIs(email)) ==> r.result == Err(Conflict, AlreadySubscribed)
    ensures !Exists(db.newsletters, EmailIs(email)) && SaveFails(db, email) ==> r.result == Err(InternalServerError, SubscribeFailed)
    ensures r.Succeeded() <==> (forall k :: k in db.newsletters.rows ==> db.newsletters.rows[k].email != email) && !SaveFails(db, email)
    ensures r.Succeeded() ==>
      && r.state == db.(newsletters := r.state.newsletters)
      && r.state.newsletters.rows.Keys == db.newsletters.rows.Keys + {db.newsletters.next}
      && (forall k :: k in db.newsletters.rows ==> r.state.newsletters.rows[k] == db.newsletters.rows[k])
    ensures r.Succeeded() ==>
      var n := r.state.newsletters.rows[db.newsletters.next];
      && n.email == email
      && (n.user.Some? <==> exists u :: u in db.users.rows && db.users.rows[u].email == Some(email))
      && (n.user.Some? ==> n.user.value in db.users.rows && db.users.rows[n.user.value].email == Some(email))
      && r.result.value == (if n.user.Some? then LinkedMessage else WelcomeMessage)
  {
    if Exists(db.newsletters, EmailIs(email)) then Fail(db, Conflict, AlreadySubscribed)
    else if SaveFails(db, email) then Fail(db, InternalServerError, SubscribeFailed)
    else
      var n := NewSubscription(db, email);
      var u := FirstWhere(db.users, UserEmailIs(email));
      assert u.None? <==> forall k :: k in db.users.rows ==> db.users.rows[k].email != Some(email);
      Done(db.(newsletters := Insert(db.newsletters, n)), if n.user.Some? then LinkedMessage else WelcomeMessage)
  }

  /** Subscribing keeps both constraints. */
  lemma SubscribeKeepsConsistent(db: Db, email: string)
    requires Consistent(db.newsletters)
    ensures Consistent(Subscribe(db, email).state.newsletters)
  {
    var r := Subscribe(db, email);
    if r.Succeeded() {
      var t := r.state.newsletters;
      var n := db.newsletters.next;
      var row := t.rows[n];
      assert row == NewSubscription(db, email);
      forall k | k in db.newsletters.rows
        ensures t.rows[k] == db.newsletters.rows[k]
        ensures t.rows[k].email != row.email
        ensures row.user.Some? ==> t.rows[k].user != row.user
      {
        if row.user.Some? {
          assert !LinkedTo(row.user.value)(db.newsletters.rows[k]);
        }
      }
    }
  }

  /** The same email cannot subscribe twice. */
  lemma SubscribeTwiceConflicts(db: Db, email: string)
    requires Subscribe(db, email).Succeeded()
    ensures Subscribe(Subscribe(db, email).state, email).result == Err(Conflict, AlreadySubscribed)
  {
    var s := Subscribe(db, email).state;
    assert EmailIs(email)(s.newsletters.rows[db.newsletters.next]);
  }

  datatype NewsletterQuery = NewsletterQuery(page: Option<int>, limit: Option<int>, search: Option<string>)

  function EmailSearch(search: Option<string>, ilike: (string, string) -> bool): Newsletter -> bool {
    (n: Newsletter) => SearchMatch(search, ilike, n.email)
  }

  /** `findAll`: any failure, the bounds check's included, becomes one
      generic internal error. */
  function FindAllNewsletters(newsletters: Table<Newsletter>, q: NewsletterQuery, ilike: (string, string) -> bool): (r: Result<Page<(Id, Newsletter)>>)
    ensures r.Ok? <==> q.page.GetOr(DefaultPage) >= 1 && q.limit.GetOr(DefaultLimit) >= 1
    ensures r.Err? ==> r == Err(InternalServerError, FetchFailed)
    ensures r.Ok? ==> Ok(r.value) == Paginate(Select(newsletters, EmailSearch(q.search, ilike)), q.page, q.limit)
  {
    Rethrow(Paginate(Select(newsletters, EmailSearch(q.search, ilike)), q.page, q.limit), InternalServerError, (m: string) => FetchFailed)
  }

  /** `deleteNewsletter`: nothing references a subscription, so a found one
      is always deleted. */
  function DeleteNewsletter(newsletters: Table<Newsletter>, id: Id): (r: Reply<Table<Newsletter>, ()>)
    ensures r.Failed() ==> r.state == newsletters && r.result == Err(BadRequest, NewsletterNotFound)
    ensures r.Succeeded() <==> id in newsletters.rows
    ensures r.Succeeded() ==>
      && r.state.rows.Keys == newsletters.rows.Keys - {id}
      && (forall k :: k in r.state.rows ==> r.state.rows[k] == newsletters.rows[k])
  {
    if id !in newsletters.rows then Fail(newsletters, BadRequest, NewsletterNotFound)
    else Done(Delete(newsletters, id), ())
  }
}

=== FILE: table.dfy ===
/** A database table: rows keyed by a generated id. The id generator never
    reuses a key: every stored key is below `next`, and an insert takes `next`.
    Ids are naturals standing for the generated primary keys; listing "by id
    ascending" is listing by ascending key. */
module Table {
  import opened Wrappers

  type Id = nat

  datatype Store<R> = Store(rows: map<Id, R>, next: Id)

  type Table<R> = t: Store<R> | forall k :: k in t.rows ==> k < t.next
    witness Store(map[], 0)

  function Empty<R>(): (t: Table<R>)
    ensures t.rows == map[]
  {
    Store(map[], 0)
  }

  /** Lookup by primary key (`findOne({ where: { id } })`). */
  function Get<R>(t: Table<R>, id: Id): (r: Option<R>)
    ensures r.Some? <==> id in t.rows
    ensures r.Some? ==> r.value == t.rows[id]
  {
    if id in t.rows then Some(t.rows[id]) else None
  }

  /** Save a new row; the generated id is the old `t.next`. */
  function Insert<R>(t: Table<R>, row: R): (r: Table<R>)
    ensures t.next !in t.rows
    ensures r.rows.Keys == t.rows.Keys + {t.next}
    ensures r.rows[t.next] == row
    ensures forall k :: k in t.rows ==> r.rows[k] == t.rows[k]
    ensures r.next == t.next + 1
  {
    Store(t.rows[t.next := row], t.next + 1)
  }

  /** Save an existing row under its id. */
  function Put<R>(t: Table<R>, id: Id, row: R): (r: Table<R>)
    requires id in t.rows
    ensures r.rows.Keys == t.rows.Keys
    ensures r.rows[id] == row
    ensures forall k :: k in t.rows && k != id ==> r.rows[k] == t.rows[k]
    ensures r.next == t.next
  {
    Store(t.rows[id := row], t.next)
  }

  /** Delete by primary key; deleting an absent key changes nothing. */
  function Delete<R>(t: Table<R>, id: Id): (r: Table<R>)
    ensures r.rows.Keys == t.rows.Keys - {id}
    ensures forall k :: k in r.rows ==> r.rows[k] == t.rows[k]
    ensures r.next == t.next
  {
    Store(map k | k in t.rows && k != id :: t.rows[k], t.next)
  }

  /** Delete every row satisfying `p` (a referential cascade). */
  function DeleteWhere<R>(t: Table<R>, p: R -> bool): (r: Table<R>)
    ensures forall k :: k in r.rows <==> k in t.rows && !p(t.rows[k])
    ensures forall k :: k in r.rows ==> r.rows[k] == t.rows[k]
    ensures r.next == t.next
  {
    Store(map k | k in t.rows && !p(t.rows[k]) :: t.rows[k], t.next)
  }

  /** Replace every row by `f(row)` (an `ON DELETE SET NULL` action). */
  function MapRows<R>(t: Table<R>, f: R -> R): (r: Table<R>)
    ensures r.rows.Keys == t.rows.Keys
    ensures forall k :: k in r.rows ==> r.rows[k] == f(t.rows[k])
    ensures r.next == t.next
  {
    Store(map k | k in t.rows :: f(t.rows[k]), t.next)
  }

  ghost predicate Increasing<R>(s: seq<(Id, R)>) {
    forall a, b :: 0 <= a < b < |s| ==> s[a].0 < s[b].0
  }

  /** No key appears twice. */
  ghost predicate DistinctKeys<R>(s: seq<(Id, R)>) {
    forall a, b :: 0 <= a < b < |s| ==> s[a].0 != s[b].0
  }

  /** Putting a row with a smaller key in front of an increasing sequence. */
  lemma PrependIncreasing<R>(x: (Id, R), rest: seq<(Id, R)>)
    requires Increasing(rest)
    requires forall j :: 0 <= j < |rest| ==> x.0 < rest[j].0
    ensures Increasing([x] + rest)
    ensures forall j :: 1 <= j < |rest| + 1 ==> ([x] + rest)[j] == rest[j - 1]
    ensures forall e :: e in [x] + rest <==> e == x || e in rest
  {
    var s := [x] + rest;
    forall j | 1 <= j < |s| ensures s[j] == rest[j - 1] { }
  }

  /** The rows with key at least `from` satisfying `p`, by ascending key. */
  function SelectFrom<R>(t: Table<R>, p: R -> bool, from: Id): (s: seq<(Id, R)>)
    decreases t.next - from
    ensures forall j :: 0 <= j < |s| ==>
      s[j].0 in t.rows && t.rows[s[j].0] == s[j].1 && p(s[j].1) && from <= s[j].0
    ensures forall k :: k in t.rows && from <= k && p(t.rows[k]) ==> (k, t.rows[k]) in s
    ensures Increasing(s)
  {
    if from >= t.next then []
    else
      var rest := SelectFrom(t, p, from + 1);
      if from in t.rows && p(t.rows[from]) then
        PrependIncreasing((from, t.rows[from]), rest);
        [(from, t.rows[from])] + rest
      else rest
  }

  /** `find({ where: p, order: { id: 'ASC' } })`: every matching row, by ascending id. */
  function Select<R>(t: Table<R>, p: R -> bool): (s: seq<(Id, R)>)
    ensures forall j :: 0 <= j < |s| ==> s[j].0 in t.rows && t.rows[s[j].0] == s[j].1 && p(s[j].1)
    ensures forall k :: k in t.rows && p(t.rows[k]) ==> (k, t.rows[k]) in s
    ensures forall e :: e in s ==> e.0 in t.rows && t.rows[e.0] == e.1 && p(e.1)
    ensures Increasing(s)
  {
    SelectFrom(t, p, 0)
  }

  /** `findOne({ where: p })`: the matching row with the smallest id, if any. */
  function FirstWhere<R>(t: Table<R>, p: R -> bool): (r: Option<Id>)
    ensures r.Some? ==> r.value in t.rows && p(t.rows[r.value])
    ensures r.Some? ==> forall k :: k in t.rows && k < r.value ==> !p(t.rows[k])
    ensures r.None? <==> forall k :: k in t.rows ==> !p(t.rows[k])
  {
    var s := Select(t, p);
    if |s| == 0 then None else Some(s[0].0)
  }

  /** Whether some row satisfies `p`. */
  predicate Exists<R>(t: Table<R>, p: R -> bool) {
    FirstWhere(t, p).Some?
  }

  /** Selecting with a predicate every row satisfies lists every row once. */
  lemma SelectAllCountsEveryRow<R>(t: Table<R>, p: R -> bool)
    requires forall k :: k in t.rows ==> p(t.rows[k])
    ensures |Select(t, p)| == |t.rows|
  {
    var s := Select(t, p);
    var keys := KeysOf(s);
    assert keys == t.rows.Keys by {
      forall k | k in t.rows ensures k in keys {
        assert (k, t.rows[k]) in s;
      }
    }
    DistinctKeysCount(s);
  }

  /** The keys a sequence of rows mentions. */
  ghost function KeysOf<R>(s: seq<(Id, R)>): set<Id> {
    set j | 0 <= j < |s| :: s[j].0
  }

  lemma KeysOfSplit<R>(s: seq<(Id, R)>)
    requires |s| > 0
    ensures KeysOf(s) == {s[0].0} + KeysOf(s[1..])
  {
    var rest := s[1..];
    forall k | k in KeysOf(s) ensures k in {s[0].0} + KeysOf(rest) {
      var j :| 0 <= j < |s| && s[j].0 == k;
      if j > 0 { assert rest[j - 1] == s[j]; }
    }
    forall k | k in KeysOf(rest) ensures k in KeysOf(s) {
      var j :| 0 <= j < |rest| && rest[j].0 == k;
      assert s[j + 1] == rest[j];
    }
  }

  /** A sequence with strictly increasing keys has as many entries as keys. */
  lemma {:induction false} DistinctKeysCount<R>(s: seq<(Id, R)>)
    requires Increasing(s)
    ensures |KeysOf(s)| == |s|
  {
    if |s| > 0 {
      var rest := s[1..];
      assert Increasing(rest) by {
        forall a, b | 0 <= a < b < |rest| ensures rest[a].0 < rest[b].0 {
          assert rest[a] == s[a + 1] && rest[b] == s[b + 1];
        }
      }
      DistinctKeysCount(rest);
      KeysOfSplit(s);
      assert s[0].0 !in KeysOf(rest) by {
        forall j | 0 <= j < |rest| ensures rest[j].0 != s[0].0 {
          assert rest[j] == s[j + 1];
        }
      }
    }
  }
}

=== FILE: upload.dfy ===
/** The upload rules: the storage parameters computed for each file, and the
    file-count checks of the multiple-image endpoint. */
module Upload {
  import opened Wrappers

  const Folder := "kirst"
  const SizeLimitMB := 5
  const MaxBytes := SizeLimitMB * 1024 * 1024
  const SizeExceeded := "File size exceeds 5MB limit."
  const AllowedFormats := ["jpg", "jpeg", "png", "gif", "svg", "webp", "pdf", "mp4", "mov", "avi"]

  /** How many files the interceptor admits, and how many the handler takes. */
  const InterceptorLimit := 5
  const MaxImages := 4
  const NoImages := "No images were uploaded. Please select at least one image."
  const TooManyImages := "You can upload a maximum of 4 images at a time."

  /** A file as multer describes it. `size` is set only once the storage
      engine has stored the file: the storage callbacks see a file whose size
      is still undefined. */
  datatype File = File(mimetype: string, size: Option<nat>, originalName: string)

  /** JavaScript's `file.size > limit`: an undefined size compares false. */
  predicate Exceeds(size: Option<nat>, limit: nat) {
    size.Some? && size.value > limit
  }

  datatype ResourceType = Image | Video | Raw

  datatype Params = Params(folder: string, format: Option<string>, publicId: string, resourceType: ResourceType)

  predicate StartsWith(s: string, prefix: string) {
    |prefix| <= |s| && s[..|prefix|] == prefix
  }

  function Classify(mimetype: string): (t: ResourceType)
    ensures t == Image <==> StartsWith(mimetype, "image/")
    ensures t == Video <==> !StartsWith(mimetype, "image/") && StartsWith(mimetype, "video/")
  {
    if StartsWith(mimetype, "image/") then Image
    else if StartsWith(mimetype, "video/") then Video
    else Raw
  }

  /** The index of the first `c` in `s` at or after `from`, or `|s|`. */
  function IndexFrom(s: string, c: char, from: nat): (i: nat)
    requires from <= |s|
    decreases |s| - from
    ensures from <= i <= |s|
    ensures i < |s| ==> s[i] == c
    ensures forall j :: from <= j < i ==> s[j] != c
  {
    if from == |s| || s[from] == c then from else IndexFrom(s, c, from + 1)
  }

  /** `s.split('/')[1]`: the text between the first and the second `/`,
      absent when there is no `/`. */
  function SecondSegment(s: string): (r: Option<string>)
    ensures r.None? <==> '/' !in s
    ensures r.Some? ==> '/' !in r.value
  {
    var i := IndexFrom(s, '/', 0);
    if i == |s| then None
    else
      var j := IndexFrom(s, '/', i + 1);
      Some(s[i + 1..j])
  }

  /** A `type/subtype` mimetype's second segment is its subtype. */
  lemma SecondSegmentOfMimetype(t: string, sub: string)
    requires '/' !in t && '/' !in sub
    ensures SecondSegment(t + "/" + sub) == Some(sub)
  {
    var s := t + "/" + sub;
    assert s[|t|] == '/';
    var i := IndexFrom(s, '/', 0);
    assert i == |t| by {
      assert forall j :: 0 <= j < |t| ==> s[j] == t[j];
    }
    var j := IndexFrom(s, '/', i + 1);
    assert j == |s| by {
      assert forall k :: |t| + 1 <= k < |s| ==> s[k] == sub[k - |t| - 1];
    }
    assert s[i + 1..j] == sub;
  }

  /** `String.prototype.toLowerCase` on ASCII letters. Other characters are
      kept; no other character lowers to an ASCII letter of a whitelisted
      format, so the format decision is unaffected. */
  function LowerChar(c: char): char {
    if 'A' <= c <= 'Z' then (c as int + 32) as char else c
  }

  function ToLower(s: string): (r: string)
    ensures |r| == |s|
    ensures forall i :: 0 <= i < |s| ==> r[i] == LowerChar(s[i])
  {
    if s == [] then [] else [LowerChar(s[0])] + ToLower(s[1..])
  }

  /** `allowedFormats.includes(ext) ? ext : undefined` */
  function Format(mimetype: string): (f: Option<string>)
    ensures f.Some? ==> f.value in AllowedFormats
    ensures f.Some? <==> SecondSegment(mimetype).Some? && ToLower(SecondSegment(mimetype).value) in AllowedFormats
  {
    match SecondSegment(mimetype)
    case None => None
    case Some(ext) => if ToLower(ext) in AllowedFormats then Some(ToLower(ext)) else None
  }

  /** The characters of the JavaScript `\s` class. */
  predicate JsWhitespace(c: char) {
    || c == ' ' || c == '\t' || c == '\n' || c == '\r' || c == '\U{B}' || c == '\U{C}'
    || c == '\U{A0}' || c == '\U{1680}' || ('\U{2000}' <= c <= '\U{200A}')
    || c == '\U{2028}' || c == '\U{2029}' || c == '\U{202F}' || c == '\U{205F}' || c == '\U{3000}' || c == '\U{FEFF}'
  }

  /** `originalname.replace(/\s/g, '_')` */
  function Underscored(s: string): (r: string)
    ensures |r| == |s|
    ensures forall i :: 0 <= i < |s| ==> !JsWhitespace(r[i])
    ensures forall i :: 0 <= i < |s| ==> r[i] == (if JsWhitespace(s[i]) then '_' else s[i])
  {
    if s == [] then [] else [if JsWhitespace(s[0]) then '_' else s[0]] + Underscored(s[1..])
  }

  /** Replacing twice is replacing once. */
  lemma UnderscoredIdempotent(s: string)
    ensures Underscored(Underscored(s)) == Underscored(s)
  {
    var r := Underscored(s);
    assert forall i :: 0 <= i < |r| ==> Underscored(r)[i] == r[i];
  }

  /** The `params` callback. `now` stands for `Date.now()`. */
  function StorageParams(file: File, now: nat): (r: Result<Params>)
    ensures r.Err? <==> file.size.Some? && file.size.value > 5 * 1024 * 1024
    ensures r.Err? ==> r == Err(Uncaught, SizeExceeded)
    ensures r.Ok? ==>
      && r.value.folder == Folder
      && r.value.format == Format(file.mimetype)
      && r.value.resourceType == Classify(file.mimetype)
      && r.value.publicId == NatToString(now) + "-" + Underscored(file.originalName)
  {
    if Exceeds(file.size, MaxBytes) then Err(Uncaught, SizeExceeded)
    else Ok(Params(Folder, Format(file.mimetype), NatToString(now) + "-" + Underscored(file.originalName), Classify(file.mimetype)))
  }

  /** Were the size known, a file of exactly 5 MiB would be stored and one
      byte more refused. */
  lemma SizeLimitIsInclusive(mimetype: string, name: string, now: nat)
    ensures StorageParams(File(mimetype, Some(5242880), name), now).Ok?
    ensures StorageParams(File(mimetype, Some(5242881), name), now).Err?
  {
  }

  /** The callback runs before the file is stored, when its size is still
      undefined, so the size check refuses nothing: a file of any size gets
      the same parameters as an empty one. */
  lemma SizeCheckNeverRefusesUnstoredFile(file: File, now: nat)
    requires file.size.None?
    ensures StorageParams(file, now).Ok?
    ensures StorageParams(file, now) == StorageParams(file.(size := Some(0)), now)
  {
  }

  /** Every whitelisted format has three or four letters. */
  lemma LongSubtypesAreNotAllowed(x: string)
    requires |x| > 4
    ensures x !in AllowedFormats
  {
    assert forall i :: 0 <= i < |AllowedFormats| ==> |AllowedFormats[i]| <= 4;
  }

  /** A subtype outside the whitelist gets no format. */
  lemma SvgHasNoFormat()
    ensures Format("image/svg+xml") == None
  {
    var m := "image/svg+xml";
    assert m == "image" + "/" + "svg+xml";
    SecondSegmentOfMimetype("image", "svg+xml");
    assert SecondSegment(m) == Some("svg+xml");
    LongSubtypesAreNotAllowed(ToLower("svg+xml"));
    assert ToLower("svg+xml") !in AllowedFormats;
  }

  /** The subtype's case is folded. */
  lemma UpperCaseSubtypeIsLowered()
    ensures Format("image/JPEG") == Some("jpeg")
  {
    var m := "image/JPEG";
    assert m == "image" + "/" + "JPEG";
    SecondSegmentOfMimetype("image", "JPEG");
    assert SecondSegment(m) == Some("JPEG");
    assert ToLower("JPEG") == "jpeg";
  }

  /** The registered type of `.mov` files gets no format: the whitelist is
      matched against the subtype, not the extension. */
  lemma QuicktimeHasNoFormat()
    ensures Format("video/quicktime") == None
  {
    var m := "video/quicktime";
    assert m == "video" + "/" + "quicktime";
    SecondSegmentOfMimetype("video", "quicktime");
    assert SecondSegment(m) == Some("quicktime");
    LongSubtypesAreNotAllowed(ToLower("quicktime"));
    assert ToLower("quicktime") !in AllowedFormats;
  }

  /** A mimetype without a `/` gets no format. */
  lemma NoSubtypeNoFormat()
    ensures Format("text") == None
  {
  }

  /** `uploadMultipleImages`. The interceptor has already refused more than
      five files, so the handler sees at most five. */
  function UploadMultiple(files: Option<seq<File>>): (r: Result<seq<File>>)
    requires files.Some? ==> |files.value| <= InterceptorLimit
    ensures r.Ok? <==> files.Some? && 1 <= |files.value| <= MaxImages
    ensures r.Ok? ==> r.value == files.value
    ensures files.None? || |files.value| == 0 ==> r == Err(BadRequest, NoImages)
    ensures files.Some? && |files.value| > MaxImages ==> r == Err(BadRequest, TooManyImages)
  {
    if files.None? || |files.value| == 0 then Err(BadRequest, NoImages)
    else if |files.value| > MaxImages then Err(BadRequest, TooManyImages)
    else Ok(files.value)
  }

  /** Five files pass the interceptor and are refused by the handler: only
      five is in that gap. */
  lemma FiveFilesPassInterceptorButFail(files: seq<File>)
    requires |files| <= InterceptorLimit
    ensures UploadMultiple(Some(files)).Err? && |files| > 0 <==> |files| == 5
  {
  }
}

=== FILE: users.dfy ===
/** `UserService` (and the legacy `UsersService`, the same code without the
    clear operation): users found by id or by an identifier that is either
    their email or their phone number. */
module Users {
  import opened Wrappers
  import opened Table
  import opened Schema
  import opened Validators

  const UserExists := "User already exists!"
  const CreateFailed := "Error creating user!"

  /** The foreign primitives: `bcrypt.hash` (salting left out), and the JWT
      `sign` and `verify`. `verify` gives the payload of a token it accepts. */
  datatype Claims = Claims(id: Id, role: Role)

  datatype Crypto = Crypto(
    hash: string -> string,
    sign: (Claims, string) -> string,
    verify: string -> Option<Claims>)

  /** `bcrypt.compare(plain, hashed)` */
  predicate Matches(c: Crypto, plain: string, hashed: string) {
    c.hash(plain) == hashed
  }

  /** The sign-up body. The current DTO bounds names to 2..30 characters and
      the password to 5..30; the legacy one to 2..50 and 5..50. `role` and
      `refreshToken` are columns the DTO does not declare: the validation
      pipe is not told to strip undeclared properties, so a body may carry
      them, and `createUser` spreads the whole body into the new row. */
  datatype SignUpDto = SignUpDto(
    firstName: string,
    lastName: string,
    identifier: string,
    password: string,
    role: Option<Role>,
    refreshToken: Option<string>)

  predicate ValidSignUpDto(d: SignUpDto, legacy: bool) {
    var hi := if legacy then 50 else 30;
    && LengthIn(d.firstName, 2, hi) && LengthIn(d.lastName, 2, hi)
    && d.identifier != ""
    && LengthIn(d.password, 5, hi)
  }

  function FindById(users: Table<User>, id: Id): (r: Option<User>)
    ensures r.Some? <==> id in users.rows
    ensures r.Some? ==> r.value == users.rows[id]
  {
    Get(users, id)
  }

  predicate HasIdentifier(u: User, identifier: string) {
    u.email == Some(identifier) || u.phoneNumber == Some(identifier)
  }

  function IdentifierIs(identifier: string): User -> bool {
    (u: User) => HasIdentifier(u, identifier)
  }

  /** `findOneByIdentifier`: a user whose email or whose phone is the identifier. */
  function FindByIdentifier(users: Table<User>, identifier: string): (r: Option<Id>)
    ensures r.Some? ==> r.value in users.rows && HasIdentifier(users.rows[r.value], identifier)
    ensures r.None? <==> forall k :: k in users.rows ==> !HasIdentifier(users.rows[k], identifier)
  {
    FirstWhere(users, IdentifierIs(identifier))
  }

  /** The `@` rule: an identifier with an `@` is an email, any other a phone. */
  predicate IsEmail(identifier: string) {
    '@' in identifier
  }

  /** The row `create({ ...body, email, phoneNumber, password })` builds:
      the body's fields, then the contact and the hash written over them. */
  function NewUser(hash: string -> string, dto: SignUpDto): User {
    User(dto.firstName, dto.lastName,
         if IsEmail(dto.identifier) then Some(dto.identifier) else None,
         if IsEmail(dto.identifier) then None else Some(dto.identifier),
         hash(dto.password), dto.role.GetOr(DefaultRole), dto.refreshToken)
  }

  /** Whether the row is wider than its columns, which makes the save fail. */
  predicate TooWide(u: User) {
    || |u.firstName| > NameWidth || |u.lastName| > NameWidth
    || (u.email.Some? && |u.email.value| > EmailWidth)
    || (u.phoneNumber.Some? && |u.phoneNumber.value| > PhoneWidth)
  }

  /** `createUser` */
  function CreateUser(users: Table<User>, hash: string -> string, dto: SignUpDto): (r: Reply<Table<User>, (Id, User)>)
    ensures r.Failed() ==> r.state == users
    ensures FindByIdentifier(users, dto.identifier).Some? ==> r.result == Err(Conflict, UserExists)
    ensures FindByIdentifier(users, dto.identifier).None? && TooWide(NewUser(hash, dto)) ==> r.result == Err(InternalServerError, CreateFailed)
    ensures r.Succeeded() <==> (forall k :: k in users.rows ==> !HasIdentifier(users.rows[k], dto.identifier)) && !TooWide(NewUser(hash, dto))
    ensures r.Succeeded() ==>
      var u := r.result.value.1;
      && r.result.value.0 == users.next
      && (u.email == Some(dto.identifier) <==> IsEmail(dto.identifier))
      && (u.phoneNumber == Some(dto.identifier) <==> !IsEmail(dto.identifier))
      && (u.email.None? <==> u.phoneNumber.Some?)
      && u.password == hash(dto.password)
      && u.firstName == dto.firstName && u.lastName == dto.lastName
      && u.role == dto.role.GetOr(Customer) && u.refreshToken == dto.refreshToken
      && r.state.rows.Keys == users.rows.Keys + {users.next}
      && r.state.rows[users.next] == u
      && (forall k :: k in users.rows ==> r.state.rows[k] == users.rows[k])
  {
    if FindByIdentifier(users, dto.identifier).Some? then Fail(users, Conflict, UserExists)
    else
      var u := NewUser(hash, dto);
      if TooWide(u) then Fail(users, InternalServerError, CreateFailed)
      else Done(Insert(users, u), (users.next, u))
  }

  /** A body that names a role gets it: anyone may sign up as an admin. */
  lemma SignUpBodyChoosesRole(users: Table<User>, hash: string -> string, dto: SignUpDto)
    requires dto.role == Some(Admin)
    requires forall k :: k in users.rows ==> !HasIdentifier(users.rows[k], dto.identifier)
    requires !TooWide(NewUser(hash, dto))
    ensures var r := CreateUser(users, hash, dto);
      r.Succeeded() && r.state.rows[users.next].role == Admin
  {
  }

  /** The body as a pipe that strips undeclared properties passes it on. */
  function Whitelist(dto: SignUpDto): (d: SignUpDto)
    ensures d.role.None? && d.refreshToken.None?
    ensures d.firstName == dto.firstName && d.lastName == dto.lastName
    ensures d.identifier == dto.identifier && d.password == dto.password
  {
    dto.(role := None, refreshToken := None)
  }

  /** `createUser` on the whitelisted body: a new user is always a customer
      without a refresh token, and everything else is as before. */
  function CreateUserWhitelisted(users: Table<User>, hash: string -> string, dto: SignUpDto): (r: Reply<Table<User>, (Id, User)>)
    ensures r.Succeeded() <==> CreateUser(users, hash, dto).Succeeded()
    ensures r.Failed() ==> r == CreateUser(users, hash, dto)
    ensures r.Succeeded() ==>
      var u := r.result.value.1;
      && u.role == Customer && u.refreshToken.None?
      && u == CreateUser(users, hash, dto).result.value.1.(role := Customer, refreshToken := None)
      && r.result.value.0 == users.next
      && r.state == Insert(users, u)
  {
    CreateUser(users, hash, Whitelist(dto))
  }

  /** For a body with only the declared fields, whitelisting changes nothing. */
  lemma WhitelistKeepsDeclaredBody(users: Table<User>, hash: string -> string, dto: SignUpDto)
    requires dto.role.None? && dto.refreshToken.None?
    ensures CreateUserWhitelisted(users, hash, dto) == CreateUser(users, hash, dto)
  {
    assert Whitelist(dto) == dto;
  }

  /** The unique constraints on email and phone number. */
  predicate UniqueContacts(users: Table<User>) {
    && (forall a, b :: a in users.rows && b in users.rows && users.rows[a].email.Some? && users.rows[a].email == users.rows[b].email ==> a == b)
    && (forall a, b :: a in users.rows && b in users.rows && users.rows[a].phoneNumber.Some? && users.rows[a].phoneNumber == users.rows[b].phoneNumber ==> a == b)
  }

  /** Creation keeps email and phone unique, and the identifier then finds
      exactly the new user. */
  lemma CreateUserKeepsContactsUnique(users: Table<User>, hash: string -> string, dto: SignUpDto)
    requires UniqueContacts(users)
    ensures UniqueContacts(CreateUser(users, hash, dto).state)
    ensures CreateUser(users, hash, dto).Succeeded() ==> FindByIdentifier(CreateUser(users, hash, dto).state, dto.identifier) == Some(users.next)
  {
    var r := CreateUser(users, hash, dto);
    if r.Succeeded() {
      var t := r.state;
      var n := users.next;
      forall k | k in users.rows
        ensures t.rows[k] == users.rows[k]
        ensures !HasIdentifier(t.rows[k], dto.identifier)
      {
      }
      assert HasIdentifier(t.rows[n], dto.identifier);
      var f := FindByIdentifier(t, dto.identifier);
      assert f.Some? && f.value == n;
    }
  }

  /** `updateRefreshToken`: the hash of the token is stored. An unknown id
      matches no row and changes nothing. */
  function UpdateRefreshToken(users: Table<User>, hash: string -> string, id: Id, token: string): (r: Table<User>)
    ensures r.rows.Keys == users.rows.Keys
    ensures id in users.rows ==> r.rows[id] == users.rows[id].(refreshToken := Some(hash(token)))
    ensures forall k :: k in users.rows && k != id ==> r.rows[k] == users.rows[k]
  {
    if id in users.rows then Put(users, id, users.rows[id].(refreshToken := Some(hash(token)))) else users
  }

  /** `clearRefreshToken` */
  function ClearRefreshToken(users: Table<User>, id: Id): (r: Table<User>)
    ensures r.rows.Keys == users.rows.Keys
    ensures id in users.rows ==> r.rows[id] == users.rows[id].(refreshToken := None)
    ensures forall k :: k in users.rows && k != id ==> r.rows[k] == users.rows[k]
  {
    if id in users.rows then Put(users, id, users.rows[id].(refreshToken := None)) else users
  }

  /** Two tables with the same rows up to refresh tokens. */
  predicate SameContacts(a: Table<User>, b: Table<User>) {
    && a.rows.Keys == b.rows.Keys
    && forall k :: k in a.rows ==> a.rows[k].email == b.rows[k].email && a.rows[k].phoneNumber == b.rows[k].phoneNumber
  }

  lemma UniqueContactsTransfer(a: Table<User>, b: Table<User>)
    requires UniqueContacts(a) && SameContacts(a, b)
    ensures UniqueContacts(b)
  {
  }

  /** Neither token update touches an email or a phone number, so the unique
      constraints survive them. */
  lemma TokenUpdatesKeepContactsUnique(users: Table<User>, hash: string -> string, id: Id, token: string)
    requires UniqueContacts(users)
    ensures UniqueContacts(UpdateRefreshToken(users, hash, id, token))
    ensures UniqueContacts(ClearRefreshToken(users, id))
  {
    UniqueContactsTransfer(users, UpdateRefreshToken(users, hash, id, token));
    UniqueContactsTransfer(users, ClearRefreshToken(users, id));
  }
}

=== FILE: validators.dfy ===
/** The request-body rules of the catalog DTOs: the slug pattern
    `^[a-z0-9]+(?:-[a-z0-9]+)*$`, inclusive length bounds, UUID and
    two-decimal money checks. A length is the number of characters of the
    string. The validator library counts code points, less the variation
    selectors U+FE0E and U+FE0F, so the model's count agrees with it only on
    text without those selectors and with each `char` one code point. */
module Validators {
  import opened Wrappers

  predicate SlugChar(c: char) {
    'a' <= c <= 'z' || '0' <= c <= '9'
  }

  /** What may follow a run character: nothing, another run character, or a
      hyphen that starts a new run. */
  predicate SlugTail(s: string)
    decreases |s|
  {
    || |s| == 0
    || (SlugChar(s[0]) && SlugTail(s[1..]))
    || (|s| >= 2 && s[0] == '-' && SlugChar(s[1]) && SlugTail(s[2..]))
  }

  /** The slug pattern: runs of lowercase letters and digits joined by single hyphens. */
  predicate IsSlug(s: string) {
    |s| > 0 && SlugChar(s[0]) && SlugTail(s[1..])
  }

  predicate OverSlugAlphabet(s: string) {
    forall i :: 0 <= i < |s| ==> SlugChar(s[i]) || s[i] == '-'
  }

  predicate NoDoubleHyphen(s: string) {
    forall i :: 0 <= i < |s| - 1 ==> !(s[i] == '-' && s[i + 1] == '-')
  }

  /** The independent, character-level reading of the slug pattern. */
  predicate WellFormedSlug(s: string) {
    && |s| > 0
    && OverSlugAlphabet(s)
    && s[0] != '-'
    && s[|s| - 1] != '-'
    && NoDoubleHyphen(s)
  }

  lemma {:induction false} SlugTailIff(s: string)
    decreases |s|
    ensures SlugTail(s) <==>
      OverSlugAlphabet(s) && NoDoubleHyphen(s) && (|s| == 0 || s[|s| - 1] != '-')
  {
    if |s| == 0 {
    } else if SlugChar(s[0]) {
      SlugTailIff(s[1..]);
      assert forall i :: 1 <= i < |s| ==> s[i] == s[1..][i - 1];
      if |s| >= 2 && s[0] == '-' {
      }
    } else if s[0] == '-' {
      if |s| >= 2 {
        SlugTailIff(s[2..]);
        assert forall i :: 2 <= i < |s| ==> s[i] == s[2..][i - 2];
        if OverSlugAlphabet(s) && NoDoubleHyphen(s) && s[|s| - 1] != '-' {
          assert s[1] != '-';
        }
      }
    } else {
      assert !OverSlugAlphabet(s);
    }
  }

  /** The automaton and the character-level reading agree on every string. */
  lemma SlugCharacterization(s: string)
    ensures IsSlug(s) <==> WellFormedSlug(s)
  {
    if |s| > 0 {
      SlugTailIff(s[1..]);
      assert forall i :: 1 <= i < |s| ==> s[i] == s[1..][i - 1];
    }
  }

  /** `"mens-fashion"` is a slug. */
  lemma SlugAccepted()
    ensures IsSlug("mens-fashion")
  {
    SlugCharacterization("mens-fashion");
  }

  /** A leading, trailing or doubled hyphen is rejected. */
  lemma SlugHyphenRejected()
    ensures !IsSlug("-mens") && !IsSlug("mens-") && !IsSlug("mens--fashion")
  {
    SlugCharacterization("-mens");
    SlugCharacterization("mens-");
    SlugCharacterization("mens--fashion");
    assert "mens--fashion"[4] == '-' && "mens--fashion"[5] == '-';
  }

  /** An upper-case letter, a space and the empty string are rejected. */
  lemma SlugCharRejected()
    ensures !IsSlug("Mens") && !IsSlug("mens fashion") && !IsSlug("")
  {
    assert !SlugChar("Mens"[0]);
    SlugCharacterization("mens fashion");
    assert !SlugChar("mens fashion"[4]) && "mens fashion"[4] != '-';
  }

  /** `@Length(lo, hi)` */
  predicate LengthIn(s: string, lo: nat, hi: nat) {
    lo <= |s| <= hi
  }

  /** An optional field's rule applies only when the field is present. */
  predicate OptLengthIn(s: Option<string>, lo: nat, hi: nat) {
    s.Some? ==> LengthIn(s.value, lo, hi)
  }

  predicate HexChar(c: char) {
    '0' <= c <= '9' || 'a' <= c <= 'f' || 'A' <= c <= 'F'
  }

  predicate HexRun(s: string, from: nat, n: nat)
    requires from + n <= |s|
  {
    forall i :: from <= i < from + n ==> HexChar(s[i])
  }

  /** `@IsUUID()`: five hexadecimal groups of 8, 4, 4, 4 and 12 digits. */
  predicate IsUuid(s: string) {
    && |s| == 36
    && s[8] == '-' && s[13] == '-' && s[18] == '-' && s[23] == '-'
    && HexRun(s, 0, 8) && HexRun(s, 9, 4) && HexRun(s, 14, 4) && HexRun(s, 19, 4) && HexRun(s, 24, 12)
  }

  /** `@IsNumber({ maxDecimalPlaces: 2 })`: a whole number of cents. */
  predicate AtMostTwoDecimals(x: real) {
    (x * 100.0).Floor as real == x * 100.0
  }

  /** `@Min(0)` with two decimals, for the product prices. */
  predicate ValidPrice(x: real) {
    x >= 0.0 && AtMostTwoDecimals(x)
  }

  datatype EditProductDto = EditProductDto(
    name: string,
    slug: string,
    shortDescription: string,
    description: Option<string>,
    currentPrice: real,
    originalPrice: Option<real>,
    imageUrl: string,
    imageUrls: seq<string>,
    category: string,
    subcategory: string,
    isBestSeller: Option<bool>,
    isFeatured: Option<bool>)

  predicate ValidEditProductDto(d: EditProductDto) {
    && LengthIn(d.name, 2, 50)
    && LengthIn(d.slug, 2, 60) && IsSlug(d.slug)
    && LengthIn(d.shortDescription, 2, 200)
    && OptLengthIn(d.description, 2, 1000)
    && ValidPrice(d.currentPrice)
    && (d.originalPrice.Some? ==> ValidPrice(d.originalPrice.value))
    && LengthIn(d.imageUrl, 2, 255)
    && IsUuid(d.category) && IsUuid(d.subcategory)
  }

  /** `Ref` is how the referenced category is given: its text on the wire, its
      id once resolved. */
  datatype CreateSubCategoryDto<Ref> = CreateSubCategoryDto(
    name: string,
    slug: string,
    imageUrl: Option<string>,
    category: Option<Ref>)

  predicate ValidCreateSubCategoryDto(d: CreateSubCategoryDto<string>) {
    && LengthIn(d.name, 2, 100)
    && LengthIn(d.slug, 2, 100) && IsSlug(d.slug)
    && OptLengthIn(d.imageUrl, 2, 255)
  }

  datatype UpdateCategoryDto = UpdateCategoryDto(
    name: Option<string>,
    slug: Option<string>,
    imageUrl: Option<string>)

  predicate ValidUpdateCategoryDto(d: UpdateCategoryDto) {
    && OptLengthIn(d.name, 2, 100)
    && OptLengthIn(d.slug, 2, 100)
    && (d.slug.Some? ==> IsSlug(d.slug.value))
    && OptLengthIn(d.imageUrl, 2, 255)
  }

  /** `Ref` is how the product is given: its text on the wire, its id once resolved. */
  datatype CreateBannerDto<Ref> = CreateBannerDto(
    name: string,
    slug: string,
    description: string,
    imageUrl: Option<string>,
    isActive: Option<bool>,
    product: Ref)

  predicate ValidCreateBannerDto(d: CreateBannerDto<string>) {
    && LengthIn(d.name, 2, 100)
    && LengthIn(d.slug, 2, 100) && IsSlug(d.slug)
    && LengthIn(d.description, 2, 200)
    && OptLengthIn(d.imageUrl, 2, 255)
    && LengthIn(d.product, 2, 255)
  }

  /** Every accepted slug, from any of the four DTOs, has the character-level
      shape: no leading, trailing or doubled hyphen, only [a-z0-9-]. */
  lemma AcceptedSlugsAreWellFormed(p: EditProductDto, s: CreateSubCategoryDto<string>, c: UpdateCategoryDto, b: CreateBannerDto<string>)
    ensures ValidEditProductDto(p) ==> WellFormedSlug(p.slug)
    ensures ValidCreateSubCategoryDto(s) ==> WellFormedSlug(s.slug)
    ensures ValidUpdateCategoryDto(c) && c.slug.Some? ==> WellFormedSlug(c.slug.value)
    ensures ValidCreateBannerDto(b) ==> WellFormedSlug(b.slug)
  {
    SlugCharacterization(p.slug);
    SlugCharacterization(s.slug);
    if c.slug.Some? { SlugCharacterization(c.slug.value); }
    SlugCharacterization(b.slug);
  }

  /** The empty update is valid: every field of `UpdateCategoryDto` is optional. */
  lemma EmptyCategoryUpdateIsValid()
    ensures ValidUpdateCategoryDto(UpdateCategoryDto(None, None, None))
  {
  }

  /** A product price of 19.99 is accepted, 19.999 and -1 are not. */
  lemma PriceExamples()
    ensures ValidPrice(19.99)
    ensures !ValidPrice(19.999) && !ValidPrice(-1.0)
  {
    assert (19.99 * 100.0).Floor == 1999;
    assert (19.999 * 100.0).Floor == 1999;
  }
}

=== FILE: wishlist.dfy ===
/** `WishlistService`: a join table of (user, product) rows stamped with their
    insert time. Lookups here are checked and answered with not-found. */
module Wishlists {
  import opened Wrappers
  import opened Table
  import opened Schema

  datatype AddToWishlistDto = AddToWishlistDto(userId: Id, productId: Id)

  const UserNotFound := "User not found!"
  const ProductNotFound := "Product not found!"
  const AlreadyInWishlist := "Product is already in wishlist"
  const ItemNotFound := "Wishlist item not found"

  predicate IsPair(row: WishlistRow, user: Id, product: Id) {
    row.user == user && row.product == product
  }

  predicate SamePair(x: WishlistRow, y: WishlistRow) {
    x.user == y.user && x.product == y.product
  }

  /** The unique (user, product) constraint of the wishlist table. */
  predicate OneRowPerPair(w: Table<WishlistRow>) {
    forall a, b :: a in w.rows && b in w.rows && SamePair(w.rows[a], w.rows[b]) ==> a == b
  }

  function FindPair(w: Table<WishlistRow>, user: Id, product: Id): (r: Option<Id>)
    ensures r.Some? ==> r.value in w.rows && IsPair(w.rows[r.value], user, product)
    ensures r.None? <==> forall k :: k in w.rows ==> !IsPair(w.rows[k], user, product)
  {
    FirstWhere(w, (row: WishlistRow) => IsPair(row, user, product))
  }

  /** `addToWishlist` at instant `now`: the user is checked first, then the
      product, then the pair. Returns the saved row. */
  function AddToWishlist(db: Db, dto: AddToWishlistDto, now: int): (r: Reply<Db, WishlistRow>)
    ensures r.Failed() ==> r.state == db
    ensures dto.userId !in db.users.rows ==> r.result == Err(NotFound, UserNotFound)
    ensures dto.userId in db.users.rows && dto.productId !in db.products.rows ==>
      r.result == Err(NotFound, ProductNotFound)
    ensures dto.userId in db.users.rows && dto.productId in db.products.rows &&
      (exists k :: k in db.wishlist.rows && IsPair(db.wishlist.rows[k], dto.userId, dto.productId))
      ==> r.result == Err(Conflict, AlreadyInWishlist)
    ensures r.Succeeded() <==>
      && dto.userId in db.users.rows && dto.productId in db.products.rows
      && forall k :: k in db.wishlist.rows ==> !IsPair(db.wishlist.rows[k], dto.userId, dto.productId)
    ensures r.Succeeded() ==>
      && r.state == db.(wishlist := r.state.wishlist)
      && r.state.wishlist.rows.Keys == db.wishlist.rows.Keys + {db.wishlist.next}
      && r.state.wishlist.rows[db.wishlist.next] == WishlistRow(dto.userId, dto.productId, now)
      && r.result.value == WishlistRow(dto.userId, dto.productId, now)
      && (forall k :: k in db.wishlist.rows ==> r.state.wishlist.rows[k] == db.wishlist.rows[k])
  {
    if dto.userId !in db.users.rows then Fail(db, NotFound, UserNotFound)
    else if dto.productId !in db.products.rows then Fail(db, NotFound, ProductNotFound)
    else if FindPair(db.wishlist, dto.userId, dto.productId).Some? then Fail(db, Conflict, AlreadyInWishlist)
    else
      var row := WishlistRow(dto.userId, dto.productId, now);
      Done(db.(wishlist := Insert(db.wishlist, row)), row)
  }

  /** `addToWishlist` keeps the unique-pair constraint. */
  lemma AddToWishlistKeepsOneRowPerPair(db: Db, dto: AddToWishlistDto, now: int)
    requires OneRowPerPair(db.wishlist)
    ensures OneRowPerPair(AddToWishlist(db, dto, now).state.wishlist)
  {
    var r := AddToWishlist(db, dto, now);
    if r.Succeeded() {
      var t := r.state.wishlist;
      var n := db.wishlist.next;
      forall a, b | a in t.rows && b in t.rows && SamePair(t.rows[a], t.rows[b])
        ensures a == b
      {
      }
    }
  }

  /** `removeFromWishlist`: no user or product check, only the pair's row. */
  function RemoveFromWishlist(db: Db, user: Id, product: Id): (r: Reply<Db, Option<WishlistRow>>)
    ensures r.Failed() ==> r.state == db
    ensures r.Succeeded() <==> exists k :: k in db.wishlist.rows && IsPair(db.wishlist.rows[k], user, product)
    ensures r.Failed() ==> r.result == Err(NotFound, ItemNotFound)
    ensures r.Succeeded() ==>
      var k := FindPair(db.wishlist, user, product).value;
      && r.result.value == None
      && r.state == db.(wishlist := r.state.wishlist)
      && r.state.wishlist.rows.Keys == db.wishlist.rows.Keys - {k}
      && (forall j :: j in r.state.wishlist.rows ==> r.state.wishlist.rows[j] == db.wishlist.rows[j])
  {
    match FindPair(db.wishlist, user, product)
    case None => Fail(db, NotFound, ItemNotFound)
    case Some(k) => Done(db.(wishlist := Delete(db.wishlist, k)), None)
  }

  /** Under the unique-pair constraint, a removal leaves no row for the pair. */
  lemma RemoveLeavesNoRowForPair(db: Db, user: Id, product: Id)
    requires OneRowPerPair(db.wishlist)
    ensures var r := RemoveFromWishlist(db, user, product);
      forall k :: k in r.state.wishlist.rows ==> !IsPair(r.state.wishlist.rows[k], user, product)
  {
    var r := RemoveFromWishlist(db, user, product);
    if r.Succeeded() {
      var k := FindPair(db.wishlist, user, product).value;
      forall j | j in r.state.wishlist.rows
        ensures !IsPair(r.state.wishlist.rows[j], user, product)
      {
        if IsPair(db.wishlist.rows[j], user, product) {
          assert SamePair(db.wishlist.rows[j], db.wishlist.rows[k]);
        }
      }
    }
  }

  type Entry = (Id, WishlistRow)

  /** `order: { createdAt: 'DESC' }` */
  ghost predicate NewestFirst(s: seq<Entry>) {
    forall i, j :: 0 <= i < j < |s| ==> s[i].1.createdAt >= s[j].1.createdAt
  }

  /** Place `x` into a newest-first sequence. */
  function InsertNewest(x: Entry, s: seq<Entry>): (r: seq<Entry>)
    requires NewestFirst(s)
    ensures |r| == |s| + 1
    ensures forall e :: e in r <==> e == x || e in s
    ensures NewestFirst(r)
    ensures multiset(r) == multiset(s) + multiset{x}
  {
    if |s| == 0 || s[0].1.createdAt <= x.1.createdAt then [x] + s
    else
      var rest := InsertNewest(x, s[1..]);
      var r := [s[0]] + rest;
      forall i, j | 0 <= i < j < |r|
        ensures r[i].1.createdAt >= r[j].1.createdAt
      {
        if i == 0 {
          assert r[j] in rest;
        } else {
          assert r[i] == rest[i - 1] && r[j] == rest[j - 1];
        }
      }
      assert s == [s[0]] + s[1..];
      r
  }

  /** Sort entries newest first. */
  function SortNewest(s: seq<Entry>): (r: seq<Entry>)
    ensures forall e :: e in r <==> e in s
    ensures NewestFirst(r)
    ensures multiset(r) == multiset(s)
  {
    if |s| == 0 then []
    else
      assert s == [s[0]] + s[1..];
      InsertNewest(s[0], SortNewest(s[1..]))
  }

  lemma DistinctKeysTail(s: seq<Entry>)
    requires |s| > 0 && DistinctKeys(s)
    ensures DistinctKeys(s[1..])
    ensures forall e :: e in s[1..] ==> e.0 != s[0].0
  {
    forall a, b | 0 <= a < b < |s[1..]| ensures s[1..][a].0 != s[1..][b].0 {
      assert s[1..][a] == s[a + 1] && s[1..][b] == s[b + 1];
    }
    forall e | e in s[1..] ensures e.0 != s[0].0 {
      var m :| 0 <= m < |s[1..]| && s[1..][m] == e;
      assert s[m + 1] == e;
    }
  }

  /** Placing an entry whose key is new keeps the keys distinct. */
  lemma {:induction false} InsertNewestKeepsDistinct(x: Entry, s: seq<Entry>)
    requires NewestFirst(s) && DistinctKeys(s)
    requires forall e :: e in s ==> e.0 != x.0
    ensures DistinctKeys(InsertNewest(x, s))
  {
    var r := InsertNewest(x, s);
    if |s| == 0 || s[0].1.createdAt <= x.1.createdAt {
      forall i, j | 0 <= i < j < |r| ensures r[i].0 != r[j].0 {
        if i == 0 { assert r[j] == s[j - 1]; }
        else { assert r[i] == s[i - 1] && r[j] == s[j - 1]; }
      }
    } else {
      DistinctKeysTail(s);
      assert NewestFirst(s[1..]) by {
        forall i, j | 0 <= i < j < |s[1..]| ensures s[1..][i].1.createdAt >= s[1..][j].1.createdAt {
          assert s[1..][i] == s[i + 1] && s[1..][j] == s[j + 1];
        }
      }
      InsertNewestKeepsDistinct(x, s[1..]);
      var rest := InsertNewest(x, s[1..]);
      assert r == [s[0]] + rest;
      forall i, j | 0 <= i < j < |r| ensures r[i].0 != r[j].0 {
        if i == 0 {
          assert r[j] in rest;
        } else {
          assert r[i] == rest[i - 1] && r[j] == rest[j - 1];
        }
      }
    }
  }

  /** Sorting keeps distinct keys distinct. */
  lemma {:induction false} SortNewestKeepsDistinct(s: seq<Entry>)
    requires DistinctKeys(s)
    ensures DistinctKeys(SortNewest(s))
  {
    if |s| > 0 {
      DistinctKeysTail(s);
      SortNewestKeepsDistinct(s[1..]);
      InsertNewestKeepsDistinct(s[0], SortNewest(s[1..]));
    }
  }

  /** `getWishlist`: the user's rows, newest first. */
  function GetWishlist(db: Db, user: Id): (r: Result<seq<Entry>>)
    ensures r.Ok? <==> user in db.users.rows
    ensures user !in db.users.rows ==> r == Err(NotFound, UserNotFound)
    ensures r.Ok? ==> NewestFirst(r.value)
    ensures r.Ok? ==> DistinctKeys(r.value)
    ensures r.Ok? ==> forall j :: 0 <= j < |r.value| ==>
      r.value[j].0 in db.wishlist.rows && db.wishlist.rows[r.value[j].0] == r.value[j].1 && r.value[j].1.user == user
    ensures r.Ok? ==> forall k :: k in db.wishlist.rows && db.wishlist.rows[k].user == user ==>
      (k, db.wishlist.rows[k]) in r.value
  {
    if user !in db.users.rows then Err(NotFound, UserNotFound)
    else
      var mine := Select(db.wishlist, (row: WishlistRow) => row.user == user);
      var sorted := SortNewest(mine);
      SortNewestKeepsDistinct(mine);
      forall j | 0 <= j < |sorted|
        ensures sorted[j].0 in db.wishlist.rows && db.wishlist.rows[sorted[j].0] == sorted[j].1 && sorted[j].1.user == user
      {
        assert sorted[j] in mine;
      }
      Ok(sorted)
  }
}

=== FILE: wrappers.dfy ===
/** Option, Result and the service reply shape shared by every module. */
module Wrappers {

  datatype Option<+T> = None | Some(value: T) {
    /** The value, or `default` when absent (the source's `x ?? default`). */
    function GetOr(default: T): T {
      match this
      case Some(v) => v
      case None => default
    }
  }

  /** How a failure reaches the HTTP client. The first five are the framework's
      typed exceptions; `Uncaught` is any other error (persistence errors, token
      errors, a plain `Error`), which the framework answers with status 500. */
  datatype ErrorKind =
    | BadRequest
    | NotFound
    | Conflict
    | Unauthorized
    | InternalServerError
    | Uncaught

  datatype Result<+T> = Ok(value: T) | Err(kind: ErrorKind, message: string)

  /** What a service call leaves behind: the repositories after the call and
      either the value it returned or the error it raised. */
  datatype Reply<+S, +T> = Reply(state: S, result: Result<T>) {
    predicate Succeeded() { result.Ok? }
    predicate Failed() { result.Err? }
  }

  function Fail<S, T>(s: S, kind: ErrorKind, message: string): Reply<S, T> {
    Reply(s, Err(kind, message))
  }

  function Done<S, T>(s: S, v: T): Reply<S, T> {
    Reply(s, Ok(v))
  }

  /** A `catch` block that re-raises: success passes through, and a caught
      error becomes one of `kind` whose message `wrap` builds from the caught one. */
  function Rethrow<T>(r: Result<T>, kind: ErrorKind, wrap: string -> string): (q: Result<T>)
    ensures q.Ok? <==> r.Ok?
    ensures r.Ok? ==> q == r
    ensures r.Err? ==> q == Err(kind, wrap(r.message))
  {
    match r
    case Ok(v) => Ok(v)
    case Err(_, m) => Err(kind, wrap(m))
  }

  /** `message || fallback`: the empty string is falsy. */
  function OrElse(message: string, fallback: string): string {
    if message == "" then fallback else message
  }

  /** Decimal text of a natural number, used where a message quotes an id. */
  function NatToString(n: nat): (s: string)
    ensures |s| >= 1
    ensures forall i :: 0 <= i < |s| ==> '0' <= s[i] <= '9'
  {
    if n < 10 then [DigitChar(n)] else NatToString(n / 10) + [DigitChar(n % 10)]
  }

  function DigitChar(d: nat): (c: char)
    requires d < 10
    ensures '0' <= c <= '9'
  {
    ['0', '1', '2', '3', '4', '5', '6', '7', '8', '9'][d]
  }
}
